=== FILE: README.md ===
# India travel assistant — a Dafny model of its decision logic

The travel website has a chat assistant ("ARIA"), and it exists three times.

- `TravelAgent` in `lib/langgraph.ts` is the dialogue core the web page runs. It remembers a budget, a day count, the last place named and the traveller's interests across turns. It classifies each question, with follow-up questions about the remembered place handled separately. It answers through three tiers: the data service, then a hosted model, then a local reply generator that works over the destination catalog.
- `backend/services.py` is the Python twin of that core. It has a rule-based intent reader, two catalog filters and its own local generators.
- `api-backend/backend/services.py` is an older FastAPI service. It has dictionary validators for destination records, a simpler intent reader, price statistics and generators.

Around the assistant sit several small pure pieces, all modelled here:

- the analytics endpoints of `api-backend/backend/main.py`;
- the mock mode of the store client `backend/database.py`;
- the request models of `backend/models_simple.py`;
- the landing-page carousel `components/hero-banner.tsx`;
- the `.env` builder of the API-key panel, `components/free-api-setup.tsx`.

Modelling conventions:

- Everything is modelled as immutable datatypes and pure functions.
- The conversation state is a value threaded from turn to turn.
- Network answers are parameters. The data service's answer, the hosted model's completion, and the catalogs returned by the service or the store are each `Option`s, where `None` means the call failed or gave nothing.
- Replies are structured datatypes, not the emoji text the source prints.
- Ratings in the `Destination` record are kept in tenths of a star (4.8 is 48).
- Percentages are exact rational arithmetic. `Math.round` is `RoundDiv` and Python's `int()` of a non-negative product is the floor.
- The two regular expressions `₹?(\d+(?:,\d+)*)` and `(\d+)\s*days?` are hand-written scanners. Each is proved to find the leftmost match.
- Lower-casing and `\s` cover ASCII only.

Modules, one per source unit:

| module | file | source |
|---|---|---|
| `Wrappers`, `Seqs`, `Text` | wrappers.dfy, seqs.dfy, text.dfy | shared: `Option`/`Result`; filter, first match, Python slices, stable sort; case folding, substring search, the two scanners |
| `Vocabulary`, `Catalog` | vocabulary.dfy, catalog.dfy | intent kinds, interest tags, categories, tips; the destination record, rating order, the sample catalog of `lib/supabase.ts` |
| `AgentIntent`, `AgentReply`, `Agent` | agent_intent.dfy, agent_reply.dfy, agent.dfy | `lib/langgraph.ts` |
| `AgentScenarios` | agent_scenarios.dfy | three conversations on the sample catalog |
| `RuleService` | rule_service.dfy | `backend/services.py` |
| `ApiService`, `ApiMain` | api_service.dfy, api_main.dfy | `api-backend/backend/services.py`, `api-backend/backend/main.py` |
| `MockStore` | mock_store.dfy | `backend/database.py` |
| `ServiceScenarios` | service_scenarios.dfy | both Python services' price statistics on the six mock records |
| `Models` | models.dfy | `backend/models_simple.py` |
| `HeroBanner` | hero_banner.dfy | `components/hero-banner.tsx` |
| `EnvFile` | env_file.dfy | `components/free-api-setup.tsx` |

## Model

| member | source | states |
|---|---|---|
| Text.Lower | lib/langgraph.ts:97 | lower-casing keeps the length and maps every character through the ASCII case fold |
| Text.LowerNormalises | lib/langgraph.ts:210 | a lower-cased message has no upper-case letter, other characters are unchanged, and lower-casing twice is lower-casing once |
| Text.FirstIn | lib/langgraph.ts:132-137 | the keyword loop with `break` finds nothing exactly when no keyword occurs, and otherwise finds the first keyword of the list that occurs |
| Text.FirstHitIsFound | lib/langgraph.ts:132-137 | the first occurring keyword of the list is the one the loop returns |
| Text.FirstAmount | lib/langgraph.ts:100-103 | an amount is read exactly when the message has a digit, and it starts at the first digit |
| Text.AmountRoundTrip | lib/langgraph.ts:100-103 | digit-free text followed by an amount written with any comma grouping (`12,500`, `1,00,000`) yields the number its digits spell, with the commas removed |
| Text.AmountOfShow | lib/langgraph.ts:100-103 | digit-free text followed by the decimal spelling of `n` yields the amount `n` |
| Text.NumberOfShow | lib/langgraph.ts:102 | `parseInt` of the decimal spelling of `n` is `n` |
| Text.FirstDurationIffMatch | lib/langgraph.ts:106-109 | a day count is read exactly when `(\d+)\s*days?` matches somewhere in the text |
| Text.FirstDurationIsLeftmost | lib/langgraph.ts:106-109 | the day count read is the digit run of the leftmost match |
| Text.DurationOfShow | lib/langgraph.ts:106-109 | digit-free text, a number, optional white space and "day" in any case yields that number |
| Text.NoDigitsNoDuration | backend/services.py:297-300 | a message without digits names no day count, so `duration` stays None |
| Vocabulary.KindOfTag | backend/services.py:520-535 | each of the six specific type names selects its own generator, and every other string selects the general one |
| Vocabulary.KindOfTagOfName | backend/services.py:520-535 | dispatching on a kind's own name gives that kind back |
| Vocabulary.TipsFor | backend/services.py:680-690 | the tips lookup gives category-specific tips exactly for the five allowed categories and the default tips otherwise |
| Vocabulary.TipsDistinguishCategories | lib/langgraph.ts:689-699 | two different allowed categories get different tips |
| Catalog.ByRating | lib/langgraph.ts:577 | the rating sort orders records best first and is a permutation of the catalog |
| Catalog.TopRated | lib/langgraph.ts:577 | `sort(...).slice(0, n)` has `min(n, size)` records from the catalog, none more often than the catalog holds it, best first, and no record left out is rated above one taken |
| Catalog.TopRatedKeepsTies | lib/langgraph.ts:577 | the sort is stable: the records of any one rating that make the list are the first such records, in catalog order |
| Catalog.TopRatedWhere | lib/langgraph.ts:608-611 | filter then sort then slice gives at most `n` records, all passing the filter, none more often than the catalog holds it, best first, none left out rated higher; all passing records when fewer than `n` are taken, and it is empty only when no record passes |
| Catalog.FeaturedOrFirst | backend/services.py:659-661 | the first `n` featured records in catalog order (all of them when fewer), or the first `n` records when none is featured |
| AgentIntent.FirstTruthy | lib/langgraph.ts:604-605 | `a \|\| b \|\| fallback` picks the first truthy value, where 0 and absent are falsy |
| AgentIntent.FiredInterests | lib/langgraph.ts:139-147 | an interest is reported exactly when one of its cue words occurs, in the fixed report order adventure, culture, food, beach, mountain, spiritual, nature |
| AgentIntent.SomeInterestFires | lib/langgraph.ts:149-151 | the fired list is non-empty exactly when some interest's cue word occurs |
| AgentIntent.InterestOrderRanked | lib/langgraph.ts:139-147 | the report order lists the tags by increasing rank |
| AgentIntent.FiredInterestsInTagOrder | lib/langgraph.ts:139-147 | the fired interests are the only list that holds exactly the fired tags in report order |
| AgentIntent.UpdatePreferences | lib/langgraph.ts:96-152 | the budget becomes the message's first amount and the duration its first day count, and each is kept when the message has none; the last destination becomes the first remembered place found and is otherwise kept; the interests become exactly the fired tags in report order when some tag fires, and are kept unchanged when none does |
| AgentIntent.ExtractEntities | lib/langgraph.ts:272-317 | the entities are exactly the places of the 33-entry list that occur in the message |
| AgentIntent.ExtractPreferences | lib/langgraph.ts:319-346 | the per-message amount and day count use the same scanners as the update, and interests are present exactly when one of the six single-word tags occurs |
| AgentIntent.FollowUpKindIsFirstCued | lib/langgraph.ts:245-253 | a follow-up's type is the first of timing, budget and itinerary whose cues occur, else destination |
| AgentIntent.PlainKindIsFirstCued | lib/langgraph.ts:254-266 | any other question's type is the first of itinerary, budget, food, culture and timing whose cues occur, else destination when an entity was found, else general |
| AgentIntent.AnalyzeIntent | lib/langgraph.ts:204-270 | a question is contextual exactly when a follow-up phrase occurs and a place is remembered; the remembered place is then appended to the entities; a contextual type is never food, culture or general |
| AgentIntent.AnalyzeIntentRanking | lib/langgraph.ts:242-266 | the reported type is the first cued kind of whichever ranking applies |
| AgentReply.RoundDiv | lib/langgraph.ts:545 | `Math.round(a / n)` is within half a unit of the exact quotient, with halves rounded up |
| AgentReply.SplitBudget | lib/langgraph.ts:622-624 | the 35/50/15 shares are each within half a rupee of their percentage, and together within a rupee of the budget |
| AgentReply.BandOfIsFirstCued | lib/langgraph.ts:701-716 | the best-time band is the first band whose state names occur in the record's state, else the general band |
| AgentReply.DetailsOf | lib/langgraph.ts:590-601 | the details reply shows the record, with its category's own tips exactly when the category is one of the five |
| AgentReply.BudgetForDestination | lib/langgraph.ts:542-557 | the remembered budget, or 30000, is spread over the remembered duration, or 5 days; it reports a fit exactly when the budget covers the starting price |
| AgentReply.ShortPlanFor | lib/langgraph.ts:769-781 | the short plan runs over the remembered duration, or 3 days, and its closing block reads "3+" exactly when the trip is longer than two days |
| AgentReply.ContextualReply | lib/langgraph.ts:508-531 | a follow-up is answered about the first record whose name, location or state mentions the remembered place, by timing, budget, plan or details according to its type; with no such record the place is only acknowledged |
| AgentReply.DestinationReply | lib/langgraph.ts:559-588 | the first record matching an entity by name, location, state or category gets details, not the top-rated one; with no match the three best-rated records are listed |
| AgentReply.BudgetReply | lib/langgraph.ts:603-627 | at most three records, each in the catalog and within the budget, none more often than the catalog holds it, best-rated first; none left out is rated higher; all are listed when fewer than three fit; the budget defaults to 50000 and the duration to 7; the shares split that budget |
| AgentReply.ItineraryStopsLayout | lib/langgraph.ts:643-648 | one stop per pick, in pick order, visiting exactly the picks, from day 1; the runs are back to back and each is exactly `floor(d / k)` days long (at least one), so the last ends on day `d` or less, with fewer than `k` days left over |
| AgentReply.RunsBackToBack | lib/langgraph.ts:645-647 | runs from day `i * floor(d / k) + 1` to day `(i + 1) * floor(d / k)` start on day 1, follow each other without gap or overlap, and end within `d`, fewer than `k` days before it |
| AgentReply.EqualRuns | lib/langgraph.ts:645 | `floor(d / k)` is at least one day when `k ≤ d`, and `k` such runs leave fewer than `k` days over |
| AgentReply.ItineraryPlanLayout | lib/langgraph.ts:633-648 | when some record is within 70% of the budget, the plan's stops are at most `min(3, ceil(d/2))`, laid out in equal back-to-back runs, and visit the best-rated such records in descending rating order, none more often than the catalog holds it, all of them when fewer than the cap are taken |
| AgentReply.StopsBestFirst | lib/langgraph.ts:636-647 | stops laid over a best-first list with no record repeated beyond the catalog visit their records best-first, none repeated beyond the catalog |
| AgentReply.ItineraryFor | lib/langgraph.ts:633-658 | the plan has `k ≤ min(3, ceil(d/2))` best-rated records, each priced within 70% of the budget, visited in descending rating order and none more often than the catalog holds it, and every such record when fewer than that bound are taken; they are laid out as back-to-back runs of `floor(d / k)` days from day 1; the fixed prompt is given exactly when no record is within 70% |
| AgentReply.ItineraryReply | lib/langgraph.ts:629-641 | the duration is this message's, else the remembered one, else 7 days, and the budget likewise, else 40000; the prompt is given exactly when no record is within 70% of that budget, and every visited record is in the catalog and within it, visited best-rated first and none more often than the catalog holds it |
| AgentReply.GeneralReply | lib/langgraph.ts:660-687 | the welcome is given exactly when nothing is featured; otherwise up to three featured records, none more often than the catalog holds it, best-rated first, none left out rated higher, and every featured record when fewer than three are shown |
| AgentReply.TimingReply | lib/langgraph.ts:718-737 | the best time for the first record whose name or location contains an entity, else the all-India guide |
| AgentReply.LocalReply | lib/langgraph.ts:482-506 | a contextual question with a remembered place goes to the follow-up reply; anything else gets exactly the reply of its type's generator, over the question's entities or this message's preferences and the catalog |
| Agent.ServiceAnswer | lib/langgraph.ts:154-180 | the service's reply counts only when the response was OK, `success` is set and the text is not empty |
| Agent.LastN | lib/langgraph.ts:73-76 | `slice(-5)` keeps the last five entries, or all of them when there are fewer |
| Agent.GatherDestinations | lib/langgraph.ts:348-384 | the service's catalog when non-empty, else the store's when non-empty, else the built-in sample, so it is never empty |
| Agent.ComposeAnswer | lib/langgraph.ts:386-397 | the hosted model's text is used exactly when a key is set and it produced some; any failure or empty content falls back to the local reply |
| Agent.LocalWorkflow | lib/langgraph.ts:182-202 | the local workflow classifies the question, picks the catalog, answers and records the answer after the user's message |
| Agent.AnswerTurn | lib/langgraph.ts:81-92 | a truthy service reply is returned verbatim and not recorded, and the local tier is skipped; otherwise the local workflow answers |
| Agent.ProcessMessage | lib/langgraph.ts:68-93 | the messages become the last five history entries plus the user turn; the preferences are updated before any tier is tried, so they change even when the service answers |
| Agent.LocalTurn | lib/langgraph.ts:68-93 | when the service gives no answer and no hosted-model key is set, the turn is answered by the local reply to the intent read with the updated preferences, over the gathered catalog |
| Agent.FollowUpUsesRememberedPlace | lib/langgraph.ts:132-137 | after a turn that names a place, a later follow-up that names none, answered locally, is answered about that place |
| AgentScenarios.BestTimeForGoa | lib/langgraph.ts:711-712 | "what's the best time to visit goa?" as the first message is already a timing follow-up and gets the Goa band, because the preferences are updated before the intent is read |
| AgentScenarios.KeralaThenShowDates | lib/langgraph.ts:242-246 | after "Tell me about Kerala backwaters", the bare follow-up "show dates" is a timing question about Kerala, answered from the backwaters record with the southern (Nov-Feb) band of lines 707-708 |
| AgentScenarios.PlanRequestBudget | lib/langgraph.ts:100-103 | in "plan a 7-day golden triangle tour" the 7 is read as the budget |
| AgentScenarios.PlanRequestDuration | lib/langgraph.ts:106 | "7-day" is not a day count, because the hyphen is not white space |
| AgentScenarios.PlanningTheGoldenTriangle | lib/langgraph.ts:231-253 | that request is an itinerary follow-up about the golden triangle, which no sample record mentions, so the reply only acknowledges the place |
| RuleService.BudgetDestinations | backend/services.py:118-128 | exactly the records priced within the budget, in store order, cut to `limit`: a prefix of the filter, with all of it when fewer than `limit` |
| RuleService.CueKindIsFirstCued | backend/services.py:267-276 | the cue cascade picks the first of itinerary, budget, food, culture and timing whose cues occur, and general exactly when none does |
| RuleService.PlacesIn | backend/services.py:279-289 | the places reported are exactly those of the 18-entry list that occur in the message |
| RuleService.MentionedInterests | backend/services.py:302-312 | an interest tag is reported exactly when its name occurs |
| RuleService.AnalyzeRuleBased | backend/services.py:236-322 | `contextual` is Python's `and` result, which is truthy exactly when a follow-up phrase occurs and a place is remembered, and then the place is the first destination; the amount is read from the message as typed and the day count from it lower-cased, each None when absent |
| RuleService.RuleBasedRanking | backend/services.py:257-289 | the type is the first cued kind of the ranking that applies; a named place upgrades only general to destination, so a contextual question is never general |
| RuleService.SearchAll | backend/services.py:338-344 | exactly the records some name's search finds, and the first name's results come first, in their order |
| RuleService.SearchAllAppend | backend/services.py:338-344 | extending the result list name by name: searching `a + b` gives the results for `a` followed by those for `b`, and one name gives exactly its own results, so the list is the per-name results concatenated in name order, repeats kept |
| RuleService.FetchRelevantData | backend/services.py:324-369 | the budget list is fetched exactly for a budget question with a non-zero amount, the search exactly for a destination question naming places, and the top five always |
| RuleService.DestinationCardReply | backend/services.py:537-580 | the corrected generator, reading every record by attribute: the first search hit, else the first catalog record naming an entity, is shown with its category's tips; otherwise the first three of the top-rated list |
| RuleService.FloorShares | backend/services.py:614-616 | the truncated 35/50/15 shares never add up to more than the budget and fall short by at most two rupees |
| RuleService.BudgetOutlineReply | backend/services.py:582-618 | the corrected generator, reading every record by attribute: at most three records, the fetched budget list, else the first three catalog records within the budget; the shares are the truncated ones |
| RuleService.TwoStops | backend/services.py:636-645 | at most two stops; stop 1 covers day 1 to `max(1, d // k)`, and stop 2 starts the day after and always ends on day `d` |
| RuleService.TwoStopReply | backend/services.py:620-655 | the prompt is given exactly when nothing is suitable; otherwise the first two suitable records become the two-stop plan |
| RuleService.FeaturedReply | backend/services.py:657-678 | the first three featured records in catalog order (a prefix of the featured filter, all of it when shorter), or the first three records when none is featured |
| RuleService.LocalResponseAsWritten | backend/services.py:512-535 | dispatch on the type as written: a budget question without an amount fails, and so does a plan without a day count once there are records to plan with; when the queries return model objects, so does every answer that reads a fetched record with `.get` (a search hit, the top-rated list, the fetched budget list) |
| RuleService.LocalResponse | backend/services.py:512-535 | each type string selects exactly one generator, with the named defaults 50000 and 7 applied to absent numbers |
| RuleService.LocalResponsesAgree | backend/services.py:589-590 | when both numbers are present, the dispatch as written and the one with defaults give the same answer |
| RuleService.SelectIntent | backend/services.py:180-234 | the hosted model's intent is used when a key is set and its answer parsed; otherwise the rule-based reading |
| RuleService.ModelAnswer | backend/services.py:508-510 | a failed model call gives the fixed apology, never the local reply |
| RuleService.ProcessMessageAsWritten | backend/services.py:150-178 | as written: the context fails without an amount; past it, a key selects the hosted model and no key selects the local reply as written, whose failure is the turn's failure |
| RuleService.ProcessMessage | backend/services.py:175-178 | with the absent amount shown as unspecified, every message gets an answer: the hosted model's when a key is set, else the local one |
| RuleService.AsWrittenAgreesWhenNumbersPresent | backend/services.py:433 | whenever a message states both an amount and a day count, the service as written answers exactly as the corrected one, except that it fails when the local answer reads a fetched model object |
| RuleService.DigitFreeMessageFails | backend/services.py:433 | as written, every digit-free message read by the rules fails, whatever it asks and whether or not a key is set |
| RuleService.PlanWithoutDayCountFails | backend/services.py:627-638 | as written, a plan request with an amount but no day count fails when there are records |
| RuleService.BudgetDefaults | backend/services.py:589-590 | a budget question without numbers gets the 50000 budget, split 35/50/15, over seven days |
| RuleService.DigitFreeBudgetQuestionUsesDefault | backend/services.py:589-590 | corrected: a digit-free money question is answered with the 50000 budget and its shares |
| RuleService.PlanDefaults | backend/services.py:627-631 | an itinerary question without a day count is planned over seven days from the first two catalog records |
| RuleService.PlanRequestIsItinerary | backend/services.py:267-268 | a message containing "plan" with no remembered place is an itinerary question |
| RuleService.PlanWithoutDayCountUsesSevenDays | backend/services.py:627-645 | corrected: a plan request without a day count is planned over seven days |
| RuleService.BudgetListNonEmpty | backend/services.py:118-127 | a record priced within the budget is fetched, so the budget list is not empty |
| RuleService.BudgetIntentReadsModelObjects | backend/services.py:593-603 | as written, with model objects: a budget intent that some record fits fails on the fetched list |
| RuleService.BudgetAnswerReadsModelObjects | backend/services.py:593-603 | as written, with model objects and no key: a budget question that some record fits is never answered |
| RuleService.BudgetIntentListsFetched | backend/services.py:593-603 | corrected: the same intent lists the first three fetched budget records |
| RuleService.BudgetAnswerListsFetchedRecords | backend/services.py:593-603 | corrected: the same question is answered with the first three fetched budget records |
| RuleService.DestinationIntentReadsModelObjects | backend/services.py:546-562 | as written, with model objects: a destination intent whose first place the search finds fails on the first hit |
| RuleService.DestinationAnswerReadsModelObjects | backend/services.py:546-562 | as written, with model objects and no key: such a destination question is never answered |
| RuleService.DestinationIntentShowsFirstHit | backend/services.py:546-562 | corrected: the same intent gets the card of the first record found for its first place |
| RuleService.DestinationAnswerShowsFirstHit | backend/services.py:546-562 | corrected: the same question is answered with the card of the first record found |
| RuleService.SearchAllHead | backend/services.py:338-344 | the concatenated search starts with the first name's first result |
| ApiService.ValidateCreate | api-backend/backend/services.py:71-93 | refused exactly when a key is missing or a value is out of bounds; the first missing key of the seven is reported before any value is checked; then category, rating and price in that order |
| ApiService.ValidateUpdate | api-backend/backend/services.py:105-124 | only the fields present are checked, so an absent field is never a reason to refuse; category before rating before price |
| ApiService.CreateIsCheckedUpdate | api-backend/backend/services.py:74-90 | a complete dictionary gets the update's verdict, and whatever creating accepts, updating accepts too |
| ApiService.AcceptsCompleteValid | api-backend/backend/services.py:74-92 | a dictionary with all seven keys and acceptable values reaches the store |
| ApiService.ApiCueKindIsFirstCued | api-backend/backend/services.py:188-197 | the cascade picks the first of itinerary, budget, food, culture and timing whose cues occur, else general |
| ApiService.ApiPlacesIn | api-backend/backend/services.py:199-207 | the entities are exactly the places of the 12-entry list that occur in the message |
| ApiService.PlacesAgreeWithRuleService | api-backend/backend/services.py:200-203 | this service's places are a prefix of the rule-based service's places for every message |
| ApiService.AnalyzeIntent | api-backend/backend/services.py:180-215 | a named place upgrades only general to destination, and the confidence is always 0.8 |
| ApiService.ApiIntentRanking | api-backend/backend/services.py:188-209 | the type is the first cued kind; with none cued, destination when a place is named, else general |
| ApiService.SpotlightReply | api-backend/backend/services.py:308-341 | with entities, the first record whose lower-cased name or location contains one; otherwise the three best-rated records |
| ApiService.PositivePrices | api-backend/backend/services.py:348 | the positive prices in catalog order, one per record with a positive price |
| ApiService.BudgetGuide | api-backend/backend/services.py:343-375 | an empty catalog gives "no current pricing" and no positive price gives "no pricing data"; otherwise min ≤ floor mean ≤ max over the positive prices, and the bands are cut at half and twice the mean |
| ApiService.WelcomeReply | api-backend/backend/services.py:452-457 | the first four featured records in catalog order (a prefix of the featured filter, all of it when shorter), or the first four records when none is featured |
| ApiService.LocalResponse | api-backend/backend/services.py:291-306 | each of the five known types selects its generator; every other type gets the welcome |
| ApiService.PlanRequestsGetWelcome | api-backend/backend/services.py:188-189 | a planning request is answered with the welcome, since this service has no itinerary generator |
| ApiService.ProcessMessage | api-backend/backend/services.py:175-178 | a Groq key selects Groq, and a Groq failure gives the fixed message, never the local reply; without a key the local reply is given |
| ApiMain.ChatWithAi | api-backend/backend/main.py:209-238 | a missing or empty message is refused with 400 before the catalog is fetched; any other message is answered |
| ApiMain.EmptyMessageIgnoresCatalog | api-backend/backend/main.py:213-217 | the refusal does not depend on the catalog or the model |
| ApiMain.PopularDestinations | api-backend/backend/main.py:283-294 | at most `limit` records (Python's slice, negative limits included), best-rated first, none left out rated higher, none more often than the catalog holds it, with their count; all records when there is no limit |
| ApiMain.PopularIsTopRated | api-backend/backend/main.py:288 | for a non-negative limit, the popular list is exactly the top-rated list of that length that the dialogue core shows |
| ApiMain.PopularKeepsTies | api-backend/backend/main.py:288 | `sorted` is stable: for every rating, the records of that rating in the popular list are the first ones of that rating in the catalog, in catalog order, whatever the limit |
| ApiMain.Prices | api-backend/backend/main.py:305 | one price per record, in catalog order |
| ApiMain.BucketsPartition | api-backend/backend/main.py:312-314 | every price is in exactly one of budget, mid-range and luxury, so the three counts add up to the number of records |
| ApiMain.BudgetRanges | api-backend/backend/main.py:296-321 | "No data available" exactly when there are no records; otherwise min ≤ floor mean ≤ max, the bucket counts, and the total equal to the number of records |
| MockStore.GetDestinations | backend/database.py:44-67 | without a client, the six mock records; with one, the query's result, or the mock records when it raised |
| MockStore.MockModeIgnoresFilters | backend/database.py:51-52 | in mock mode `limit`, `featured` and `category` make no difference, and six records are always returned |
| MockStore.GetDestinationById | backend/database.py:69-80 | in mock mode, a record exactly when some mock record has that id, and then it is that record; with a client, the first row or nothing |
| MockStore.MockIdsArePositions | backend/database.py:140-221 | ids 1 to 6 find the mock record at that position, and every other id finds nothing |
| MockStore.MockSearch | backend/database.py:120-128 | every result contains the lower-cased query in its name, location or description; results keep list order as a prefix of all matches; for a non-negative `limit` there are at most `limit` of them, all matches when fewer, and for a negative one (Python's `[:limit]`) all but the last `-limit` matches |
| MockStore.SearchDestinations | backend/database.py:118-138 | the mock search without a client; with one, the query's result, or nothing when it raised |
| MockStore.EmptyQueryListsAll | backend/database.py:122-128 | the empty query matches every record, so it returns the first `limit` records |
| MockStore.CreateDestination | backend/database.py:82-92 | refused exactly in mock mode; otherwise the inserted row, with a failure re-raised |
| MockStore.UpdateDestination | backend/database.py:94-104 | refused exactly in mock mode; otherwise the first updated row, or nothing |
| MockStore.DeleteDestination | backend/database.py:106-116 | refused exactly in mock mode; otherwise whether some row was deleted |
| ServiceScenarios.AllPricesPositive | api-backend/backend/services.py:348 | when every price is positive, the budget guide's price list is every record's price in catalog order |
| ServiceScenarios.MockBudgetBandRunsBackwards | api-backend/backend/services.py:343-361 | on the six mock records (backend/database.py:140-221) the guide gives lowest 8000, floor mean 12333 and highest 18000, and its "budget travel" band runs from 8000 down to 6166 |
| ServiceScenarios.MockBudgetRanges | api-backend/backend/main.py:296-318 | on the six mock records the analytics endpoint gives 8000 to 18000, floor mean 12333, four budget, two mid-range and no luxury destinations, six in all |
| ServiceScenarios.ShowFiftyThousand | backend/services.py:433 | 50000 is written "50000" |
| ServiceScenarios.BudgetQuestionAmount | backend/services.py:292-295 | "budget 50000" names the amount 50000 |
| ServiceScenarios.BudgetQuestionCue | backend/services.py:267-270 | "budget 50000" is cued as a budget question, not an itinerary one |
| ServiceScenarios.BudgetQuestionIsBudget | backend/services.py:236-322 | the rule-based reading of "budget 50000" is a budget question for 50000 |
| ServiceScenarios.ThirdRecordFits | backend/database.py:140-221 | in records priced like the mock records, the third (8000) fits a 50000 budget |
| ServiceScenarios.BudgetQuestionFailsOnMockRecords | backend/services.py:593-603 | as written, with model objects and no key, "budget 50000" on records priced like the mock ones is never answered |
| ServiceScenarios.BudgetQuestionListsMockRecords | backend/services.py:593-603 | corrected: the same question lists the first three records fetched for 50000 |
| Models.TextProblems | backend/models_simple.py:12-15 | a text field is reported as required exactly when it is required and absent, and as out of range exactly when its length is outside its bounds |
| Models.FieldProblemsExact | backend/models_simple.py:11-27 | each field's validator reports exactly the broken constraints about that field |
| Models.Problems | backend/models_simple.py:11-27 | the validation error lists exactly the constraints broken: missing, length, category, rating and price |
| Models.ParseBase | backend/models_simple.py:11-27 | refused exactly when some constraint is broken, listing all of them; otherwise every field is carried over and `featured` defaults to false |
| Models.ParseUpdate | backend/models_simple.py:32-49 | every field may be absent, including category; the fields present obey the same bounds, and an accepted update is unchanged |
| Models.UpdateDropsOnlyRequired | backend/models_simple.py:32-49 | the update model's complaints are exactly the base model's, minus the missing-field ones |
| Models.BaseIsStricterThanDictCheck | backend/models_simple.py:11-27 | whatever the base model accepts, the older service's dictionary check accepts too |
| Models.DictCheckIgnoresLengths | api-backend/backend/services.py:74-90 | the dictionary check passes a record with an empty name and a six-letter description |
| Models.ModelRefusesShortFields | backend/models_simple.py:12-15 | the base model refuses that record, naming the name and the description and nothing else |
| Models.ParseChat | backend/models_simple.py:60-62 | the message is required and 1 to 1000 characters long; the history defaults to empty |
| HeroBanner.Step | components/hero-banner.tsx:54-64 | from a valid slide every event leads to a valid slide, and an indicator click goes to exactly its slide |
| HeroBanner.RunStaysInRange | components/hero-banner.tsx:52-57 | whatever sequence of ticks, arrows and dots occurs, the slide index stays in `[0, 5)` |
| HeroBanner.ArrowsAreInverse | components/hero-banner.tsx:144-154 | next then previous returns to the slide, and so does previous then next |
| HeroBanner.TicksAdvance | components/hero-banner.tsx:54-57 | `k` timer ticks move the carousel to `(i + k) mod 5` |
| HeroBanner.IndicatorReachesItsSlide | components/hero-banner.tsx:129-134 | a dot click reaches its slide from anywhere, and the first slide is a valid start |
| EnvFile.Lookup | components/free-api-setup.tsx:161 | `apiKeys[name]` is absent exactly when no entry has that name, and otherwise is the value of an entry with that name |
| EnvFile.SetKey | components/free-api-setup.tsx:55-57 | the provider's value becomes the key and every other name keeps its value; an existing name keeps its place and a new one goes to the end |
| EnvFile.SetKeyKeepsDistinct | components/free-api-setup.tsx:55-57 | setting a key never gives two entries the same name |
| EnvFile.EnvVarOf | components/free-api-setup.tsx:73 | the variable of the provider whose lower-cased display name is the stored name, or nothing when there is no such provider |
| EnvFile.StoredNamesResolve | components/free-api-setup.tsx:161-162 | keys are stored under the lower-cased display name, so every stored name resolves to its provider's variable |
| EnvFile.EnvLines | components/free-api-setup.tsx:70-75 | one line per entry with a non-blank value, in entry order, each `<variable>=<value as typed>` |
| EnvFile.GenerateEnvFile | components/free-api-setup.tsx:69-79 | the output is the default template exactly when every value is blank; otherwise it is the lines joined by line breaks |
| EnvFile.JoinedLinesAreNotTemplate | components/free-api-setup.tsx:76-78 | there are lines exactly when some value is not blank, and joined they never equal the template |
| EnvFile.EnvFileRoundTrip | components/free-api-setup.tsx:69-79 | reading the file back line by line, each split at its first `=`, gives each non-blank entry's variable and its value as typed, in entry order |
| EnvFile.SplitJoin | components/free-api-setup.tsx:76 | splitting at line breaks undoes the `join("\n")` of lines that contain no break |

## Left out

- Network, model and database calls are left out: `fetch`, the `httpx` posts, Supabase queries, the OpenAI and Groq calls, and all of `backend/agent.py`. Their answers are parameters, and the hosted model's intent JSON arrives already parsed.
- The prompt and context builders and the persona text are left out (`buildContext`, `_build_context`, `_build_enhanced_context`, `ARIA_SYSTEM_PROMPT`). The one exception is the thousands-separator formatting of the amount at backend/services.py:433, which decides whether the Python service answers at all.
- Reply wording, emoji and markdown are left out, and so is `toLocaleString` / `:,` number formatting. Replies are datatypes carrying the records, numbers and choices the text is built from. Food, culture and the all-India timing guide are fixed texts, modelled as constant replies.
- Floating point is left out. Ratings are exact tenths and the 35/50/15/70% products are exact rationals. `Math.round`, `int()` and the 70% comparison are modelled on those exact values. A binary product that lands just below its exact value is therefore not modelled, in two cases:
  - at a half-rupee boundary: in JavaScript, `Math.round(90 * 0.35)` is 31, because the float product is 31.499999999999996; `AgentReply.SplitBudget` rounds the exact 31.5 up to 32;
  - at a whole-rupee boundary: in Python, `int(180 * 0.35)` is 62, because the float product is 62.99999999999999; in JavaScript, `63 <= 90 * 0.7` is false for the same reason.
- Unicode is left out: lower-casing and white space are ASCII-only. The `₹` prefix of the amount pattern is optional and is never needed to find the digits, so the scanner ignores it.
- The fixed fallback message of `executeLocalWorkflow` (lib/langgraph.ts:198-201) is left out. None of the modelled steps can throw on well-formed records, so the branch is unreachable in the model.
- Aliasing is left out. `sort` on the shared catalog array at lib/langgraph.ts:577 reorders `this.state.destinations` in place; the model sorts a copy. The process-wide `travelAgent` singleton is modelled as one state value per conversation.
- Python dictionaries are left out where a key is present with a `None` value, or a value has the wrong type (a string rating, say): submissions are typed records whose fields are present or absent. The Pydantic path of `update_destination` is not modelled.
- Store-client initialisation and `test_connection` are left out: the client is either absent or connected. The live query builder's `limit`, `featured` and `category` filters are left out, because the live answer is a parameter.
- `get_destinations_by_category` and the category-preference lists that `_fetch_relevant_data` fetches are left out, because no generator reads them.
- The `/query` forwarding of the chat route and the page components are left out, and so are the other HTTP handlers and the setup and test scripts.
- The `.env` panel's copy-to-clipboard and its rendering are left out.
- `RuleService.ProcessMessage` shows an absent amount as unspecified in the context and applies the generators' named defaults. That is the evidently intended behaviour (see Findings); `RuleService.ProcessMessageAsWritten` keeps the crashing behaviour.
- RuleService.AsWrittenAgreesWhenNumbersPresent: agreement is promised only when the local answer reads no fetched model object; there the source raises `AttributeError` and the model fails with `RecordHasNoGet` (see Findings).
- `modelObjects`, the as-written service's flag for "the catalog queries return model objects", is an input. It holds when the model module imports and every listed record validates, as the mock records do. A query whose records fail validation, so that it falls back to dictionaries while another query returns objects, is not modelled.
- `AgentReply.SplitBudget` states its shares only to within half a rupee of the exact percentage, not the JavaScript float result.
- RuleService.FloorShares: truncates the exact 35%, 50% and 15% of the budget, not the float products. For a budget of 180 it gives an accommodation share of 63, where `int(180 * 0.35)` in backend/services.py:614 gives 62.
- AgentReply.ItineraryFor: tests `10 * price <= 7 * budget` exactly, not the float `price <= budget * 0.7` of lib/langgraph.ts:637. A record priced 63 is eligible for a budget of 90 in the model but not in JavaScript, where `90 * 0.7` is 62.99999999999999.
- `ApiService.BudgetGuide` states the bands as computed; it does not claim the "budget" band is well ordered. `ServiceScenarios.MockBudgetBandRunsBackwards` shows that on the six mock records its lower end (8000) is above its upper end (6166).

## Findings

| source | as written | input that shows it | evidently intended | confidence | as-written member | corrected member |
|---|---|---|---|---|---|---|
| backend/services.py:433 | the context formats `intent.get('budget_range', 'Not specified')` with `:,`. The rule-based intent always has the key, with None when no amount was named, and formatting None with `,` raises, so `process_message` fails before any branch | "hello", with no API key | an absent amount shows as "Not specified" and the message is answered | high, not executed | RuleService.DigitFreeMessageFails | RuleService.DigitFreeBudgetQuestionUsesDefault |
| backend/services.py:627-638 | `intent.get("duration", 7)` never applies, because the key is always present; with duration None, `duration // len(...)` raises | "plan a trip for 50000", with no API key and a non-empty catalog | a plan over the default seven days | high, not executed | RuleService.PlanWithoutDayCountFails | RuleService.PlanWithoutDayCountUsesSevenDays |
| backend/services.py:546-562, 570-572, 593-603 | with the model module importable, `get_destinations` and `search_destinations` return `Destination` model objects, and the budget and top-rated lists keep them; only the catalog list is converted to dictionaries. The destination and budget generators call `.get` on the searched, top-rated and fetched budget records, which a model object lacks, so they raise `AttributeError` | "budget 50000", with no API key, on the six mock records (all six are fetched); likewise "goa 2", whose search finds the Goa record | the fetched records are read by attribute, as the context builder does at backend/services.py:404-418, and the answer lists them | high, not executed | RuleService.BudgetAnswerReadsModelObjects | RuleService.BudgetAnswerListsFetchedRecords |

=== FILE: agent.dfy ===
/** One turn of the front end's travel agent (lib/langgraph.ts,
    `TravelAgent.processMessage`): remember what the message says, let the
    data service answer when it can, and otherwise classify the message,
    pick a catalog and compose a reply, either through the hosted language
    model or locally.

    The agent's mutable state is threaded explicitly: a turn takes the old
    state and returns the new one. Everything the turn asks the outside
    world is an input (`Sources`): what the data service's chat endpoint
    answered, which catalogs the two data tiers returned, and what the
    hosted model produced. */
module Agent {
  import opened Wrappers
  import opened Text
  import opened Seqs
  import opened Catalog
  import opened AgentIntent
  import opened AgentReply

  /** Where a turn's answer came from. */
  datatype Answer =
    | FromService(text: string)
    | FromHostedModel(text: string)
    | FromLocal(reply: Reply)

  /** A conversation entry: the caller's own history entries are opaque
      role/content pairs; the agent adds the user's message and its
      answer. */
  datatype Turn =
    | Earlier(role: string, content: string)
    | UserTurn(text: string)
    | AssistantTurn(answer: Answer)

  /** `ConversationState` (its unused `context` field is left out). */
  datatype State = State(
    messages: seq<Turn>,
    currentQuery: string,
    prefs: Prefs,
    destinations: seq<Destination>)

  const InitialState := State([], "", NoPrefs, [])

  /** What the data service's chat endpoint did: no connection, or an HTTP
      answer with its status, its `success` flag and its `response` field. */
  datatype ServiceResponse =
    | Unreachable
    | Responded(ok: bool, success: bool, response: Option<string>)

  /** Everything a turn learns from outside. */
  datatype Sources = Sources(
    service: ServiceResponse,
    serviceCatalog: Option<seq<Destination>>,
    storeCatalog: Option<seq<Destination>>,
    hostedKey: Option<string>,
    hostedAnswer: Option<string>)

  /** `queryFastAPI` followed by `if (response)`: the service's text is used
      only when the request succeeded, the body says `success`, and the text
      is not empty. */
  function ServiceAnswer(s: ServiceResponse): (r: Option<string>)
    ensures r.Some? <==> s.Responded? && s.ok && s.success && TruthyText(s.response)
    ensures r.Some? ==> r.value != "" && r == s.response
  {
    match s
    case Unreachable => None
    case Responded(ok, success, response) =>
      if ok && success && TruthyText(response) then response else None
  }

  /** `slice(-n)`: the last `n` entries, or all of them when there are fewer. */
  function LastN<T>(s: seq<T>, n: nat): (r: seq<T>)
    ensures |r| == if |s| < n then |s| else n
    ensures s == s[..|s| - |r|] + r
  {
    if |s| <= n then s else s[|s| - n..]
  }

  /** `gatherDestinationData`: the service's catalog when it returned a
      non-empty one, else the store's when non-empty, else the built-in
      sample; so the local reply always has records to work with. */
  function GatherDestinations(service: Option<seq<Destination>>, store: Option<seq<Destination>>): (r: seq<Destination>)
    ensures |r| > 0
    ensures service.Some? && |service.value| > 0 ==> r == service.value
    ensures !(service.Some? && |service.value| > 0) && store.Some? && |store.value| > 0 ==> r == store.value
    ensures !(service.Some? && |service.value| > 0) && !(store.Some? && |store.value| > 0) ==> r == SampleCatalog
  {
    if service.Some? && |service.value| > 0 then service.value
    else if store.Some? && |store.value| > 0 then store.value
    else SampleCatalog
  }

  /** The outcome of one turn: the new state and the answer. */
  datatype Outcome = Outcome(state: State, answer: Answer)

  /** The local workflow's answer: the hosted model's text when a key is
      configured and it produced some, else the local reply. */
  function ComposeAnswer(intent: Intent, p: Prefs, catalog: seq<Destination>, src: Sources): (a: Answer)
    ensures a.FromHostedModel? <==> TruthyText(src.hostedKey) && TruthyText(src.hostedAnswer)
    ensures a.FromHostedModel? ==> a.text == src.hostedAnswer.value
    ensures !a.FromHostedModel? ==> a == FromLocal(LocalReply(intent, p, catalog))
  {
    if TruthyText(src.hostedKey) && TruthyText(src.hostedAnswer) then FromHostedModel(src.hostedAnswer.value)
    else FromLocal(LocalReply(intent, p, catalog))
  }

  /** `executeLocalWorkflow` after the user's message is recorded: classify
      the message, pick a catalog, compose the answer and record it. */
  function LocalWorkflow(recent: seq<Turn>, message: string, prefs: Prefs, src: Sources): (o: Outcome)
    ensures o.state == State(recent + [AssistantTurn(o.answer)], message, prefs, o.state.destinations)
    ensures o.state.destinations == GatherDestinations(src.serviceCatalog, src.storeCatalog)
    ensures !o.answer.FromService?
    ensures !o.answer.FromHostedModel? ==>
              o.answer == FromLocal(LocalReply(AnalyzeIntent(message, prefs), prefs, o.state.destinations))
  {
    var catalog := GatherDestinations(src.serviceCatalog, src.storeCatalog);
    var answer := ComposeAnswer(AnalyzeIntent(message, prefs), prefs, catalog, src);
    Outcome(State(recent + [AssistantTurn(answer)], message, prefs, catalog), answer)
  }

  /** The rest of `processMessage` once the preferences are updated: the
      service's answer is returned without being recorded; otherwise the
      local workflow answers and records its answer. */
  function AnswerTurn(recent: seq<Turn>, message: string, prefs: Prefs, known: seq<Destination>, src: Sources): (o: Outcome)
    ensures o.state.currentQuery == message && o.state.prefs == prefs
    ensures ServiceAnswer(src.service).Some? ==>
              o.answer == FromService(ServiceAnswer(src.service).value) &&
              o.state.messages == recent && o.state.destinations == known
    ensures ServiceAnswer(src.service).None? ==>
              o.state.messages == recent + [AssistantTurn(o.answer)] &&
              o.state.destinations == GatherDestinations(src.serviceCatalog, src.storeCatalog) &&
              !o.answer.FromService?
    ensures ServiceAnswer(src.service).None? && !o.answer.FromHostedModel? ==>
              o.answer == FromLocal(LocalReply(AnalyzeIntent(message, prefs), prefs, o.state.destinations))
  {
    match ServiceAnswer(src.service)
    case Some(text) => Outcome(State(recent, message, prefs, known), FromService(text))
    case None => LocalWorkflow(recent, message, prefs, src)
  }

  /** `processMessage`: record the message after the last five history
      entries, update the preferences (before the service is asked, so they
      change even when the service answers), then answer. At most seven
      entries are kept. */
  function ProcessMessage(st: State, message: string, history: seq<Turn>, src: Sources): (o: Outcome)
    ensures o.state.currentQuery == message
    ensures o.state.prefs == UpdatePreferences(st.prefs, message)
    ensures o == AnswerTurn(LastN(history, 5) + [UserTurn(message)], message, o.state.prefs, st.destinations, src)
    ensures |o.state.messages| <= 7
  {
    var recent := LastN(history, 5) + [UserTurn(message)];
    var o := AnswerTurn(recent, message, UpdatePreferences(st.prefs, message), st.destinations, src);
    o
  }

  /** A turn the service does not answer and no hosted model is configured
      for: answered by the local reply, on the updated preferences and the
      gathered catalog. */
  lemma LocalTurn(st: State, message: string, history: seq<Turn>, src: Sources)
    requires ServiceAnswer(src.service).None? && !TruthyText(src.hostedKey)
    ensures var o := ProcessMessage(st, message, history, src);
            o.state.prefs == UpdatePreferences(st.prefs, message) &&
            o.state.destinations == GatherDestinations(src.serviceCatalog, src.storeCatalog) &&
            o.answer == FromLocal(LocalReply(AnalyzeIntent(message, o.state.prefs), o.state.prefs, o.state.destinations))
  {
  }

  /** Every remembered place is a non-empty word. */
  lemma RememberedPlacesNonEmpty()
    ensures forall i :: 0 <= i < |RememberedPlaces| ==> RememberedPlaces[i] != ""
  {
  }

  /** The agent's memory: after a turn that names a place, a later
      follow-up that names none (and is answered locally) is answered about
      that place, whatever the service did on the first turn. */
  lemma FollowUpUsesRememberedPlace(st: State, first: string, place: string, h1: seq<Turn>, src1: Sources,
                                    followUp: string, h2: seq<Turn>, src2: Sources)
    requires IsFirstHit(RememberedPlaces, Lower(first), place)
    requires AnyIn(Lower(followUp), FollowUpPhrases) && !AnyIn(Lower(followUp), RememberedPlaces)
    requires ServiceAnswer(src2.service).None? && !TruthyText(src2.hostedKey)
    ensures var s1 := ProcessMessage(st, first, h1, src1).state;
            var o2 := ProcessMessage(s1, followUp, h2, src2);
            o2.state.prefs.lastDestination == Some(place) &&
            o2.answer == FromLocal(ContextualReply(FollowUpKind(Lower(followUp)), place, o2.state.destinations, o2.state.prefs))
  {
    RemembersPlace(st.prefs, first, place);
    var s1 := ProcessMessage(st, first, h1, src1).state;
    FollowUpTurn(s1, place, followUp, h2, src2);
  }

  /** The follow-up turn on its own: a state that remembers a place. */
  lemma FollowUpTurn(s1: State, place: string, followUp: string, h2: seq<Turn>, src2: Sources)
    requires s1.prefs.lastDestination == Some(place) && place != ""
    requires AnyIn(Lower(followUp), FollowUpPhrases) && !AnyIn(Lower(followUp), RememberedPlaces)
    requires ServiceAnswer(src2.service).None? && !TruthyText(src2.hostedKey)
    ensures var o2 := ProcessMessage(s1, followUp, h2, src2);
            o2.state.prefs.lastDestination == Some(place) &&
            o2.answer == FromLocal(ContextualReply(FollowUpKind(Lower(followUp)), place, o2.state.destinations, o2.state.prefs))
  {
    LocalTurn(s1, followUp, h2, src2);
    var o2 := ProcessMessage(s1, followUp, h2, src2);
    LocalFollowUp(followUp, o2.state.prefs, place, o2.state.destinations);
  }

  /** A message naming a place makes it the remembered one. */
  lemma RemembersPlace(p: Prefs, message: string, place: string)
    requires IsFirstHit(RememberedPlaces, Lower(message), place)
    ensures UpdatePreferences(p, message).lastDestination == Some(place) && place != ""
  {
    FirstHitIsFound(RememberedPlaces, Lower(message), place);
    RememberedPlacesNonEmpty();
  }

  /** With a place remembered, a follow-up phrase is answered locally
      about that place, by the follow-up ranking's kind. */
  lemma LocalFollowUp(followUp: string, p: Prefs, place: string, catalog: seq<Destination>)
    requires p.lastDestination == Some(place) && place != ""
    requires AnyIn(Lower(followUp), FollowUpPhrases)
    ensures LocalReply(AnalyzeIntent(followUp, p), p, catalog) ==
            ContextualReply(FollowUpKind(Lower(followUp)), place, catalog, p)
  {
  }
}

=== FILE: agent_intent.dfy ===
/** The dialogue core's reading of a message (lib/langgraph.ts): the
    preferences it remembers across turns, the entities and per-message
    preferences it extracts, and the intent it classifies, including the
    follow-up ("contextual") questions about a place named earlier. */
module AgentIntent {
  import opened Wrappers
  import opened Text
  import opened Seqs
  import opened Vocabulary

  /** `userPreferences`: what the conversation has established so far
      (`travelStyle` is declared but never set, so it is left out). */
  datatype Prefs = Prefs(
    budget: Option<nat>,
    duration: Option<nat>,
    interests: Option<seq<Interest>>,
    lastDestination: Option<string>)

  const NoPrefs := Prefs(None, None, None, None)

  /** JavaScript truthiness of an optional number: absent and 0 are false. */
  predicate TruthyNat(v: Option<nat>) {
    v.Some? && v.value != 0
  }

  /** JavaScript truthiness of an optional string: absent and "" are false. */
  predicate TruthyText(v: Option<string>) {
    v.Some? && v.value != ""
  }

  /** `a || b || fallback` over optional numbers. */
  function FirstTruthy(a: Option<nat>, b: Option<nat>, fallback: nat): (r: nat)
    ensures TruthyNat(a) ==> r == a.value
    ensures !TruthyNat(a) && TruthyNat(b) ==> r == b.value
    ensures !TruthyNat(a) && !TruthyNat(b) ==> r == fallback
    ensures fallback > 0 ==> r > 0
  {
    if TruthyNat(a) then a.value else if TruthyNat(b) then b.value else fallback
  }

  // ---------------------------------------------------------------------
  // Keyword lists

  /** The places remembered as the last one mentioned, in search order. */
  const RememberedPlaces: seq<string> := [
    "kerala", "goa", "rajasthan", "delhi", "mumbai", "agra", "jaipur",
    "himalayas", "manali", "rishikesh", "varanasi", "golden triangle",
    "taj mahal", "backwaters", "ladakh", "kashmir", "udaipur"]

  /** The places reported as entities, in report order. */
  const EntityPlaces: seq<string> := [
    "delhi", "agra", "jaipur", "mumbai", "goa", "kerala", "rajasthan",
    "himalayas", "manali", "rishikesh", "varanasi", "golden triangle",
    "taj mahal", "backwaters", "beaches", "darjeeling", "ladakh", "kashmir",
    "udaipur", "jodhpur", "amritsar", "kolkata", "chennai", "bangalore",
    "hyderabad", "andaman", "lakshadweep", "sikkim", "meghalaya", "assam",
    "uttarakhand", "hampi", "khajuraho"]

  /** Phrases that mark a follow-up about the place mentioned earlier. */
  const FollowUpPhrases: seq<string> := [
    "show dates", "when to visit", "best time", "weather", "climate",
    "how much", "cost", "price", "budget", "itinerary", "plan",
    "tell me more", "details", "more info"]

  /** The interest tags, in the order they are reported. */
  const InterestOrder: seq<Interest> :=
    [Adventure, CultureTag, FoodTag, Beach, Mountain, Spiritual, Nature]

  lemma AllInterestsOrdered()
    ensures forall i :: i in InterestOrder
  {
    forall i: Interest ensures i in InterestOrder {
      match i
      case Adventure => assert InterestOrder[0] == i;
      case CultureTag => assert InterestOrder[1] == i;
      case FoodTag => assert InterestOrder[2] == i;
      case Beach => assert InterestOrder[3] == i;
      case Mountain => assert InterestOrder[4] == i;
      case Spiritual => assert InterestOrder[5] == i;
      case Nature => assert InterestOrder[6] == i;
    }
  }

  /** The words that fire each remembered interest. */
  function InterestCues(i: Interest): seq<string> {
    match i
    case CultureTag => ["culture", "heritage"]
    case Mountain => ["mountain", "hill"]
    case Spiritual => ["spiritual", "temple"]
    case Nature => ["nature", "wildlife"]
    case _ => [InterestName(i)]
  }

  /** The per-message tags: only the six whose own name occurs. */
  const MessageTagOrder: seq<Interest> :=
    [Adventure, CultureTag, FoodTag, Beach, Mountain, Spiritual]

  // ---------------------------------------------------------------------
  // Preference extraction

  /** The place of a tag in the report order. */
  function Rank(i: Interest): int {
    match i
    case Adventure => 0
    case CultureTag => 1
    case FoodTag => 2
    case Beach => 3
    case Mountain => 4
    case Spiritual => 5
    case Nature => 6
  }

  lemma InterestOrderRanked()
    ensures Increasing(InterestOrder, Rank)
  {
    assert forall j :: 0 <= j < |InterestOrder| ==> Rank(InterestOrder[j]) == j;
  }

  /** The interests a lower-cased message fires, in tag order. */
  function FiredInterests(m: string): (r: seq<Interest>)
    ensures forall i :: i in r <==> AnyIn(m, InterestCues(i))
    ensures Increasing(r, Rank)
  {
    AllInterestsOrdered();
    InterestOrderRanked();
    FilterKeepsIncreasing(InterestOrder, i => AnyIn(m, InterestCues(i)), Rank);
    Filter(InterestOrder, i => AnyIn(m, InterestCues(i)))
  }

  /** Some interest fires exactly when the fired list is not empty. */
  lemma SomeInterestFires(m: string)
    ensures |FiredInterests(m)| > 0 <==> exists i :: AnyIn(m, InterestCues(i))
  {
    var fired := FiredInterests(m);
    if |fired| > 0 {
      assert fired[0] in fired;
    }
  }

  /** The fired interests are the only list holding exactly the fired tags
      in report order. */
  lemma FiredInterestsInTagOrder(m: string, r: seq<Interest>)
    requires Increasing(r, Rank)
    requires forall i :: i in r <==> AnyIn(m, InterestCues(i))
    ensures r == FiredInterests(m)
  {
    IncreasingUnique(r, FiredInterests(m), Rank);
  }

  /** `updateUserPreferences`: the first amount becomes the budget, the
      first day count the duration, the first remembered place the last
      destination, and the fired interests replace the old ones when there
      are any; everything not found is kept. */
  function UpdatePreferences(p: Prefs, message: string): (q: Prefs)
    ensures q.budget == if FirstAmount(message).Some? then FirstAmount(message) else p.budget
    ensures q.duration == if FirstDuration(message).Some? then FirstDuration(message) else p.duration
    ensures AnyIn(Lower(message), RememberedPlaces) ==>
              q.lastDestination.Some? && IsFirstHit(RememberedPlaces, Lower(message), q.lastDestination.value)
    ensures !AnyIn(Lower(message), RememberedPlaces) ==> q.lastDestination == p.lastDestination
    ensures q.interests.Some? && q.interests != p.interests ==> |q.interests.value| > 0
    ensures forall i :: AnyIn(Lower(message), InterestCues(i)) ==> q.interests.Some? && i in q.interests.value
    ensures (exists i :: AnyIn(Lower(message), InterestCues(i))) ==> q.interests == Some(FiredInterests(Lower(message)))
    ensures (forall i :: !AnyIn(Lower(message), InterestCues(i))) ==> q.interests == p.interests
  {
    var m := Lower(message);
    var fired := FiredInterests(m);
    SomeInterestFires(m);
    Prefs(
      if FirstAmount(message).Some? then FirstAmount(message) else p.budget,
      if FirstDuration(message).Some? then FirstDuration(message) else p.duration,
      if |fired| > 0 then Some(fired) else p.interests,
      match FirstIn(RememberedPlaces, m)
      case Some(k) => Some(k)
      case None => p.lastDestination)
  }

  /** `extractEntities`: every entity place in the message, in list order. */
  function ExtractEntities(m: string): (r: seq<string>)
    ensures forall k :: k in r <==> k in EntityPlaces && Contains(m, k)
  {
    Filter(EntityPlaces, k => Contains(m, k))
  }

  /** What `extractPreferences` reads from one lower-cased message. */
  datatype MessagePrefs = MessagePrefs(budget: Option<nat>, duration: Option<nat>, interests: Option<seq<Interest>>)

  /** `extractPreferences`: the same amount and day-count scanners as the
      update, and the six single-word tags (no "nature" here). */
  function ExtractPreferences(m: string): (r: MessagePrefs)
    ensures r.budget == FirstAmount(m) && r.duration == FirstDuration(m)
    ensures r.interests.None? <==> forall i :: i in MessageTagOrder ==> !Contains(m, InterestName(i))
    ensures r.interests.Some? ==>
              forall i :: i in r.interests.value <==> i in MessageTagOrder && Contains(m, InterestName(i))
  {
    var tags := Filter(MessageTagOrder, i => Contains(m, InterestName(i)));
    assert tags == [] ==> forall i :: i in MessageTagOrder ==> !Contains(m, InterestName(i));
    MessagePrefs(FirstAmount(m), FirstDuration(m), if |tags| > 0 then Some(tags) else None)
  }

  // ---------------------------------------------------------------------
  // Intent classification

  /** The `plan (a|my|an)? (trip|visit|vacation|tour)` pattern as the
      sixteen phrases it matches. */
  const PlanPhrases: seq<string> := [
    "plan  trip", "plan  visit", "plan  vacation", "plan  tour",
    "plan a trip", "plan a visit", "plan a vacation", "plan a tour",
    "plan my trip", "plan my visit", "plan my vacation", "plan my tour",
    "plan an trip", "plan an visit", "plan an vacation", "plan an tour"]

  /** The cue words of each kind when the message is not a follow-up. */
  function PlainCues(k: Kind): seq<string> {
    match k
    case Itinerary => ["itinerary"] + PlanPhrases
    case Budget => ["budget", "cost", "price", "afford", "expensive", "cheap", "money"]
    case Food => ["food", "eat", "cuisine", "restaurant", "dish", "meal"]
    case Culture => ["culture", "festival", "tradition", "celebration", "event", "history", "heritage"]
    case Timing => ["weather", "season", "rain", "temperature", "climate", "when to go", "when to visit", "best time"]
    case _ => []
  }

  /** The order in which cues are tried when the message is not a follow-up. */
  const PlainRanking: seq<Kind> := [Itinerary, Budget, Food, Culture, Timing]

  /** The cue words of each kind for a follow-up question. */
  function FollowUpCues(k: Kind): seq<string> {
    match k
    case Timing => ["date", "time", "weather"]
    case Budget => ["cost", "budget", "price"]
    case Itinerary => ["plan", "itinerary"]
    case _ => []
  }

  /** The order in which cues are tried for a follow-up question. */
  const FollowUpRanking: seq<Kind> := [Timing, Budget, Itinerary]

  /** The type of a follow-up: date/time/weather, then cost/budget/price,
      then plan/itinerary, else destination. */
  function FollowUpKind(m: string): Kind {
    if AnyIn(m, ["date", "time", "weather"]) then Timing
    else if AnyIn(m, ["cost", "budget", "price"]) then Budget
    else if AnyIn(m, ["plan", "itinerary"]) then Itinerary
    else Destination
  }

  /** The type of any other message: itinerary, budget, food, culture,
      timing cues in that order, then destination when a place was named,
      else general. */
  function PlainKind(m: string, entities: seq<string>): Kind {
    if Contains(m, "itinerary") || AnyIn(m, PlanPhrases) then Itinerary
    else if AnyIn(m, ["budget", "cost", "price", "afford", "expensive", "cheap", "money"]) then Budget
    else if AnyIn(m, ["food", "eat", "cuisine", "restaurant", "dish", "meal"]) then Food
    else if AnyIn(m, ["culture", "festival", "tradition", "celebration", "event", "history", "heritage"]) then Culture
    else if AnyIn(m, ["weather", "season", "rain", "temperature", "climate", "when to go", "when to visit", "best time"]) then Timing
    else if |entities| > 0 then Destination
    else General
  }

  /** The first kind of a ranking whose cues occur in the message: the
      "first cue wins" rule stated once for both classifiers. */
  function FirstCued(ranking: seq<Kind>, cues: Kind -> seq<string>, m: string): Option<Kind> {
    FindFirst(ranking, k => AnyIn(m, cues(k)))
  }

  lemma AnyInCons(m: string, k: string, ks: seq<string>)
    ensures AnyIn(m, [k] + ks) <==> Contains(m, k) || AnyIn(m, ks)
  {
    assert forall x :: x in [k] + ks <==> x == k || x in ks;
  }

  /** A follow-up's type is the first kind of the follow-up ranking whose
      cues occur, and destination when none does. */
  lemma FollowUpKindIsFirstCued(m: string)
    ensures FollowUpKind(m) == FirstCued(FollowUpRanking, FollowUpCues, m).GetOr(Destination)
  {
    var p := (k: Kind) => AnyIn(m, FollowUpCues(k));
    FindFirstCons(Timing, [Budget, Itinerary], p);
    FindFirstCons(Budget, [Itinerary], p);
    FindFirstCons(Itinerary, [], p);
    assert FollowUpRanking == [Timing] + [Budget, Itinerary];
    assert [Budget, Itinerary] == [Budget] + [Itinerary];
    assert [Itinerary] == [Itinerary] + [];
  }

  /** Any other message's type is the first kind of the plain ranking whose
      cues occur; with none, destination when a place was named, else
      general. */
  lemma PlainKindIsFirstCued(m: string, entities: seq<string>)
    ensures PlainKind(m, entities) ==
              FirstCued(PlainRanking, PlainCues, m).GetOr(if |entities| > 0 then Destination else General)
  {
    var p := (k: Kind) => AnyIn(m, PlainCues(k));
    AnyInCons(m, "itinerary", PlanPhrases);
    var i, b, f, c, t := p(Itinerary), p(Budget), p(Food), p(Culture), p(Timing);
    assert i == (Contains(m, "itinerary") || AnyIn(m, PlanPhrases));
    assert PlainKind(m, entities) ==
             if i then Itinerary else if b then Budget else if f then Food else if c then Culture
             else if t then Timing else if |entities| > 0 then Destination else General;
    FindFirstOfFive(Itinerary, Budget, Food, Culture, Timing, p);
  }

  /** The first of five kinds that passes `p`. */
  lemma FindFirstOfFive(a: Kind, b: Kind, c: Kind, d: Kind, e: Kind, p: Kind -> bool)
    ensures FindFirst([a, b, c, d, e], p) ==
              if p(a) then Some(a) else if p(b) then Some(b) else if p(c) then Some(c)
              else if p(d) then Some(d) else if p(e) then Some(e) else None
  {
    FindFirstCons(a, [b, c, d, e], p);
    FindFirstCons(b, [c, d, e], p);
    FindFirstCons(c, [d, e], p);
    FindFirstCons(d, [e], p);
    FindFirstCons(e, [], p);
    assert [a, b, c, d, e] == [a] + [b, c, d, e];
    assert [b, c, d, e] == [b] + [c, d, e];
    assert [c, d, e] == [c] + [d, e];
    assert [d, e] == [d] + [e];
    assert [e] == [e] + [];
  }

  /** The result of `analyzeIntent`. */
  datatype Intent = Intent(kind: Kind, entities: seq<string>, prefs: MessagePrefs, contextual: bool)

  /** `analyzeIntent` on the current query, after this turn's preference
      update: a follow-up phrase together with a remembered place makes the
      question contextual, adds the place to the entities and uses the
      follow-up ranking; otherwise the plain ranking decides. */
  function AnalyzeIntent(query: string, p: Prefs): (r: Intent)
    ensures r.contextual <==> AnyIn(Lower(query), FollowUpPhrases) && TruthyText(p.lastDestination)
    ensures r.contextual ==> r.entities == ExtractEntities(Lower(query)) + [p.lastDestination.value]
    ensures !r.contextual ==> r.entities == ExtractEntities(Lower(query))
    ensures r.contextual ==> r.kind in {Timing, Budget, Itinerary, Destination}
    ensures r.prefs == ExtractPreferences(Lower(query))
  {
    var m := Lower(query);
    var entities := ExtractEntities(m);
    var contextual := AnyIn(m, FollowUpPhrases) && TruthyText(p.lastDestination);
    if contextual then
      Intent(FollowUpKind(m), entities + [p.lastDestination.value], ExtractPreferences(m), true)
    else
      Intent(PlainKind(m, entities), entities, ExtractPreferences(m), false)
  }

  /** The kind `analyzeIntent` reports is the first cued kind of the ranking
      that applies. */
  lemma AnalyzeIntentRanking(query: string, p: Prefs)
    ensures var r := AnalyzeIntent(query, p);
            var m := Lower(query);
            r.kind == if r.contextual then FirstCued(FollowUpRanking, FollowUpCues, m).GetOr(Destination)
                      else FirstCued(PlainRanking, PlainCues, m).GetOr(if |r.entities| > 0 then Destination else General)
  {
    FollowUpKindIsFirstCued(Lower(query));
    PlainKindIsFirstCued(Lower(query), ExtractEntities(Lower(query)));
  }
}

=== FILE: agent_reply.dfy ===
/** The dialogue core's local answers (lib/langgraph.ts): one generator per
    intent, plus the follow-up answers about a remembered place. A reply is
    kept as structured data (which records it shows, which numbers it
    quotes); the emoji and markdown around them are presentation. */
module AgentReply {
  import opened Wrappers
  import opened Text
  import opened Seqs
  import opened Vocabulary
  import opened Catalog
  import opened AgentIntent

  // ---------------------------------------------------------------------
  // Arithmetic the replies quote

  /** `Math.round(a / n)` for non-negative `a`: halves round up. */
  function RoundDiv(a: nat, n: nat): (r: nat)
    requires n > 0
    ensures 2 * a - n < 2 * n * r <= 2 * a + n
  {
    var q := (2 * a + n) / (2 * n);
    assert 2 * n * q + (2 * a + n) % (2 * n) == 2 * a + n;
    q
  }

  /** The three budget shares (35%, 50%, 15%), each rounded to a rupee. */
  datatype Shares = Shares(accommodation: nat, foodAndTransport: nat, activities: nat)

  /** The shares come within half a rupee of their percentages, so
      together they are within a rupee of the whole budget. */
  function SplitBudget(b: nat): (s: Shares)
    ensures 70 * b - 100 < 200 * s.accommodation <= 70 * b + 100
    ensures 2 * b - 2 < 4 * s.foodAndTransport <= 2 * b + 2
    ensures 30 * b - 100 < 200 * s.activities <= 30 * b + 100
    ensures b - 1 <= s.accommodation + s.foodAndTransport + s.activities <= b + 1
  {
    Shares(RoundDiv(35 * b, 100), RoundDiv(b, 2), RoundDiv(15 * b, 100))
  }

  // ---------------------------------------------------------------------
  // Best-time bands

  /** The four regional best-time texts and the general one. */
  datatype Band = NorthBand | SouthBand | MountainBand | GoaBand | GeneralBand

  /** The state names that select each band. */
  function BandCues(b: Band): seq<string> {
    match b
    case NorthBand => ["rajasthan", "delhi", "uttar pradesh"]
    case SouthBand => ["kerala", "tamil nadu", "karnataka"]
    case MountainBand => ["himachal", "uttarakhand"]
    case GoaBand => ["goa"]
    case GeneralBand => []
  }

  const BandRanking: seq<Band> := [NorthBand, SouthBand, MountainBand, GoaBand]

  /** `getDestinationTiming`: the band chosen by the record's state. */
  function BandOf(d: Destination): Band {
    var s := Lower(d.state);
    if AnyIn(s, BandCues(NorthBand)) then NorthBand
    else if AnyIn(s, BandCues(SouthBand)) then SouthBand
    else if AnyIn(s, BandCues(MountainBand)) then MountainBand
    else if AnyIn(s, BandCues(GoaBand)) then GoaBand
    else GeneralBand
  }

  /** The band is the first of the ranking whose state names occur in the
      record's state, and the general band when none does. */
  lemma BandOfIsFirstCued(d: Destination)
    ensures BandOf(d) == FindFirst(BandRanking, b => AnyIn(Lower(d.state), BandCues(b))).GetOr(GeneralBand)
  {
    var p := (b: Band) => AnyIn(Lower(d.state), BandCues(b));
    FindFirstCons(NorthBand, [SouthBand, MountainBand, GoaBand], p);
    FindFirstCons(SouthBand, [MountainBand, GoaBand], p);
    FindFirstCons(MountainBand, [GoaBand], p);
    FindFirstCons(GoaBand, [], p);
    assert BandRanking == [NorthBand] + [SouthBand, MountainBand, GoaBand];
    assert [SouthBand, MountainBand, GoaBand] == [SouthBand] + [MountainBand, GoaBand];
    assert [MountainBand, GoaBand] == [MountainBand] + [GoaBand];
    assert [GoaBand] == [GoaBand] + [];
  }

  // ---------------------------------------------------------------------
  // Replies

  /** One day range of a suggested itinerary. */
  datatype Stop = Stop(firstDay: nat, lastDay: nat, dest: Destination)

  /** What a local answer shows. */
  datatype Reply =
    | Remembered(place: string)
    | TimingFor(dest: Destination, band: Band)
    | BudgetFor(dest: Destination, budget: nat, daily: nat, fits: bool)
    | ShortPlan(dest: Destination, duration: nat, closingDays: string)
    | Details(dest: Destination, tips: Tips)
    | TopPicks(picks: seq<Destination>)
    | BudgetPlan(budget: nat, duration: nat, picks: seq<Destination>, shares: Shares)
    | ItineraryPlan(duration: nat, stops: seq<Stop>)
    | ItineraryPrompt
    | Featured(picks: seq<Destination>)
    | Welcome
    | FoodGuide
    | CultureGuide
    | TimingGuide

  /** `generateDestinationDetails`: the record with its category's tips. */
  function DetailsOf(d: Destination): (r: Reply)
    ensures r.Details? && r.dest == d
    ensures r.tips == GeneralTips <==> d.category !in AllowedCategories
  {
    Details(d, TipsFor(d.category))
  }

  // ---------------------------------------------------------------------
  // Follow-ups about the remembered place

  /** The record's name, location or state mentions the place. */
  predicate MentionsPlace(d: Destination, place: string) {
    Contains(Lower(d.name), place) || Contains(Lower(d.location), place) || Contains(Lower(d.state), place)
  }

  /** `generateBudgetForDestination`: the remembered budget (30000 when
      unset) spread over the remembered duration (5 days when unset). */
  function BudgetForDestination(d: Destination, p: Prefs): (r: Reply)
    ensures r.BudgetFor? && r.dest == d
    ensures r.budget == FirstTruthy(p.budget, None, 30000) && r.budget > 0
    ensures var days := FirstTruthy(p.duration, None, 5);
            days > 0 && 2 * r.budget - days < 2 * days * r.daily <= 2 * r.budget + days
    ensures r.fits <==> r.budget >= d.priceFrom
  {
    var budget := FirstTruthy(p.budget, None, 30000);
    var days := FirstTruthy(p.duration, None, 5);
    BudgetFor(d, budget, RoundDiv(budget, days), budget >= d.priceFrom)
  }

  /** `generateItineraryForDestination`: a short plan over the remembered
      duration (3 days when unset), whose closing block is "3+" for trips
      longer than two days. */
  function ShortPlanFor(d: Destination, p: Prefs): (r: Reply)
    ensures r.ShortPlan? && r.dest == d && r.duration == FirstTruthy(p.duration, None, 3)
    ensures r.duration > 0
    ensures r.closingDays == "3+" <==> r.duration >= 3
    ensures r.closingDays == "2" <==> r.duration <= 2
  {
    var days := FirstTruthy(p.duration, None, 3);
    ShortPlan(d, days, if days > 2 then "3+" else "2")
  }

  /** `generateContextualResponse`: the first record that mentions the
      remembered place answers the follow-up; with none, the place is only
      acknowledged. */
  function ContextualReply(kind: Kind, place: string, catalog: seq<Destination>, p: Prefs): (r: Reply)
    ensures r.Remembered? || r.TimingFor? || r.BudgetFor? || r.ShortPlan? || r.Details?
    ensures r.Remembered? <==> forall i :: 0 <= i < |catalog| ==> !MentionsPlace(catalog[i], place)
    ensures r.Remembered? ==> r.place == place
    ensures !r.Remembered? ==> exists i :: IsFirst(catalog, d => MentionsPlace(d, place), i) && catalog[i] == r.dest
    ensures !r.Remembered? ==>
              match kind
              case Timing => r.TimingFor? && r.band == BandOf(r.dest)
              case Budget => r == BudgetForDestination(r.dest, p)
              case Itinerary => r == ShortPlanFor(r.dest, p)
              case _ => r == DetailsOf(r.dest)
  {
    match FindFirst(catalog, d => MentionsPlace(d, place))
    case None => Remembered(place)
    case Some(d) =>
      match kind
      case Timing => TimingFor(d, BandOf(d))
      case Budget => BudgetForDestination(d, p)
      case Itinerary => ShortPlanFor(d, p)
      case _ => DetailsOf(d)
  }

  // ---------------------------------------------------------------------
  // One generator per intent

  /** A record's name, location, state or category mentions the entity. */
  predicate DescribesEntity(d: Destination, e: string) {
    MentionsPlace(d, e) || Contains(Lower(d.category), e)
  }

  predicate MatchesSomeEntity(d: Destination, entities: seq<string>) {
    exists e :: e in entities && DescribesEntity(d, e)
  }

  /** `generateDestinationResponse`: the first record matching an entity,
      with details; with none, the three best-rated records. */
  function DestinationReply(entities: seq<string>, catalog: seq<Destination>): (r: Reply)
    ensures r.Details? || r.TopPicks?
    ensures r.Details? <==> exists i :: 0 <= i < |catalog| && MatchesSomeEntity(catalog[i], entities)
    ensures r.Details? ==>
              r == DetailsOf(r.dest) &&
              exists i :: IsFirst(catalog, d => MatchesSomeEntity(d, entities), i) && catalog[i] == r.dest
    ensures r.TopPicks? ==> r.picks == TopRated(catalog, 3)
  {
    var matching := Filter(catalog, d => MatchesSomeEntity(d, entities));
    FindFirstIsHeadOfFilter(catalog, d => MatchesSomeEntity(d, entities));
    if |matching| > 0 then DetailsOf(matching[0]) else TopPicks(TopRated(catalog, 3))
  }

  /** The budget a budget question is about: this message's, else the
      remembered one, else 50000. */
  function BudgetQuestionBudget(mp: MessagePrefs, p: Prefs): nat {
    FirstTruthy(mp.budget, p.budget, 50000)
  }

  /** `generateBudgetResponse`: the three best-rated records within the
      budget, and the budget split into its three shares. */
  function BudgetReply(mp: MessagePrefs, p: Prefs, catalog: seq<Destination>): (r: Reply)
    ensures r.BudgetPlan?
    ensures r.budget == BudgetQuestionBudget(mp, p) && r.budget > 0
    ensures r.duration == FirstTruthy(mp.duration, p.duration, 7) && r.duration > 0
    ensures BestWithinPrice(r.picks, catalog, r.budget)
    ensures r.shares == SplitBudget(r.budget)
  {
    var budget := BudgetQuestionBudget(mp, p);
    BudgetPicksBest(catalog, budget);
    BudgetPlan(budget, FirstTruthy(mp.duration, p.duration, 7),
               TopRatedWhere(catalog, FitsBudget(budget), 3), SplitBudget(budget))
  }

  /** The test "priced within `budget`". */
  function FitsBudget(budget: nat): Destination -> bool {
    (d: Destination) => d.priceFrom <= budget
  }

  /** `picks` are at most three catalog records priced within `budget`,
      best-rated first, none more often than the catalog holds it; no such
      record left out is rated above one taken, and every such record is
      taken when fewer than three are. */
  ghost predicate BestWithinPrice(picks: seq<Destination>, catalog: seq<Destination>, budget: nat) {
    |picks| <= 3 && SortedDesc(picks, RatingKey) &&
    (forall d :: d in picks ==> d in catalog && d.priceFrom <= budget) &&
    (forall d, e :: d in catalog && d.priceFrom <= budget && d !in picks && e in picks ==> e.rating >= d.rating) &&
    (|picks| < 3 ==> forall d :: d in catalog && d.priceFrom <= budget ==> d in picks) &&
    multiset(picks) <= multiset(catalog)
  }

  /** The budget answer's picks are the best-rated records within the
      budget, as `BestWithinPrice` states. */
  lemma BudgetPicksBest(catalog: seq<Destination>, budget: nat)
    ensures BestWithinPrice(TopRatedWhere(catalog, FitsBudget(budget), 3), catalog, budget)
  {
  }

  /** The budget an itinerary question is about: this message's, else the
      remembered one, else 40000. */
  function ItineraryBudget(mp: MessagePrefs, p: Prefs): nat {
    FirstTruthy(mp.budget, p.budget, 40000)
  }

  /** A record is suggested for an itinerary only when its price is within
      70% of the budget. */
  predicate WithinItineraryBudget(d: Destination, budget: nat) {
    10 * d.priceFrom <= 7 * budget
  }

  /** The itinerary's stops visit this record. */
  predicate Visits(st: seq<Stop>, d: Destination) {
    exists i :: 0 <= i < |st| && st[i].dest == d
  }

  /** Pick `i` is visited from day `i * days + 1` to day `(i + 1) * days`. */
  predicate RunsOf(st: seq<Stop>, picks: seq<Destination>, days: nat) {
    |st| == |picks| &&
    forall i :: 0 <= i < |st| ==> st[i] == Stop(i * days + 1, (i + 1) * days, picks[i])
  }

  /** The day ranges of an itinerary over `duration` days: one run of
      `duration / |picks|` days per pick, in pick order. */
  function ItineraryStops(duration: nat, picks: seq<Destination>): (st: seq<Stop>)
    requires 1 <= |picks| <= duration
    ensures RunsOf(st, picks, duration / |picks|)
  {
    var days := duration / |picks|;
    seq(|picks|, i requires 0 <= i < |picks| => Stop(i * days + 1, (i + 1) * days, picks[i]))
  }

  /** The runs start on day 1 and follow each other; each lasts exactly
      `floor(duration / k)` days for `k` stops, so at least one, and the
      last ends within the duration, fewer than `k` days before its end. */
  ghost predicate DayLayout(st: seq<Stop>, duration: nat) {
    1 <= |st| && st[0].firstDay == 1 &&
    (forall i :: 0 <= i < |st| ==> 1 <= duration / |st| == st[i].lastDay - st[i].firstDay + 1) &&
    (forall i, j :: 0 <= i && j == i + 1 && j < |st| ==> st[j].firstDay == st[i].lastDay + 1) &&
    duration - |st| < st[|st| - 1].lastDay <= duration
  }

  /** The records the stops visit, in visiting order. */
  function StopDests(st: seq<Stop>): seq<Destination> {
    seq(|st|, i requires 0 <= i < |st| => st[i].dest)
  }

  /** The runs visit every pick once, in pick order, laid out as
      `DayLayout` says. */
  lemma ItineraryStopsLayout(duration: nat, picks: seq<Destination>)
    requires 1 <= |picks| <= duration
    ensures var st := ItineraryStops(duration, picks);
            |st| == |picks| &&
            (forall i :: 0 <= i < |st| ==> st[i].dest == picks[i]) &&
            StopDests(st) == picks &&
            (forall d :: Visits(st, d) <==> d in picks) &&
            DayLayout(st, duration)
  {
    var st := ItineraryStops(duration, picks);
    RunsBackToBack(st, duration, duration / |picks|);
    assert forall d :: d in picks ==> Visits(st, d) by {
      forall d | d in picks ensures Visits(st, d) {
        var i :| 0 <= i < |picks| && picks[i] == d;
        assert st[i].dest == d;
      }
    }
  }

  /** Runs of `floor(duration / k)` days, the `i`-th from day `i * days + 1`,
      start on day 1, follow each other, last at least a day each and end
      within the duration, fewer than `k` days before its end. */
  lemma RunsBackToBack(st: seq<Stop>, duration: nat, days: nat)
    requires 1 <= |st| <= duration && days == duration / |st|
    requires forall i :: 0 <= i < |st| ==> st[i].firstDay == i * days + 1 && st[i].lastDay == (i + 1) * days
    ensures st[0].firstDay == 1
    ensures forall i :: 0 <= i < |st| ==> 1 <= days == st[i].lastDay - st[i].firstDay + 1
    ensures forall i, j :: 0 <= i && j == i + 1 && j < |st| ==> st[j].firstDay == st[i].lastDay + 1
    ensures duration - |st| < st[|st| - 1].lastDay <= duration
  {
    EqualRuns(duration, |st|);
    forall i | 0 <= i < |st| ensures st[i].lastDay == st[i].firstDay + days - 1 {
      RunEnd(i, days);
    }
    assert st[|st| - 1].lastDay == |st| * days;
  }

  lemma RunEnd(i: nat, days: nat)
    ensures (i + 1) * days == i * days + days
  {
  }

  /** Splitting `duration` days into `k` equal runs of at least a day
      leaves fewer than `k` days over. */
  lemma EqualRuns(duration: nat, k: nat)
    requires 1 <= k <= duration
    ensures duration / k >= 1
    ensures duration - k < k * (duration / k) <= duration
  {
    var q, m := duration / k, duration % k;
    assert k * q + m == duration && 0 <= m < k;
  }

  /** `generateItineraryResponse` once its duration and budget are known:
      up to min(3, ceil(duration / 2)) of the best-rated records within 70%
      of the budget, each given an equal run of days; with no such record,
      a prompt for budget and interests. */
  function ItineraryFor(duration: nat, budget: nat, catalog: seq<Destination>): (r: Reply)
    requires duration >= 1
    ensures r.ItineraryPlan? || r.ItineraryPrompt?
    ensures r.ItineraryPrompt? <==> forall d :: d in catalog ==> !WithinItineraryBudget(d, budget)
    ensures r.ItineraryPlan? ==> r.duration == duration && 1 <= |r.stops| <= 3 && 2 * |r.stops| <= duration + 1
    ensures r.ItineraryPlan? ==> DayLayout(r.stops, duration)
    ensures r.ItineraryPlan? ==> BestWithinBudget(r.stops, catalog, budget)
    ensures r.ItineraryPlan? ==> BestFirstOnce(r.stops, catalog)
    ensures r.ItineraryPlan? && |r.stops| < 3 && 2 * |r.stops| < duration ==>
              forall d :: d in catalog && WithinItineraryBudget(d, budget) ==> Visits(r.stops, d)
  {
    var picks := TopRatedWhere(catalog, WithinBudgetOf(budget), StopLimit(duration));
    if |picks| == 0 then
      ItineraryPrompt
    else
      ItineraryPlanLayout(duration, budget, catalog);
      ItineraryPlan(duration, ItineraryStops(duration, picks))
  }

  /** The stops visit only catalog records within 70% of the budget, and no
      such record left out is rated above one visited. */
  ghost predicate BestWithinBudget(st: seq<Stop>, catalog: seq<Destination>, budget: nat) {
    (forall d :: Visits(st, d) ==> d in catalog && WithinItineraryBudget(d, budget)) &&
    (forall d, e :: d in catalog && WithinItineraryBudget(d, budget) && !Visits(st, d) && Visits(st, e)
       ==> e.rating >= d.rating)
  }

  /** The stops visit their records best-rated first, and no record more
      often than the catalog holds it. */
  ghost predicate BestFirstOnce(st: seq<Stop>, catalog: seq<Destination>) {
    (forall i, j :: 0 <= i < j < |st| ==> st[i].dest.rating >= st[j].dest.rating) &&
    multiset(StopDests(st)) <= multiset(catalog)
  }

  /** The test "priced within 70% of `budget`". */
  function WithinBudgetOf(budget: nat): Destination -> bool {
    d => WithinItineraryBudget(d, budget)
  }

  /** The cap on the number of stops, `min(3, ceil(duration / 2))`. */
  function StopLimit(duration: nat): nat {
    if 3 < (duration + 1) / 2 then 3 else (duration + 1) / 2
  }

  /** The plan over the best-rated records within 70% of the budget, when
      there are any: its stops are laid out as `ItineraryStopsLayout`
      describes, and they visit the best-rated such records, best first and
      each at most once per catalog entry, every one of them when fewer
      than the cap are taken. */
  lemma ItineraryPlanLayout(duration: nat, budget: nat, catalog: seq<Destination>)
    requires duration >= 1
    requires |TopRatedWhere(catalog, WithinBudgetOf(budget), StopLimit(duration))| > 0
    ensures var st := ItineraryStops(duration, TopRatedWhere(catalog, WithinBudgetOf(budget), StopLimit(duration)));
            1 <= |st| <= 3 && 2 * |st| <= duration + 1 &&
            DayLayout(st, duration) &&
            BestWithinBudget(st, catalog, budget) &&
            BestFirstOnce(st, catalog) &&
            (|st| < 3 && 2 * |st| < duration ==>
               forall d :: d in catalog && WithinItineraryBudget(d, budget) ==> Visits(st, d))
  {
    var picks := TopRatedWhere(catalog, WithinBudgetOf(budget), StopLimit(duration));
    ItineraryStopsLayout(duration, picks);
    StopsBestFirst(duration, picks, catalog);
  }

  /** Stops over picks sorted best-first, none repeated beyond the catalog,
      keep both properties. */
  lemma StopsBestFirst(duration: nat, picks: seq<Destination>, catalog: seq<Destination>)
    requires 1 <= |picks| <= duration
    requires SortedDesc(picks, RatingKey) && multiset(picks) <= multiset(catalog)
    ensures BestFirstOnce(ItineraryStops(duration, picks), catalog)
  {
    var st := ItineraryStops(duration, picks);
    assert StopDests(st) == picks;
    forall i, j | 0 <= i < j < |st| ensures st[i].dest.rating >= st[j].dest.rating {
      assert RatingKey(picks[i]) >= RatingKey(picks[j]);
    }
  }

  /** `generateItineraryResponse`: the duration is this message's, else the
      remembered one, else 7 days; the budget likewise, else 40000. */
  function ItineraryReply(mp: MessagePrefs, p: Prefs, catalog: seq<Destination>): (r: Reply)
    ensures r.ItineraryPlan? || r.ItineraryPrompt?
    ensures r.ItineraryPrompt? <==>
              forall d :: d in catalog ==> !WithinItineraryBudget(d, FirstTruthy(mp.budget, p.budget, 40000))
    ensures r.ItineraryPlan? ==> r.duration == FirstTruthy(mp.duration, p.duration, 7) && r.duration > 0
    ensures r.ItineraryPlan? ==>
              forall d :: Visits(r.stops, d) ==> d in catalog && WithinItineraryBudget(d, FirstTruthy(mp.budget, p.budget, 40000))
    ensures r.ItineraryPlan? ==> BestFirstOnce(r.stops, catalog)
  {
    ItineraryFor(FirstTruthy(mp.duration, p.duration, 7), ItineraryBudget(mp, p), catalog)
  }

  /** `generateGeneralResponse`: the three best-rated featured records, or
      a welcome when nothing is featured. */
  function GeneralReply(catalog: seq<Destination>): (r: Reply)
    ensures r.Featured? || r.Welcome?
    ensures r.Welcome? <==> forall d :: d in catalog ==> !d.featured
    ensures r.Featured? ==>
              1 <= |r.picks| <= 3 && SortedDesc(r.picks, RatingKey) &&
              (forall d :: d in r.picks ==> d in catalog && d.featured) &&
              (forall d, e :: d in catalog && d.featured && d !in r.picks && e in r.picks ==> e.rating >= d.rating) &&
              (|r.picks| < 3 ==> forall d :: d in catalog && d.featured ==> d in r.picks) &&
              multiset(r.picks) <= multiset(catalog)
  {
    var picks := TopRatedWhere(catalog, IsFeatured, 3);
    if |picks| == 0 then Welcome else Featured(picks)
  }

  /** A record's name or location mentions the entity (the timing search
      does not look at the state). */
  predicate NamesEntity(d: Destination, entities: seq<string>) {
    exists e :: e in entities && (Contains(Lower(d.name), e) || Contains(Lower(d.location), e))
  }

  /** `generateTimingResponse`: the best time for the first record named by
      an entity, else the all-India guide. */
  function TimingReply(entities: seq<string>, catalog: seq<Destination>): (r: Reply)
    ensures r.TimingFor? || r.TimingGuide?
    ensures r.TimingGuide? <==> forall i :: 0 <= i < |catalog| ==> !NamesEntity(catalog[i], entities)
    ensures r.TimingFor? ==>
              r.band == BandOf(r.dest) &&
              exists i :: IsFirst(catalog, d => NamesEntity(d, entities), i) && catalog[i] == r.dest
  {
    if |entities| == 0 then
      assert forall i :: 0 <= i < |catalog| ==> !NamesEntity(catalog[i], entities);
      TimingGuide
    else
      match FindFirst(catalog, d => NamesEntity(d, entities))
      case None => TimingGuide
      case Some(d) => TimingFor(d, BandOf(d))
  }

  /** `generateLocalResponse`: a contextual follow-up is answered about the
      remembered place; anything else by the generator of its kind. */
  function LocalReply(intent: Intent, p: Prefs, catalog: seq<Destination>): (r: Reply)
    ensures intent.contextual && TruthyText(p.lastDestination) ==>
              r == ContextualReply(intent.kind, p.lastDestination.value, catalog, p)
    ensures !(intent.contextual && TruthyText(p.lastDestination)) ==>
              match intent.kind
              case Destination => r == DestinationReply(intent.entities, catalog)
              case Budget => r == BudgetReply(intent.prefs, p, catalog)
              case Itinerary => r == ItineraryReply(intent.prefs, p, catalog)
              case Food => r == FoodGuide
              case Culture => r == CultureGuide
              case Timing => r == TimingReply(intent.entities, catalog)
              case General => r == GeneralReply(catalog)
  {
    if intent.contextual && TruthyText(p.lastDestination) then
      ContextualReply(intent.kind, p.lastDestination.value, catalog, p)
    else
      match intent.kind
      case Destination => DestinationReply(intent.entities, catalog)
      case Budget => BudgetReply(intent.prefs, p, catalog)
      case Itinerary => ItineraryReply(intent.prefs, p, catalog)
      case Food => FoodGuide
      case Culture => CultureGuide
      case Timing => TimingReply(intent.entities, catalog)
      case General => GeneralReply(catalog)
  }
}

=== FILE: agent_scenarios.dfy ===
/** Whole conversations with the travel agent, answered locally from the
    built-in sample catalog. */
module AgentScenarios {
  import opened Wrappers
  import opened Text
  import opened Seqs
  import opened Vocabulary
  import opened Catalog
  import opened AgentIntent
  import opened AgentReply
  import opened Agent

  /** No data service, no data store, no hosted model. */
  const Offline := Sources(Unreachable, None, None, None, None)

  lemma TajMahalIsNotInGoa()
    ensures !MentionsPlace(SampleTajMahal, "goa")
  {
    LowerIs("Taj Mahal", "taj mahal");
    LowerIs("Agra", "agra");
    LowerIs("Uttar Pradesh", "uttar pradesh");
    AbsentCharRulesOut("taj mahal", "goa", 'g');
    AbsentPairRulesOut("agra", "goa", 0, 'g', 'o');
    AbsentCharRulesOut("uttar pradesh", "goa", 'g');
  }

  lemma BackwatersAreNotInGoa()
    ensures !MentionsPlace(SampleBackwaters, "goa")
  {
    LowerIs("Kerala Backwaters", "kerala backwaters");
    LowerIs("Alleppey", "alleppey");
    LowerIs("Kerala", "kerala");
    AbsentCharRulesOut("kerala backwaters", "goa", 'g');
    AbsentCharRulesOut("alleppey", "goa", 'g');
    AbsentCharRulesOut("kerala", "goa", 'g');
  }

  lemma GoldenTempleIsNotInGoa()
    ensures !MentionsPlace(SampleGoldenTemple, "goa")
  {
    LowerIs("Golden Temple", "golden temple");
    LowerIs("Amritsar", "amritsar");
    LowerIs("Punjab", "punjab");
    AbsentPairRulesOut("golden temple", "goa", 1, 'o', 'a');
    AbsentCharRulesOut("amritsar", "goa", 'g');
    AbsentCharRulesOut("punjab", "goa", 'g');
  }

  lemma GoaBeachesAreInGoa()
    ensures MentionsPlace(SampleGoa, "goa")
  {
    LowerIs("Goa Beaches", "goa beaches");
    ContainsAt("goa beaches", "goa", 0);
  }

  /** The Goa record is the first sample record whose name, location or
      state mentions "goa". */
  lemma GoaRecordIsFirst()
    ensures FindFirst(SampleCatalog, d => MentionsPlace(d, "goa")) == Some(SampleGoa)
  {
    TajMahalIsNotInGoa();
    BackwatersAreNotInGoa();
    GoldenTempleIsNotInGoa();
    GoaBeachesAreInGoa();
    FindFirstAt(SampleCatalog, d => MentionsPlace(d, "goa"), 3);
  }

  /** Goa's state selects the Goa best-time band. */
  lemma GoaStateSelectsGoaBand()
    ensures BandOf(SampleGoa) == GoaBand
  {
    LowerIs("Goa", "goa");
    ContainsAt("goa", "goa", 0);
  }

  const GoaQuestion := "what's the best time to visit goa?"

  lemma GoaQuestionIsLower()
    ensures Lower(GoaQuestion) == GoaQuestion
  {
    LowerIs(GoaQuestion, GoaQuestion);
  }

  /** "goa" is the first remembered place the question contains. */
  lemma GoaQuestionNamesGoaFirst()
    ensures IsFirstHit(RememberedPlaces, GoaQuestion, "goa")
  {
    var m, ks := GoaQuestion, RememberedPlaces;
    assert ks[0] == "kerala" && ks[1] == "goa";
    AbsentCharRulesOut(m, "kerala", 'k');
    ContainsAt(m, "goa", 30);
    FirstHitAt(ks, m, 1);
  }

  /** The question names Goa first among the remembered places. */
  lemma GoaQuestionRemembersGoa(p: Prefs)
    ensures UpdatePreferences(p, GoaQuestion).lastDestination == Some("goa")
  {
    GoaQuestionIsLower();
    GoaQuestionNamesGoaFirst();
    FirstHitIsFound(RememberedPlaces, GoaQuestion, "goa");
  }

  /** "best time" is a follow-up phrase. */
  lemma GoaQuestionIsFollowUp()
    ensures AnyIn(GoaQuestion, FollowUpPhrases)
  {
    ContainsAt(GoaQuestion, "best time", 11);
    assert FollowUpPhrases[2] == "best time";
  }

  /** "time" is the first follow-up cue the question gives. */
  lemma GoaQuestionAsksTime()
    ensures FollowUpKind(GoaQuestion) == Timing
  {
    ContainsAt(GoaQuestion, "time", 16);
    assert ["date", "time", "weather"][1] == "time";
  }

  /** With Goa remembered, the question is a follow-up about timing. */
  lemma GoaQuestionIsTimingFollowUp(p: Prefs)
    requires p.lastDestination == Some("goa")
    ensures AnalyzeIntent(GoaQuestion, p).contextual && AnalyzeIntent(GoaQuestion, p).kind == Timing
  {
    GoaQuestionIsLower();
    GoaQuestionIsFollowUp();
    GoaQuestionAsksTime();
  }

  /** With Goa remembered, the question is answered with the Goa record's
      best-time band. */
  lemma GoaQuestionAnsweredLocally(p: Prefs)
    requires p.lastDestination == Some("goa")
    ensures LocalReply(AnalyzeIntent(GoaQuestion, p), p, SampleCatalog) == TimingFor(SampleGoa, GoaBand)
  {
    GoaQuestionIsTimingFollowUp(p);
    TimingFollowUpAboutGoa(AnalyzeIntent(GoaQuestion, p), p);
  }

  lemma TimingFollowUpAboutGoa(intent: Intent, p: Prefs)
    requires p.lastDestination == Some("goa") && intent.contextual && intent.kind == Timing
    ensures LocalReply(intent, p, SampleCatalog) == TimingFor(SampleGoa, GoaBand)
  {
    GoaRecordIsFirst();
    GoaStateSelectsGoaBand();
  }

  /** "what's the best time to visit goa?" on a fresh conversation names
      Goa and asks a follow-up about it, so it is answered with the Goa
      record's best-time band. */
  lemma BestTimeForGoa()
    ensures var o := ProcessMessage(InitialState, GoaQuestion, [], Offline);
            o.state.prefs.lastDestination == Some("goa") &&
            o.answer == FromLocal(TimingFor(SampleGoa, GoaBand))
  {
    var o := ProcessMessage(InitialState, GoaQuestion, [], Offline);
    LocalTurn(InitialState, GoaQuestion, [], Offline);
    GoaQuestionRemembersGoa(NoPrefs);
    GoaQuestionAnsweredLocally(o.state.prefs);
  }

  // ---------------------------------------------------------------------
  // "Tell me about Kerala backwaters", then "show dates"

  const KeralaRequest := "Tell me about Kerala backwaters"
  const ShowDates := "show dates"

  const KeralaRequestLowered := "tell me about kerala backwaters"

  lemma KeralaRequestIsLower()
    ensures Lower(KeralaRequest) == KeralaRequestLowered
  {
    LowerIs(KeralaRequest, KeralaRequestLowered);
  }

  /** The first message names Kerala first among the remembered places. */
  lemma KeralaRequestNamesKerala()
    ensures IsFirstHit(RememberedPlaces, Lower(KeralaRequest), "kerala")
  {
    var m := KeralaRequestLowered;
    KeralaRequestIsLower();
    ContainsAt(m, "kerala", 14);
    assert RememberedPlaces[0] == "kerala";
    FirstHitAt(RememberedPlaces, m, 0);
  }

  /** The characters "show dates" is written with. */
  lemma ShowDatesLetters()
    ensures forall i :: 0 <= i < |ShowDates| ==> ShowDates[i] in {'s', 'h', 'o', 'w', ' ', 'd', 'a', 't', 'e'}
  {
  }

  lemma ShowDatesLacks(c: char)
    requires c in {'k', 'g', 'r', 'l', 'm', 'j', 'i', 'v', 'b', 'u'}
    ensures c !in ShowDates
  {
    ShowDatesLetters();
  }

  lemma ShowDatesLacksFirstPlaces()
    ensures forall j :: 0 <= j < 9 ==> !Contains(ShowDates, RememberedPlaces[j])
  {
    var m := ShowDates;
    ShowDatesLacks('k');
    AbsentCharRulesOut(m, "kerala", 'k');
    ShowDatesLacks('g');
    AbsentCharRulesOut(m, "goa", 'g');
    AbsentCharRulesOut(m, "agra", 'g');
    ShowDatesLacks('r');
    AbsentCharRulesOut(m, "rajasthan", 'r');
    ShowDatesLacks('l');
    AbsentCharRulesOut(m, "delhi", 'l');
    ShowDatesLacks('m');
    AbsentCharRulesOut(m, "mumbai", 'm');
    AbsentCharRulesOut(m, "manali", 'm');
    ShowDatesLacks('j');
    AbsentCharRulesOut(m, "jaipur", 'j');
    ShowDatesLacks('i');
    AbsentCharRulesOut(m, "himalayas", 'i');
  }

  lemma ShowDatesLacksLaterPlaces()
    ensures forall j :: 9 <= j < |RememberedPlaces| ==> !Contains(ShowDates, RememberedPlaces[j])
  {
    var m := ShowDates;
    ShowDatesLacks('r');
    AbsentCharRulesOut(m, "rishikesh", 'r');
    ShowDatesLacks('v');
    AbsentCharRulesOut(m, "varanasi", 'v');
    ShowDatesLacks('g');
    AbsentCharRulesOut(m, "golden triangle", 'g');
    ShowDatesLacks('j');
    AbsentCharRulesOut(m, "taj mahal", 'j');
    ShowDatesLacks('b');
    AbsentCharRulesOut(m, "backwaters", 'b');
    ShowDatesLacks('l');
    AbsentCharRulesOut(m, "ladakh", 'l');
    ShowDatesLacks('k');
    AbsentCharRulesOut(m, "kashmir", 'k');
    ShowDatesLacks('u');
    AbsentCharRulesOut(m, "udaipur", 'u');
  }

  /** "show dates" is a follow-up phrase and names no remembered place. */
  lemma ShowDatesIsBareFollowUp()
    ensures Lower(ShowDates) == ShowDates
    ensures AnyIn(ShowDates, FollowUpPhrases) && !AnyIn(ShowDates, RememberedPlaces)
  {
    LowerIs(ShowDates, ShowDates);
    ContainsAt(ShowDates, "show dates", 0);
    assert FollowUpPhrases[0] == "show dates";
    ShowDatesLacksFirstPlaces();
    ShowDatesLacksLaterPlaces();
    NoneIn(ShowDates, RememberedPlaces);
  }

  /** "date" is the first follow-up cue "show dates" gives. */
  lemma ShowDatesAsksTime()
    ensures FollowUpKind(ShowDates) == Timing
  {
    ContainsAt(ShowDates, "date", 5);
    assert ["date", "time", "weather"][0] == "date";
  }

  lemma TajMahalIsNotInKerala()
    ensures !MentionsPlace(SampleTajMahal, "kerala")
  {
    var k := "kerala";
    assert |k| == 6 && k[0] == 'k';
    RecordLacks(SampleTajMahal, k, 'k', 'K');
  }

  lemma BackwatersAreInKerala()
    ensures MentionsPlace(SampleBackwaters, "kerala")
  {
    LowerIs("Kerala", "kerala");
    ContainsAt("kerala", "kerala", 0);
  }

  /** The backwaters are the first sample record that mentions Kerala. */
  lemma BackwatersAreFirstForKerala()
    ensures FindFirst(SampleCatalog, d => MentionsPlace(d, "kerala")) == Some(SampleBackwaters)
  {
    TajMahalIsNotInKerala();
    BackwatersAreInKerala();
    FindFirstAt(SampleCatalog, d => MentionsPlace(d, "kerala"), 1);
  }

  /** Kerala's state selects the southern best-time band. */
  lemma KeralaStateSelectsSouthBand()
    ensures BandOf(SampleBackwaters) == SouthBand
  {
    LowerIs("Kerala", "kerala");
    AbsentCharRulesOut("kerala", "rajasthan", 'n');
    AbsentCharRulesOut("kerala", "delhi", 'd');
    AbsentCharRulesOut("kerala", "uttar pradesh", 'u');
    NoneIn("kerala", ["rajasthan", "delhi", "uttar pradesh"]);
    ContainsAt("kerala", "kerala", 0);
    assert ["kerala", "tamil nadu", "karnataka"][0] == "kerala";
  }

  lemma TimingAboutKerala(p: Prefs)
    ensures ContextualReply(Timing, "kerala", SampleCatalog, p) == TimingFor(SampleBackwaters, SouthBand)
  {
    BackwatersAreFirstForKerala();
    KeralaStateSelectsSouthBand();
  }

  /** "Tell me about Kerala backwaters" remembers Kerala; the next message
      "show dates" names no place but is a follow-up, so it is a timing
      question about Kerala, answered with the backwaters record and the
      southern band. */
  lemma KeralaThenShowDates()
    ensures var s1 := ProcessMessage(InitialState, KeralaRequest, [], Offline).state;
            var o2 := ProcessMessage(s1, ShowDates, [], Offline);
            o2.state.prefs.lastDestination == Some("kerala") &&
            o2.answer == FromLocal(TimingFor(SampleBackwaters, SouthBand))
  {
    KeralaRequestNamesKerala();
    ShowDatesIsBareFollowUp();
    FollowUpUsesRememberedPlace(InitialState, KeralaRequest, "kerala", [], Offline, ShowDates, [], Offline);
    var s1 := ProcessMessage(InitialState, KeralaRequest, [], Offline).state;
    LocalTurn(s1, ShowDates, [], Offline);
    ShowDatesAsksTime();
    var o2 := ProcessMessage(s1, ShowDates, [], Offline);
    TimingAboutKerala(o2.state.prefs);
  }

  // ---------------------------------------------------------------------
  // "plan a 7-day golden triangle tour"

  const PlanRequest := "plan a 7-day golden triangle tour"

  /** The only digit of the request is the 7 at position 7. */
  lemma PlanRequestDigits()
    ensures IsDigit(PlanRequest[7])
    ensures forall i :: 0 <= i < |PlanRequest| && i != 7 ==> !IsDigit(PlanRequest[i])
  {
  }

  lemma PlanRequestSevenDash()
    ensures |PlanRequest| > 8 && PlanRequest[7] == '7' && PlanRequest[8] == '-'
  {
  }

  lemma AmountOfLoneDigit(s: string, i: nat)
    requires i + 1 < |s| && s[i] == '7' && s[i + 1] == '-'
    requires FirstAmount(s) == Some(Number(GroupedDigits(s, i)))
    ensures FirstAmount(s) == Some(7)
  {
    LoneDigitGroup(s, i);
  }

  /** The amount scan starts at the 7. */
  lemma PlanRequestAmountStart()
    ensures FirstAmount(PlanRequest) == Some(Number(GroupedDigits(PlanRequest, 7)))
  {
    var s := PlanRequest;
    PlanRequestDigits();
    var i :| 0 <= i < |s| && IsDigit(s[i]) && NoDigits(s[..i])
             && FirstAmount(s).value == Number(GroupedDigits(s, i));
    assert i == 7;
  }

  /** The 7 is read as the budget: the amount scanner takes any number. */
  lemma PlanRequestBudget()
    ensures FirstAmount(PlanRequest) == Some(7)
  {
    PlanRequestAmountStart();
    PlanRequestSevenDash();
    AmountOfLoneDigit(PlanRequest, 7);
  }

  /** "7-day" is not a day count: the hyphen is not white space. */
  lemma PlanRequestDuration()
    ensures FirstDuration(PlanRequest) == None
  {
    var s := PlanRequest;
    PlanRequestDigits();
    DigitRunOf(s, 7, 1);
    SpaceRunOf(s, 8, 0);
    assert !DayAt(s, 8);
    FirstDurationIffMatch(s);
  }

  /** The characters the request is written with. */
  lemma PlanRequestLetters()
    ensures forall i :: 0 <= i < |PlanRequest| ==>
              PlanRequest[i] in {'p', 'l', 'a', 'n', ' ', '7', '-', 'd', 'y', 'g', 'o', 'e', 't', 'r', 'i', 'u'}
  {
  }

  /** A letter the request does not use. */
  lemma PlanRequestLacks(c: char)
    requires c in {'k', 'j', 'h', 'm', 'v', 'c', 'b', 'w'}
    ensures c !in PlanRequest
  {
    PlanRequestLetters();
  }

  /** "goa" and "agra" use only letters the request has, but never in
      order: it has no "oa" and no "gr". */
  lemma PlanRequestLacksGoaAndAgra()
    ensures !Contains(PlanRequest, "goa") && !Contains(PlanRequest, "agra")
  {
    AbsentPairRulesOut(PlanRequest, "goa", 1, 'o', 'a');
    AbsentPairRulesOut(PlanRequest, "agra", 1, 'g', 'r');
  }

  lemma PlanRequestLacksFirstPlaces()
    ensures forall j :: 0 <= j < 4 ==> !Contains(PlanRequest, RememberedPlaces[j])
  {
    var m := PlanRequest;
    PlanRequestLacks('k');
    AbsentCharRulesOut(m, "kerala", 'k');
    PlanRequestLacksGoaAndAgra();
    PlanRequestLacks('j');
    AbsentCharRulesOut(m, "rajasthan", 'j');
    PlanRequestLacks('h');
    AbsentCharRulesOut(m, "delhi", 'h');
  }

  lemma PlanRequestLacksMiddlePlaces()
    ensures forall j :: 4 <= j < 8 ==> !Contains(PlanRequest, RememberedPlaces[j])
  {
    var m := PlanRequest;
    PlanRequestLacks('m');
    AbsentCharRulesOut(m, "mumbai", 'm');
    PlanRequestLacksGoaAndAgra();
    PlanRequestLacks('j');
    AbsentCharRulesOut(m, "jaipur", 'j');
    PlanRequestLacks('h');
    AbsentCharRulesOut(m, "himalayas", 'h');
  }

  lemma PlanRequestLacksLaterPlaces()
    ensures forall j :: 8 <= j < 11 ==> !Contains(PlanRequest, RememberedPlaces[j])
  {
    var m := PlanRequest;
    PlanRequestLacks('m');
    AbsentCharRulesOut(m, "manali", 'm');
    PlanRequestLacks('h');
    AbsentCharRulesOut(m, "rishikesh", 'h');
    PlanRequestLacks('v');
    AbsentCharRulesOut(m, "varanasi", 'v');
  }

  lemma PlanRequestFirstPlace()
    ensures FirstIn(RememberedPlaces, PlanRequest) == Some("golden triangle")
  {
    PlanRequestLacksFirstPlaces();
    PlanRequestLacksMiddlePlaces();
    PlanRequestLacksLaterPlaces();
    ContainsAt(PlanRequest, "golden triangle", 13);
    assert RememberedPlaces[11] == "golden triangle";
    assert IsFirstHit(RememberedPlaces, PlanRequest, "golden triangle");
    FirstHitIsFound(RememberedPlaces, PlanRequest, "golden triangle");
  }

  /** The request names the golden triangle, the first remembered place it
      contains. */
  lemma PlanRequestRemembersTriangle(p: Prefs)
    ensures UpdatePreferences(p, PlanRequest).lastDestination == Some("golden triangle")
  {
    LowerIs(PlanRequest, PlanRequest);
    PlanRequestFirstPlace();
  }

  lemma PlanRequestIsFollowUp()
    ensures AnyIn(PlanRequest, FollowUpPhrases)
  {
    ContainsAt(PlanRequest, "plan", 0);
    assert FollowUpPhrases[10] == "plan";
  }

  lemma PlanRequestNamesNoTime()
    ensures !AnyIn(PlanRequest, ["date", "time", "weather"])
  {
    AbsentPairRulesOut(PlanRequest, "date", 2, 't', 'e');
    PlanRequestLacks('m');
    AbsentCharRulesOut(PlanRequest, "time", 'm');
    PlanRequestLacks('w');
    AbsentCharRulesOut(PlanRequest, "weather", 'w');
  }

  lemma PlanRequestNamesNoCost()
    ensures !AnyIn(PlanRequest, ["cost", "budget", "price"])
  {
    PlanRequestLacks('c');
    AbsentCharRulesOut(PlanRequest, "cost", 'c');
    PlanRequestLacks('b');
    AbsentCharRulesOut(PlanRequest, "budget", 'b');
    PlanRequestLacks('c');
    AbsentCharRulesOut(PlanRequest, "price", 'c');
  }

  /** The request names no date, time, weather, cost, budget or price, and
      does say "plan". */
  lemma PlanRequestFollowUpKind()
    ensures FollowUpKind(PlanRequest) == Itinerary
  {
    PlanRequestNamesNoTime();
    PlanRequestNamesNoCost();
    ContainsAt(PlanRequest, "plan", 0);
    assert ["plan", "itinerary"][0] == "plan";
  }

  /** With a place remembered, "plan" makes the request a follow-up, and
      its type is itinerary. */
  lemma PlanRequestIsItineraryFollowUp(p: Prefs)
    requires p.lastDestination == Some("golden triangle")
    ensures AnalyzeIntent(PlanRequest, p).contextual && AnalyzeIntent(PlanRequest, p).kind == Itinerary
  {
    LowerIs(PlanRequest, PlanRequest);
    PlanRequestIsFollowUp();
    PlanRequestFollowUpKind();
  }

  /** Neither `c` nor `C` occurs in `s`. */
  predicate LacksBoth(s: string, c: char, C: char) {
    forall i :: 0 <= i < |s| ==> s[i] != c && s[i] != C
  }

  /** A field shorter than `k`, or lacking both cases of the letter `c`
      of `k`, does not contain `k` once lower-cased. */
  lemma FieldLacks(s: string, k: string, c: char, C: char)
    requires 'a' <= c <= 'z' && C as int == c as int - 32
    requires |s| < |k| || (c in k && LacksBoth(s, c, C))
    ensures !Contains(Lower(s), k)
  {
    if |s| >= |k| {
      forall i | 0 <= i < |s| ensures Lower(s)[i] != c {
        assert s[i] != c && s[i] != C;
      }
      AbsentCharRulesOut(Lower(s), k, c);
    }
  }

  lemma RecordLacks(d: Destination, k: string, c: char, C: char)
    requires 'a' <= c <= 'z' && C as int == c as int - 32
    requires |d.name| < |k| || (c in k && LacksBoth(d.name, c, C))
    requires |d.location| < |k| || (c in k && LacksBoth(d.location, c, C))
    requires |d.state| < |k| || (c in k && LacksBoth(d.state, c, C))
    ensures !MentionsPlace(d, k)
  {
    FieldLacks(d.name, k, c, C);
    FieldLacks(d.location, k, c, C);
    FieldLacks(d.state, k, c, C);
  }

  /** The sample records whose fields are all shorter than "golden
      triangle". */
  lemma ShortRecordsLackTriangle()
    ensures !MentionsPlace(SampleTajMahal, "golden triangle")
    ensures !MentionsPlace(SampleGoldenTemple, "golden triangle")
    ensures !MentionsPlace(SampleGoa, "golden triangle")
  {
    var k := "golden triangle";
    assert |k| == 15;
    RecordLacks(SampleTajMahal, k, 'g', 'G');
    RecordLacks(SampleGoldenTemple, k, 'g', 'G');
    RecordLacks(SampleGoa, k, 'g', 'G');
  }

  lemma BackwatersLackTriangle()
    ensures !MentionsPlace(SampleBackwaters, "golden triangle")
  {
    var k := "golden triangle";
    assert |k| == 15 && k[0] == 'g';
    RecordLacks(SampleBackwaters, k, 'g', 'G');
  }

  lemma PalacesLackTriangle()
    ensures !MentionsPlace(SamplePalaces, "golden triangle")
  {
    var k := "golden triangle";
    assert |k| == 15 && k[0] == 'g';
    RecordLacks(SamplePalaces, k, 'g', 'G');
  }

  lemma TrekLacksTriangle()
    ensures !MentionsPlace(SampleTrek, "golden triangle")
  {
    var k := "golden triangle";
    assert |k| == 15 && k[0] == 'g';
    RecordLacks(SampleTrek, k, 'g', 'G');
  }

  /** No sample record's name, location or state mentions the golden
      triangle (the Golden Temple is not it). */
  lemma NoSampleRecordMentionsTriangle()
    ensures forall i :: 0 <= i < |SampleCatalog| ==> !MentionsPlace(SampleCatalog[i], "golden triangle")
  {
    ShortRecordsLackTriangle();
    BackwatersLackTriangle();
    PalacesLackTriangle();
    TrekLacksTriangle();
  }

  lemma ItineraryFollowUpAboutTriangle(intent: Intent, p: Prefs)
    requires p.lastDestination == Some("golden triangle") && intent.contextual && intent.kind == Itinerary
    ensures LocalReply(intent, p, SampleCatalog) == Remembered("golden triangle")
  {
    NoSampleRecordMentionsTriangle();
  }

  /** "plan a 7-day golden triangle tour" on a fresh conversation: the 7 is
      taken as a budget of 7 rupees, no day count is read, and since "plan"
      is a follow-up word and the golden triangle is now remembered, the
      request is answered as a follow-up about a place the catalog does not
      have, so no itinerary is suggested. */
  lemma PlanningTheGoldenTriangle()
    ensures var o := ProcessMessage(InitialState, PlanRequest, [], Offline);
            o.state.prefs.budget == Some(7) &&
            o.state.prefs.duration == None &&
            o.state.prefs.lastDestination == Some("golden triangle") &&
            o.answer == FromLocal(Remembered("golden triangle"))
  {
    var o := ProcessMessage(InitialState, PlanRequest, [], Offline);
    LocalTurn(InitialState, PlanRequest, [], Offline);
    PlanRequestBudget();
    PlanRequestDuration();
    PlanRequestRemembersTriangle(NoPrefs);
    PlanRequestAnsweredLocally(o.state.prefs);
  }

  /** With the golden triangle remembered, the request is answered as an
      itinerary follow-up about it. */
  lemma PlanRequestAnsweredLocally(p: Prefs)
    requires p.lastDestination == Some("golden triangle")
    ensures LocalReply(AnalyzeIntent(PlanRequest, p), p, SampleCatalog) == Remembered("golden triangle")
  {
    PlanRequestIsItineraryFollowUp(p);
    ItineraryFollowUpAboutTriangle(AnalyzeIntent(PlanRequest, p), p);
  }
}

=== FILE: api_main.dfy ===
/** The endpoints of the older FastAPI service (api-backend/backend/main.py)
    that decide something themselves: the empty-message check of the chat
    endpoint, the popularity ranking, and the budget analysis. Each works
    on the records `get_destinations` returned, which are an input. */
module ApiMain {
  import opened Wrappers
  import opened Seqs
  import opened Catalog
  import ApiService

  // ---------------------------------------------------------------------
  // `chat_with_ai`

  datatype ChatResult = BadRequest | Answered(response: ApiService.ApiAnswer)

  /** `chat_with_ai`: a missing or empty message is refused with status 400
      before the catalog is fetched; any other message is answered by the
      assistant over the fetched records. */
  function ChatWithAi(message: Option<string>, catalog: seq<Destination>, groq: ApiService.Groq): (r: ChatResult)
    ensures r == BadRequest <==> message.None? || message.value == ""
    ensures r.Answered? ==> r.response == ApiService.ProcessMessage(message.value, catalog, groq)
  {
    var m := message.GetOr("");
    if m == "" then BadRequest
    else Answered(ApiService.ProcessMessage(m, catalog, groq))
  }

  /** The refusal does not depend on the catalog or the model: an empty
      message is refused whatever they would have been. */
  lemma EmptyMessageIgnoresCatalog(m: Option<string>, c1: seq<Destination>, c2: seq<Destination>,
                                   g1: ApiService.Groq, g2: ApiService.Groq)
    requires m.GetOr("") == ""
    ensures ChatWithAi(m, c1, g1) == ChatWithAi(m, c2, g2) == BadRequest
  {
  }

  // ---------------------------------------------------------------------
  // `get_popular_destinations`

  datatype Popular = Popular(popularDestinations: seq<Destination>, count: nat)

  /** `get_popular_destinations`: the records best-rated first (ties in
      catalog order), cut by Python's `[:limit]`, with their count. */
  function PopularDestinations(ds: seq<Destination>, limit: Option<int>): (r: Popular)
    ensures r.count == |r.popularDestinations|
    ensures SortedDesc(r.popularDestinations, RatingKey)
    ensures forall d :: d in r.popularDestinations ==> d in ds
    ensures limit.Some? && limit.value >= 0 ==> r.count == if limit.value < |ds| then limit.value else |ds|
    ensures limit.Some? && limit.value < 0 ==> r.count == if |ds| + limit.value > 0 then |ds| + limit.value else 0
    ensures limit.None? ==> multiset(r.popularDestinations) == multiset(ds)
    ensures multiset(r.popularDestinations) <= multiset(ds)
    ensures forall d, e :: d in ds && d !in r.popularDestinations && e in r.popularDestinations ==> e.rating >= d.rating
  {
    var sorted := ByRating(ds);
    var picks := PySliceOpt(sorted, limit);
    assert |sorted| == |ds| by {
      assert |multiset(sorted)| == |multiset(ds)|;
    }
    TopOfRanking(ds, |picks|);
    Popular(picks, |picks|)
  }

  /** Any prefix of the rating order is sorted, holds no record more often
      than the catalog, and leaves out no record rated above one it holds. */
  lemma TopOfRanking(ds: seq<Destination>, m: nat)
    requires m <= |ByRating(ds)|
    ensures var t := ByRating(ds)[..m];
            SortedDesc(t, RatingKey) && multiset(t) <= multiset(ds) &&
            (forall d :: d in t ==> d in ds) &&
            (forall d, e :: d in ds && d !in t && e in t ==> e.rating >= d.rating)
  {
    var sorted := ByRating(ds);
    SameMembers(sorted, ds);
    PrefixSubMultiset(sorted, m);
    assert PySlice(sorted, m) == sorted[..m];
    TopOfSorted(sorted, RatingKey, m);
  }

  /** For a non-negative limit the popular list is the top-rated list the
      dialogue core shows (`sort(...).slice(0, n)`). */
  lemma PopularIsTopRated(ds: seq<Destination>, n: nat)
    ensures PopularDestinations(ds, Some(n)).popularDestinations == TopRated(ds, n)
  {
  }

  /** The sort is stable: the records of any one rating that make the
      popular list are the first records of that rating in the catalog, in
      catalog order, whatever the limit. */
  lemma PopularKeepsTies(ds: seq<Destination>, limit: Option<int>, k: int)
    ensures var t := Filter(PopularDestinations(ds, limit).popularDestinations, KeyIs(RatingKey, k));
            |t| <= |Filter(ds, KeyIs(RatingKey, k))| &&
            t == Filter(ds, KeyIs(RatingKey, k))[..|t|]
  {
    var s := ByRating(ds);
    var m := |PopularDestinations(ds, limit).popularDestinations|;
    SortDescStable(ds, RatingKey, k);
    assert PopularDestinations(ds, limit).popularDestinations == s[..m];
    FilterPrefix(s, m, KeyIs(RatingKey, k));
  }

  // ---------------------------------------------------------------------
  // `get_budget_ranges`

  /** Every record's price, in catalog order. */
  function Prices(ds: seq<Destination>): (r: seq<int>)
    ensures |r| == |ds| && forall i :: 0 <= i < |ds| ==> r[i] == ds[i].priceFrom
  {
    if ds == [] then [] else [ds[0].priceFrom] + Prices(ds[1..])
  }

  /** The three price buckets. */
  function IsBudgetPrice(d: Destination): bool {
    d.priceFrom < 15000
  }

  function IsMidRangePrice(d: Destination): bool {
    15000 <= d.priceFrom < 30000
  }

  function IsLuxuryPrice(d: Destination): bool {
    d.priceFrom >= 30000
  }

  /** Every price falls in exactly one bucket, so the three counts add up
      to the number of records. */
  lemma {:induction false} BucketsPartition(ds: seq<Destination>)
    ensures Count(ds, IsBudgetPrice) + Count(ds, IsMidRangePrice) + Count(ds, IsLuxuryPrice) == |ds|
  {
    if ds != [] {
      BucketsPartition(ds[1..]);
      assert ds == [ds[0]] + ds[1..];
      FilterCons(ds[0], ds[1..], IsBudgetPrice);
      FilterCons(ds[0], ds[1..], IsMidRangePrice);
      FilterCons(ds[0], ds[1..], IsLuxuryPrice);
    }
  }

  datatype BudgetAnalysis =
    | NoData
    | Analysis(minPrice: int, maxPrice: int, avgPrice: int,
               budget: nat, midRange: nat, luxury: nat, totalDestinations: nat)

  /** `get_budget_ranges`: "No data available" without records; otherwise
      the lowest, highest and floor-mean price over all records (zero and
      negative prices included), the bucket counts, and the record count. */
  function BudgetRanges(ds: seq<Destination>): (r: BudgetAnalysis)
    ensures r.NoData? <==> |ds| == 0
    ensures r.Analysis? ==>
              r.minPrice <= r.avgPrice <= r.maxPrice &&
              (exists i :: 0 <= i < |ds| && ds[i].priceFrom == r.minPrice) &&
              (exists i :: 0 <= i < |ds| && ds[i].priceFrom == r.maxPrice) &&
              (forall i :: 0 <= i < |ds| ==> r.minPrice <= ds[i].priceFrom <= r.maxPrice)
    ensures r.Analysis? ==> r.avgPrice == Sum(Prices(ds)) / |ds|
    ensures r.Analysis? ==>
              r.totalDestinations == |ds| == r.budget + r.midRange + r.luxury &&
              r.budget == Count(ds, IsBudgetPrice) &&
              r.midRange == Count(ds, IsMidRangePrice) &&
              r.luxury == Count(ds, IsLuxuryPrice)
  {
    if |ds| == 0 then NoData
    else
      var prices := Prices(ds);
      MeanBetween(prices);
      BucketsPartition(ds);
      assert forall i :: 0 <= i < |ds| ==> ds[i].priceFrom in prices by {
        forall i | 0 <= i < |ds| ensures ds[i].priceFrom in prices {
          assert prices[i] == ds[i].priceFrom;
        }
      }
      assert forall x :: x in prices ==> exists i :: 0 <= i < |ds| && ds[i].priceFrom == x;
      Analysis(MinOf(prices), MaxOf(prices), Sum(prices) / |prices|,
               Count(ds, IsBudgetPrice), Count(ds, IsMidRangePrice), Count(ds, IsLuxuryPrice), |ds|)
  }
}

=== FILE: api_service.dfy ===
/** The older FastAPI service (api-backend/backend/services.py): the checks
    `TravelService` runs on a destination dictionary before it reaches the
    store, and the assistant of `AIService` — its keyword reading of a
    message, its local answers and the choice between the Groq model and
    the local answer.

    The Groq model is an oracle: whether a key is configured and the text
    it returned (absent when the request failed in any way) are inputs. */
module ApiService {
  import opened Wrappers
  import opened Text
  import opened Seqs
  import opened Vocabulary
  import opened Catalog
  import opened AgentIntent
  import AgentReply
  import RuleService

  // ---------------------------------------------------------------------
  // Destination dictionaries (`create_destination_dict`,
  // `update_destination_dict`)

  /** The keys a new destination must carry, in the order they are checked. */
  datatype Field = Name | Location | State | Description | CategoryField | RatingField | PriceField

  const RequiredFields: seq<Field> := [Name, Location, State, Description, CategoryField, RatingField, PriceField]

  /** A submitted dictionary: each field present or absent. The rating is
      a real number, as the service compares it. */
  datatype Submission = Submission(
    name: Option<string>,
    location: Option<string>,
    state: Option<string>,
    description: Option<string>,
    category: Option<string>,
    rating: Option<real>,
    priceFrom: Option<int>)

  predicate Present(s: Submission, f: Field) {
    match f
    case Name => s.name.Some?
    case Location => s.location.Some?
    case State => s.state.Some?
    case Description => s.description.Some?
    case CategoryField => s.category.Some?
    case RatingField => s.rating.Some?
    case PriceField => s.priceFrom.Some?
  }

  /** The test "this key is missing from `s`". */
  function Missing(s: Submission): Field -> bool {
    f => !Present(s, f)
  }

  predicate Complete(s: Submission) {
    forall f :: f in RequiredFields ==> Present(s, f)
  }

  /** The value constraints, each of which holds when its field is absent. */
  predicate CategoryOk(s: Submission) {
    s.category.Some? ==> s.category.value in AllowedCategories
  }

  predicate RatingOk(s: Submission) {
    s.rating.Some? ==> 0.0 <= s.rating.value <= 5.0
  }

  predicate PriceOk(s: Submission) {
    s.priceFrom.Some? ==> s.priceFrom.value >= 0
  }

  /** Why a dictionary is refused (the `ValueError` raised). */
  datatype Rejection = MissingField(field: Field) | UnknownCategory | RatingOutOfRange | NegativePrice

  /** The value checks on the fields present: category, then rating, then
      price; the first failure is reported. */
  function CheckValues(s: Submission): Option<Rejection> {
    if s.category.Some? && s.category.value !in AllowedCategories then Some(UnknownCategory)
    else if s.rating.Some? && !(0.0 <= s.rating.value <= 5.0) then Some(RatingOutOfRange)
    else if s.priceFrom.Some? && s.priceFrom.value < 0 then Some(NegativePrice)
    else None
  }

  /** `update_destination_dict` up to the store call: only the fields
      present are checked, so no field's absence is ever a reason to
      refuse; `Ok` hands the dictionary to the store unchanged. */
  function ValidateUpdate(s: Submission): (r: Result<Submission, Rejection>)
    ensures r.Ok? <==> CategoryOk(s) && RatingOk(s) && PriceOk(s)
    ensures r.Ok? ==> r.value == s
    ensures r.Err? ==> !r.error.MissingField?
    ensures r == Err(UnknownCategory) <==> !CategoryOk(s)
    ensures r == Err(RatingOutOfRange) <==> CategoryOk(s) && !RatingOk(s)
    ensures r == Err(NegativePrice) <==> CategoryOk(s) && RatingOk(s) && !PriceOk(s)
  {
    match CheckValues(s)
    case Some(e) => Err(e)
    case None => Ok(s)
  }

  /** `create_destination_dict` up to the store call: the first of the
      seven keys that is missing is reported before any value is looked
      at; a complete dictionary is then checked like an update. */
  function ValidateCreate(s: Submission): (r: Result<Submission, Rejection>)
    ensures r.Ok? <==> Complete(s) && CategoryOk(s) && RatingOk(s) && PriceOk(s)
    ensures r.Ok? ==> r.value == s
    ensures (r.Err? && r.error.MissingField?) <==> !Complete(s)
    ensures r.Err? && r.error.MissingField? ==>
              exists i :: IsFirst(RequiredFields, Missing(s), i) && RequiredFields[i] == r.error.field
    ensures r == Err(UnknownCategory) <==> Complete(s) && !CategoryOk(s)
    ensures r == Err(RatingOutOfRange) <==> Complete(s) && CategoryOk(s) && !RatingOk(s)
    ensures r == Err(NegativePrice) <==> Complete(s) && CategoryOk(s) && RatingOk(s) && !PriceOk(s)
  {
    match FindFirst(RequiredFields, Missing(s))
    case Some(f) => Err(MissingField(f))
    case None =>
      assert forall f :: f in RequiredFields ==> !Missing(s)(f);
      ValidateUpdate(s)
  }

  /** Creating is updating behind a presence check: a complete dictionary
      gets exactly the update's verdict, and whatever creating accepts,
      updating accepts too. */
  lemma CreateIsCheckedUpdate(s: Submission)
    ensures Complete(s) ==> ValidateCreate(s) == ValidateUpdate(s)
    ensures ValidateCreate(s).Ok? ==> ValidateUpdate(s).Ok?
    ensures !Complete(s) ==> ValidateCreate(s).Err? && ValidateUpdate(s).Ok? == (CategoryOk(s) && RatingOk(s) && PriceOk(s))
  {
    if Complete(s) {
      assert forall i :: 0 <= i < |RequiredFields| ==> !Missing(s)(RequiredFields[i]);
    }
  }

  /** A dictionary carrying all seven keys with acceptable values is passed
      to the store. */
  lemma AcceptsCompleteValid(s: Submission)
    requires s.name.Some? && s.location.Some? && s.state.Some? && s.description.Some?
    requires s.category.Some? && s.rating.Some? && s.priceFrom.Some?
    requires CategoryOk(s) && RatingOk(s) && PriceOk(s)
    ensures ValidateCreate(s) == Ok(s)
  {
    assert Complete(s);
  }

  // ---------------------------------------------------------------------
  // Reading a message (`_analyze_intent`)

  /** The twelve place names this service looks for: the first twelve of
      the rule-based service's list. */
  const ApiGazetteer: seq<string> := [
    "delhi", "agra", "jaipur", "mumbai", "goa", "kerala", "rajasthan",
    "himalayas", "manali", "taj mahal", "backwaters", "golden triangle"]

  /** The cue words of each kind. */
  function ApiCues(k: Kind): seq<string> {
    match k
    case Itinerary => ["itinerary", "plan"]
    case Budget => ["budget", "cost", "price", "money"]
    case Food => ["food", "eat", "cuisine", "restaurant"]
    case Culture => ["culture", "festival", "tradition"]
    case Timing => ["weather", "season", "best time"]
    case _ => []
  }

  /** The cue cascade over the lower-cased message. */
  function ApiCueKind(m: string): Kind {
    if Contains(m, "itinerary") || Contains(m, "plan") then Itinerary
    else if AnyIn(m, ["budget", "cost", "price", "money"]) then Budget
    else if AnyIn(m, ["food", "eat", "cuisine", "restaurant"]) then Food
    else if AnyIn(m, ["culture", "festival", "tradition"]) then Culture
    else if AnyIn(m, ["weather", "season", "best time"]) then Timing
    else General
  }

  /** The cascade picks the first kind of the ranking whose cues occur, and
      general exactly when none does. */
  lemma ApiCueKindIsFirstCued(m: string)
    ensures FirstCued(PlainRanking, ApiCues, m) == if ApiCueKind(m) == General then None else Some(ApiCueKind(m))
  {
    var p := (k: Kind) => AnyIn(m, ApiCues(k));
    AnyInCons(m, "itinerary", ["plan"]);
    AnyInCons(m, "plan", []);
    var i, b, f, c, t := p(Itinerary), p(Budget), p(Food), p(Culture), p(Timing);
    assert i == (Contains(m, "itinerary") || Contains(m, "plan"));
    assert ApiCueKind(m) ==
             if i then Itinerary else if b then Budget else if f then Food else if c then Culture
             else if t then Timing else General;
    FindFirstOfFive(Itinerary, Budget, Food, Culture, Timing, p);
  }

  /** The places of the list that occur in the message, in list order. */
  function ApiPlacesIn(m: string): (r: seq<string>)
    ensures forall k :: k in r <==> k in ApiGazetteer && Contains(m, k)
    ensures |r| > 0 <==> AnyIn(m, ApiGazetteer)
  {
    var r := Filter(ApiGazetteer, OccursIn(m));
    assert |r| > 0 ==> r[0] in r;
    r
  }

  /** The two services agree on places up to their shorter list: what this
      one reports is a prefix of what the rule-based one reports. */
  lemma PlacesAgreeWithRuleService(m: string)
    ensures |ApiPlacesIn(m)| <= |RuleService.PlacesIn(m)|
    ensures ApiPlacesIn(m) == RuleService.PlacesIn(m)[..|ApiPlacesIn(m)|]
  {
    assert ApiGazetteer == RuleService.Gazetteer[..12];
    FilterPrefix(RuleService.Gazetteer, 12, OccursIn(m));
  }

  /** The intent dictionary: its type tag, the places named, and the
      confidence in tenths (always 0.8). */
  datatype ApiIntent = ApiIntent(tag: string, entities: seq<string>, confidence: nat)

  /** `_analyze_intent`: the cue cascade over the lower-cased message,
      with a named place turning only "general" into "destination". */
  function AnalyzeIntent(message: string): (r: ApiIntent)
    ensures r.confidence == 8
    ensures forall k :: k in r.entities <==> k in ApiGazetteer && Contains(Lower(message), k)
    ensures r.entities == ApiPlacesIn(Lower(message))
    ensures r.tag == KindName(RuleService.WithPlaces(ApiCueKind(Lower(message)), r.entities))
  {
    var m := Lower(message);
    var places := ApiPlacesIn(m);
    ApiIntent(KindName(RuleService.WithPlaces(ApiCueKind(m), places)), places, 8)
  }

  /** The type reported is the first cued kind of the ranking; with none
      cued, "destination" when a place is named and "general" otherwise. */
  lemma ApiIntentRanking(message: string)
    ensures var m := Lower(message);
            KindOfTag(AnalyzeIntent(message).tag) ==
              FirstCued(PlainRanking, ApiCues, m).GetOr(if AnyIn(m, ApiGazetteer) then Kind.Destination else General)
  {
    var m := Lower(message);
    ApiCueKindIsFirstCued(m);
    KindOfTagOfName(RuleService.WithPlaces(ApiCueKind(m), ApiPlacesIn(m)));
  }

  // ---------------------------------------------------------------------
  // Local answers (`_generate_local_response` and helpers)

  /** A price band as the budget guide prints it, `low` to `high`. */
  datatype PriceBand = PriceBand(low: int, high: int)

  /** What a local answer shows. */
  datatype ApiReply =
    | Spotlight(dest: Destination)
    | TopPicks(picks: seq<Destination>)
    | NoCurrentPricing
    | NoPricingData
    | PriceGuide(lowest: int, average: int, highest: int, budgetBand: PriceBand, midBand: PriceBand, luxuryFrom: int)
    | CuisineTour
    | CultureHeritage
    | BestTimes
    | Welcome(picks: seq<Destination>)

  /** The test "names one of the entities", for finding the first match. */
  function NamesAnyOf(entities: seq<string>): Destination -> bool {
    (d: Destination) => AgentReply.NamesEntity(d, entities)
  }

  /** `_generate_destination_response`: with entities, the first record
      whose lower-cased name or location contains one of them; otherwise
      (no entity, or no such record) the three best-rated records. */
  function SpotlightReply(entities: seq<string>, destinations: seq<Destination>): (r: ApiReply)
    ensures r.Spotlight? || r.TopPicks?
    ensures r.Spotlight? <==>
              |entities| > 0 && exists i :: 0 <= i < |destinations| && AgentReply.NamesEntity(destinations[i], entities)
    ensures r.Spotlight? ==> exists i :: IsFirst(destinations, NamesAnyOf(entities), i) && destinations[i] == r.dest
    ensures r.TopPicks? ==> r.picks == TopRated(destinations, 3)
  {
    if |entities| > 0 then
      match FindFirst(destinations, NamesAnyOf(entities))
      case Some(d) => Spotlight(d)
      case None => TopPicks(TopRated(destinations, 3))
    else TopPicks(TopRated(destinations, 3))
  }

  /** The test "has a positive price". */
  function HasPositivePrice(d: Destination): bool {
    d.priceFrom > 0
  }

  /** The positive prices of the catalog, in catalog order. */
  function PositivePrices(ds: seq<Destination>): (r: seq<int>)
    ensures |r| == Count(ds, HasPositivePrice)
    ensures forall x :: x in r ==> x > 0 && exists i :: 0 <= i < |ds| && ds[i].priceFrom == x
    ensures forall i :: 0 <= i < |ds| && ds[i].priceFrom > 0 ==> ds[i].priceFrom in r
  {
    if ds == [] then []
    else
      var rest := PositivePrices(ds[1..]);
      assert forall x :: x in rest ==> exists i :: 0 <= i < |ds| && ds[i].priceFrom == x by {
        forall x | x in rest ensures exists i :: 0 <= i < |ds| && ds[i].priceFrom == x {
          var j :| 0 <= j < |ds[1..]| && ds[1..][j].priceFrom == x;
          assert ds[j + 1].priceFrom == x;
        }
      }
      assert forall i :: 1 <= i < |ds| ==> ds[i] == ds[1..][i - 1];
      if ds[0].priceFrom > 0 then [ds[0].priceFrom] + rest else rest
  }

  /** `_generate_budget_response`: nothing to say without records or
      without positive prices; otherwise the lowest, the floor mean and the
      highest positive price, with the three bands cut at half and twice
      the mean. */
  function BudgetGuide(destinations: seq<Destination>): (r: ApiReply)
    ensures r.NoCurrentPricing? <==> |destinations| == 0
    ensures r.NoPricingData? <==> |destinations| > 0 && forall i :: 0 <= i < |destinations| ==> destinations[i].priceFrom <= 0
    ensures r.NoCurrentPricing? || r.NoPricingData? || r.PriceGuide?
    ensures r.PriceGuide? ==>
              0 < r.lowest <= r.average <= r.highest &&
              (exists i :: 0 <= i < |destinations| && destinations[i].priceFrom == r.lowest) &&
              (exists i :: 0 <= i < |destinations| && destinations[i].priceFrom == r.highest) &&
              (forall i :: 0 <= i < |destinations| && destinations[i].priceFrom > 0 ==>
                 r.lowest <= destinations[i].priceFrom <= r.highest)
    ensures r.PriceGuide? ==>
              r.average == Sum(PositivePrices(destinations)) / Count(destinations, HasPositivePrice) &&
              r.budgetBand == PriceBand(r.lowest, r.average / 2) &&
              r.midBand == PriceBand(r.average / 2, r.average * 2) &&
              r.luxuryFrom == r.average * 2
  {
    if |destinations| == 0 then NoCurrentPricing
    else
      var prices := PositivePrices(destinations);
      if |prices| == 0 then
        assert forall i :: 0 <= i < |destinations| ==> destinations[i].priceFrom <= 0;
        NoPricingData
      else
        var avg := Sum(prices) / |prices|;
        MeanBetween(prices);
        assert prices[0] in prices;
        PriceGuide(MinOf(prices), avg, MaxOf(prices),
                   PriceBand(MinOf(prices), avg / 2), PriceBand(avg / 2, avg * 2), avg * 2)
  }

  /** `_generate_general_response`: the first four featured records, or
      the first four records when none is featured. */
  function WelcomeReply(destinations: seq<Destination>): (r: ApiReply)
    ensures r.Welcome? && |r.picks| <= 4
    ensures (exists i :: 0 <= i < |destinations| && destinations[i].featured) ==>
              (forall d :: d in r.picks ==> d in destinations && d.featured) &&
              (|r.picks| < 4 ==> forall d :: d in destinations && d.featured ==> d in r.picks) &&
              |r.picks| > 0 &&
              |r.picks| <= |Filter(destinations, IsFeatured)| &&
              r.picks == Filter(destinations, IsFeatured)[..|r.picks|]
    ensures (forall i :: 0 <= i < |destinations| ==> !destinations[i].featured) ==>
              r.picks == PySlice(destinations, 4)
  {
    Welcome(FeaturedOrFirst(destinations, 4))
  }

  /** `_generate_local_response`: each of the five kinds it knows selects
      its generator; every other type, "itinerary" included, gets the
      welcome. */
  function LocalResponse(intent: ApiIntent, destinations: seq<Destination>): (r: ApiReply)
    ensures KindOfTag(intent.tag) == Kind.Destination ==> r == SpotlightReply(intent.entities, destinations)
    ensures KindOfTag(intent.tag) == Budget ==> r == BudgetGuide(destinations)
    ensures KindOfTag(intent.tag) == Food <==> r == CuisineTour
    ensures KindOfTag(intent.tag) == Culture <==> r == CultureHeritage
    ensures KindOfTag(intent.tag) == Timing <==> r == BestTimes
    ensures KindOfTag(intent.tag) in {Itinerary, General} <==> r.Welcome?
    ensures r.Welcome? ==> r == WelcomeReply(destinations)
  {
    match KindOfTag(intent.tag)
    case Destination => SpotlightReply(intent.entities, destinations)
    case Budget => BudgetGuide(destinations)
    case Food => CuisineTour
    case Culture => CultureHeritage
    case Timing => BestTimes
    case _ => WelcomeReply(destinations)
  }

  /** This service has no itinerary generator: a planning request, however
      it is worded, is answered with the welcome. */
  lemma PlanRequestsGetWelcome(message: string, destinations: seq<Destination>)
    requires Contains(Lower(message), "plan")
    ensures LocalResponse(AnalyzeIntent(message), destinations) == WelcomeReply(destinations)
  {
    var i := AnalyzeIntent(message);
    KindOfTagOfName(Itinerary);
    assert i.tag == "itinerary";
  }

  // ---------------------------------------------------------------------
  // Choosing the answer (`process_message`)

  /** What the Groq model did: nothing configured, or a key with the text
      it returned (absent when the request failed or was refused). */
  datatype Groq = Groq(apiKey: Option<string>, completion: Option<string>)

  datatype ApiAnswer = GroqText(text: string) | GroqTrouble | Local(reply: ApiReply)

  /** `process_message`: a configured key hands the message to Groq, whose
      failure yields the fixed apology and never the local answer; without
      a key the local answer is given. Building the context cannot fail
      here, so every message gets an answer. */
  function ProcessMessage(message: string, destinations: seq<Destination>, groq: Groq): (a: ApiAnswer)
    ensures a.Local? <==> !TruthyText(groq.apiKey)
    ensures a.Local? ==> a.reply == LocalResponse(AnalyzeIntent(message), destinations)
    ensures TruthyText(groq.apiKey) && groq.completion.Some? ==> a == GroqText(groq.completion.value)
    ensures a == GroqTrouble <==> TruthyText(groq.apiKey) && groq.completion.None?
  {
    if TruthyText(groq.apiKey) then
      match groq.completion
      case Some(text) => GroqText(text)
      case None => GroqTrouble
    else Local(LocalResponse(AnalyzeIntent(message), destinations))
  }
}

=== FILE: catalog.dfy ===
/** The destination record every assistant works on, the rating order, and
    the front end's built-in sample catalog (lib/supabase.ts), which the
    dialogue core falls back to when no data service answers.

    Ratings are kept in tenths of a star (4.8 is 48), prices in whole
    rupees; `image_url` and `created_at` play no part in any decision and
    are left out. */
module Catalog {
  import opened Text
  import opened Seqs

  datatype Destination = Destination(
    id: int,
    name: string,
    location: string,
    state: string,
    description: string,
    category: string,
    rating: int,
    priceFrom: int,
    featured: bool)

  function RatingKey(d: Destination): int {
    d.rating
  }

  /** The catalog ordered best-rated first, ties in catalog order. */
  function ByRating(ds: seq<Destination>): (r: seq<Destination>)
    ensures SortedDesc(r, RatingKey)
    ensures multiset(r) == multiset(ds)
  {
    SortDesc(ds, RatingKey)
  }

  /** The `n` best-rated records (`sort(...).slice(0, n)`). */
  function TopRated(ds: seq<Destination>, n: nat): (r: seq<Destination>)
    ensures |r| == if n < |ds| then n else |ds|
    ensures SortedDesc(r, RatingKey)
    ensures forall d :: d in r ==> d in ds
    ensures forall d, e :: d in ds && d !in r && e in r ==> e.rating >= d.rating
    ensures |r| < n ==> forall d :: d in ds ==> d in r
    ensures multiset(r) <= multiset(ds)
  {
    var s := ByRating(ds);
    TopOfSorted(s, RatingKey, n);
    SameMembers(s, ds);
    assert |s| == |ds| by {
      assert |multiset(s)| == |multiset(ds)|;
    }
    var r := PySlice(s, n);
    PySliceSubMultiset(s, n);
    assert |r| < n ==> r == s;
    r
  }

  /** The sort behind the top-rated list is stable: the records of any one
      rating that make the list are the first records of that rating in
      the catalog, in catalog order. */
  lemma TopRatedKeepsTies(ds: seq<Destination>, n: nat, k: int)
    ensures |Filter(TopRated(ds, n), KeyIs(RatingKey, k))| <= |Filter(ds, KeyIs(RatingKey, k))|
    ensures var t := Filter(TopRated(ds, n), KeyIs(RatingKey, k));
            t == Filter(ds, KeyIs(RatingKey, k))[..|t|]
  {
    var s := ByRating(ds);
    SortDescStable(ds, RatingKey, k);
    var m := |TopRated(ds, n)|;
    assert TopRated(ds, n) == s[..m];
    FilterPrefix(s, m, KeyIs(RatingKey, k));
  }

  /** The `n` best-rated records among those satisfying `p`
      (`filter(p).sort(...).slice(0, n)`): only such records, none more
      often than the catalog holds it, and none of them left out is rated
      above one taken. */
  function TopRatedWhere(ds: seq<Destination>, p: Destination -> bool, n: nat): (r: seq<Destination>)
    ensures |r| <= n && SortedDesc(r, RatingKey)
    ensures forall d :: d in r ==> d in ds && p(d)
    ensures forall d, e :: d in ds && p(d) && d !in r && e in r ==> e.rating >= d.rating
    ensures |r| < n ==> forall d :: d in ds && p(d) ==> d in r
    ensures n > 0 ==> (|r| == 0 <==> forall d :: d in ds ==> !p(d))
    ensures multiset(r) <= multiset(ds)
  {
    var f := Filter(ds, p);
    FilterSubMultiset(ds, p);
    assert |f| == 0 ==> forall d :: d in ds ==> !p(d);
    assert |f| > 0 ==> f[0] in ds && p(f[0]);
    TopRated(f, n)
  }

  function IsFeatured(d: Destination): bool {
    d.featured
  }

  /** The first `n` featured records, or the first `n` records when none is
      featured (`featured[:n] or destinations[:n]`). */
  function FeaturedOrFirst(ds: seq<Destination>, n: nat): (r: seq<Destination>)
    ensures |r| <= n
    ensures (exists i :: 0 <= i < |ds| && ds[i].featured) ==>
              (forall d :: d in r ==> d in ds && d.featured) &&
              (|r| < n ==> forall d :: d in ds && d.featured ==> d in r) &&
              (n > 0 ==> |r| > 0) &&
              |r| <= |Filter(ds, IsFeatured)| && r == Filter(ds, IsFeatured)[..|r|]
    ensures (forall i :: 0 <= i < |ds| ==> !ds[i].featured) ==> r == PySlice(ds, n)
  {
    var all := Filter(ds, IsFeatured);
    var featured := PySlice(all, n);
    assert forall d :: d in featured ==> d in all;
    assert (forall i :: 0 <= i < |ds| ==> !ds[i].featured) ==> |featured| == 0 by {
      if |featured| > 0 {
        assert featured[0] in all;
      }
    }
    assert (exists i :: 0 <= i < |ds| && ds[i].featured) ==> |all| > 0 by {
      if exists i :: 0 <= i < |ds| && ds[i].featured {
        var i :| 0 <= i < |ds| && ds[i].featured;
        assert ds[i] in all;
      }
    }
    assert |featured| < n ==> featured == all;
    if |featured| > 0 then featured else PySlice(ds, n)
  }

  /** The front end's sample catalog (lib/supabase.ts). Its categories are
      not all among the services' allowed ones: "Historical" and
      "Religious" have no tips of their own. */
  const SampleCatalog: seq<Destination> :=
    [SampleTajMahal, SampleBackwaters, SampleGoldenTemple, SampleGoa, SamplePalaces, SampleTrek]

  const SampleTajMahal := Destination(1, "Taj Mahal", "Agra", "Uttar Pradesh",
    "One of the Seven Wonders of the World, this ivory-white marble mausoleum is a symbol of eternal love.",
    "Historical", 48, 5000, true)

  const SampleBackwaters := Destination(2, "Kerala Backwaters", "Alleppey", "Kerala",
    "Experience the serene beauty of Kerala's backwaters with traditional houseboat stays.",
    "Nature", 47, 8000, true)

  const SampleGoldenTemple := Destination(3, "Golden Temple", "Amritsar", "Punjab",
    "The holiest Gurdwara of Sikhism, known for its stunning golden architecture.",
    "Religious", 49, 3000, false)

  const SampleGoa := Destination(4, "Goa Beaches", "Panaji", "Goa",
    "Pristine beaches, vibrant nightlife, and Portuguese colonial architecture.",
    "Beach", 46, 6000, true)

  const SamplePalaces := Destination(5, "Rajasthan Palaces", "Jaipur", "Rajasthan",
    "Explore the royal heritage with magnificent palaces and forts.",
    "Historical", 45, 7000, false)

  const SampleTrek := Destination(6, "Himalayan Trek", "Manali", "Himachal Pradesh",
    "Adventure through the majestic Himalayas with breathtaking mountain views.",
    "Adventure", 48, 12000, true)
}

=== FILE: env_file.dfy ===
/** The API-key setup panel (components/free-api-setup.tsx): the keys typed
    into its three inputs and the `.env` text it builds from them.

    The keys are an insertion-ordered list of (storage name, value) pairs,
    as `Object.entries` lists an object's string keys: a new name goes to
    the end, an updated one keeps its place. */
module EnvFile {
  import opened Wrappers
  import opened Text
  import opened Seqs

  /** A provider panel: its display name and the variable its key sets. */
  datatype Provider = Provider(name: string, envVar: string)

  const Providers: seq<Provider> := [
    Provider("OpenAI", "OPENAI_API_KEY"),
    Provider("Hugging Face", "HUGGINGFACE_API_KEY"),
    Provider("OpenRouter", "OPENROUTER_API_KEY")]

  /** The keys typed so far: storage name and value, in entry order. */
  type Keys = seq<(string, string)>

  predicate DistinctNames(ks: Keys) {
    forall i, j :: 0 <= i < j < |ks| ==> ks[i].0 != ks[j].0
  }

  /** `apiKeys[name]`. */
  function Lookup(ks: Keys, name: string): (r: Option<string>)
    ensures r.None? <==> forall i :: 0 <= i < |ks| ==> ks[i].0 != name
    ensures r.Some? ==> exists i :: 0 <= i < |ks| && ks[i] == (name, r.value)
  {
    if ks == [] then None
    else if ks[0].0 == name then Some(ks[0].1)
    else
      var r := Lookup(ks[1..], name);
      assert forall i :: 1 <= i < |ks| ==> ks[i] == ks[1..][i - 1];
      assert r.Some? ==> exists i :: 0 <= i < |ks| && ks[i] == (name, r.value) by {
        if r.Some? {
          var i :| 0 <= i < |ks[1..]| && ks[1..][i] == (name, r.value);
          assert ks[i + 1] == (name, r.value);
        }
      }
      r
  }

  /** `apiKeys[name]` on a list that starts with `x`. */
  lemma LookupCons(x: (string, string), ks: Keys, q: string)
    ensures Lookup([x] + ks, q) == if x.0 == q then Some(x.1) else Lookup(ks, q)
  {
    assert ([x] + ks)[1..] == ks;
  }

  /** `handleKeyChange`: `{ ...prev, [provider]: key }`. The provider's
      value becomes the key, every other provider keeps its value, the
      order of names is kept, and a new name is added at the end. */
  function SetKey(ks: Keys, provider: string, key: string): (r: Keys)
    ensures Lookup(r, provider) == Some(key)
    ensures forall q :: q != provider ==> Lookup(r, q) == Lookup(ks, q)
    ensures Lookup(ks, provider).Some? ==> |r| == |ks| && forall i :: 0 <= i < |ks| ==> r[i].0 == ks[i].0
    ensures Lookup(ks, provider).None? ==> r == ks + [(provider, key)]
  {
    if ks == [] then [(provider, key)]
    else if ks[0].0 == provider then [(provider, key)] + ks[1..]
    else
      var rest := SetKey(ks[1..], provider, key);
      assert ks == [ks[0]] + ks[1..];
      SetKeyStep(ks[0], ks[1..], provider, key, rest);
      [ks[0]] + rest
  }

  /** The step of `SetKey` past an entry of another name: what holds of
      the tail and its update holds once both get that entry back. */
  lemma SetKeyStep(x: (string, string), tail: Keys, provider: string, key: string, rest: Keys)
    requires x.0 != provider
    requires Lookup(rest, provider) == Some(key)
    requires forall q :: q != provider ==> Lookup(rest, q) == Lookup(tail, q)
    requires Lookup(tail, provider).Some? ==> |rest| == |tail| && forall i :: 0 <= i < |tail| ==> rest[i].0 == tail[i].0
    requires Lookup(tail, provider).None? ==> rest == tail + [(provider, key)]
    ensures Lookup([x] + rest, provider) == Some(key)
    ensures forall q :: q != provider ==> Lookup([x] + rest, q) == Lookup([x] + tail, q)
    ensures Lookup([x] + tail, provider).Some? ==>
              |[x] + rest| == |[x] + tail| && forall i :: 0 <= i < |[x] + tail| ==> ([x] + rest)[i].0 == ([x] + tail)[i].0
    ensures Lookup([x] + tail, provider).None? ==> [x] + rest == [x] + tail + [(provider, key)]
  {
    LookupCons(x, rest, provider);
    LookupCons(x, tail, provider);
    SameLookupsCons(x, rest, tail, provider);
    SameNamesCons(x, rest, tail, Lookup(tail, provider).Some?);
    AppendCons(x, tail, rest, (provider, key), Lookup(tail, provider).None?);
  }

  /** Appending after a head (whenever `c` holds). */
  lemma AppendCons<T>(x: T, tail: seq<T>, rest: seq<T>, y: T, c: bool)
    requires c ==> rest == tail + [y]
    ensures c ==> [x] + rest == [x] + tail + [y]
  {
  }

  /** Lists that agree on every name but one still agree once both get the
      same head. */
  lemma SameLookupsCons(x: (string, string), a: Keys, b: Keys, provider: string)
    requires forall q :: q != provider ==> Lookup(a, q) == Lookup(b, q)
    ensures forall q :: q != provider ==> Lookup([x] + a, q) == Lookup([x] + b, q)
  {
    forall q | q != provider ensures Lookup([x] + a, q) == Lookup([x] + b, q) {
      LookupCons(x, a, q);
      LookupCons(x, b, q);
    }
  }

  /** Lists with the same names in the same places keep that with a common
      head (whenever `c` holds). */
  lemma SameNamesCons(x: (string, string), a: Keys, b: Keys, c: bool)
    requires c ==> |a| == |b| && forall i :: 0 <= i < |b| ==> a[i].0 == b[i].0
    ensures var r, ks := [x] + a, [x] + b;
            c ==> |r| == |ks| && forall i :: 0 <= i < |ks| ==> r[i].0 == ks[i].0
  {
    var r, ks := [x] + a, [x] + b;
    if c {
      forall i | 0 <= i < |ks| ensures r[i].0 == ks[i].0 {
        if i > 0 {
          assert r[i] == a[i - 1] && ks[i] == b[i - 1];
        }
      }
    }
  }

  /** Setting a key never gives two entries the same name. */
  lemma {:induction false} SetKeyKeepsDistinct(ks: Keys, provider: string, key: string)
    requires DistinctNames(ks)
    ensures DistinctNames(SetKey(ks, provider, key))
    decreases |ks|
  {
    var r := SetKey(ks, provider, key);
    if ks != [] && ks[0].0 != provider {
      var tail := ks[1..];
      var rest := SetKey(tail, provider, key);
      DistinctTail(ks);
      SetKeyKeepsDistinct(tail, provider, key);
      forall j | 0 <= j < |rest| ensures rest[j].0 != ks[0].0 {
        var n := rest[j].0;
        SetKeyNames(tail, provider, key, j);
        if n != provider {
          var v := Lookup(tail, n).value;
          var i :| 0 <= i < |tail| && tail[i] == (n, v);
          assert ks[i + 1].0 == n;
        }
      }
      assert r == [ks[0]] + rest;
      DistinctCons(ks[0], rest);
    } else if ks != [] {
      forall i, j | 0 <= i < j < |r| ensures r[i].0 != r[j].0 {
        assert r[i].0 == ks[i].0 && r[j].0 == ks[j].0;
      }
    }
  }

  lemma DistinctTail(ks: Keys)
    requires DistinctNames(ks) && ks != []
    ensures DistinctNames(ks[1..])
  {
    var tail := ks[1..];
    forall i, j | 0 <= i < j < |tail| ensures tail[i].0 != tail[j].0 {
      assert tail[i] == ks[i + 1] && tail[j] == ks[j + 1];
    }
  }

  lemma DistinctCons(x: (string, string), ks: Keys)
    requires DistinctNames(ks)
    requires forall j :: 0 <= j < |ks| ==> ks[j].0 != x.0
    ensures DistinctNames([x] + ks)
  {
    var r := [x] + ks;
    forall i, j | 0 <= i < j < |r| ensures r[i].0 != r[j].0 {
      assert r[j] == ks[j - 1];
      if i > 0 {
        assert r[i] == ks[i - 1];
      }
    }
  }

  /** Every name after setting a key is the provider's or was there before. */
  lemma SetKeyNames(ks: Keys, provider: string, key: string, j: nat)
    requires j < |SetKey(ks, provider, key)|
    ensures var n := SetKey(ks, provider, key)[j].0;
            n == provider || Lookup(ks, n).Some?
  {
    var r := SetKey(ks, provider, key);
    assert Lookup(r, r[j].0).Some?;
  }

  /** The variable a storage name maps to: that of the provider whose
      lower-cased display name it is. */
  function EnvVarOf(name: string): (r: Option<string>)
    ensures r.Some? ==> exists p :: p in Providers && Lower(p.name) == name && r.value == p.envVar
    ensures r.None? ==> forall p :: p in Providers ==> Lower(p.name) != name
  {
    match FindFirst(Providers, (p: Provider) => Lower(p.name) == name)
    case Some(p) => Some(p.envVar)
    case None => None
  }

  /** The name as interpolated into the line: an unknown one prints as
      `undefined`. */
  function EnvVarText(name: string): (v: string)
    ensures IsVarName(v)
  {
    VarNames();
    EnvVarOf(name).GetOr("undefined")
  }

  /** A character of a variable name: a letter or `_`. */
  predicate IsVarChar(c: char) {
    'A' <= c <= 'Z' || 'a' <= c <= 'z' || c == '_'
  }

  predicate IsVarName(v: string) {
    |v| > 0 && forall j :: 0 <= j < |v| ==> IsVarChar(v[j])
  }

  /** Every variable the panels write, and `undefined`, is a name. */
  lemma VarNames()
    ensures forall p :: p in Providers ==> IsVarName(p.envVar)
    ensures IsVarName("undefined")
  {
    assert IsVarName(Providers[0].envVar);
    assert IsVarName(Providers[1].envVar);
    assert IsVarName(Providers[2].envVar);
  }

  /** The panels store each key under the provider's lower-cased display
      name, so every stored name resolves to that provider's variable. */
  lemma StoredNamesResolve()
    ensures forall p :: p in Providers ==> EnvVarOf(Lower(p.name)) == Some(p.envVar)
  {
    ResolvedNames();
    var a, b, c := Providers[0], Providers[1], Providers[2];
    assert Providers == [a, b, c];
  }

  lemma ResolvedNames()
    ensures EnvVarOf(Lower(Providers[0].name)) == Some(Providers[0].envVar)
    ensures EnvVarOf(Lower(Providers[1].name)) == Some(Providers[1].envVar)
    ensures EnvVarOf(Lower(Providers[2].name)) == Some(Providers[2].envVar)
  {
    LowerIs("OpenAI", "openai");
    LowerIs("Hugging Face", "hugging face");
    LowerIs("OpenRouter", "openrouter");
    var a, b, c := Providers[0], Providers[1], Providers[2];
    assert Providers == [a, b, c];
    FindFirstOfThree(a, b, c, (p: Provider) => Lower(p.name) == "openai");
    FindFirstOfThree(a, b, c, (p: Provider) => Lower(p.name) == "hugging face");
    FindFirstOfThree(a, b, c, (p: Provider) => Lower(p.name) == "openrouter");
  }

  /** The test "the value is not blank" (`key.trim()` is truthy). */
  function HasValue(e: (string, string)): bool {
    !IsBlank(e.1)
  }

  /** The line written for one entry: the variable, `=`, and the value
      exactly as typed. */
  function EnvLine(e: (string, string)): string {
    EnvVarText(e.0) + "=" + e.1
  }

  /** The lines, one per entry with a non-blank value, in entry order. */
  function EnvLines(ks: Keys): (ls: seq<string>)
    ensures |ls| == Count(ks, HasValue)
    ensures forall i :: 0 <= i < |ls| ==> ls[i] == EnvLine(Filter(ks, HasValue)[i])
  {
    if ks == [] then []
    else
      FilterCons(ks[0], ks[1..], HasValue);
      assert ks == [ks[0]] + ks[1..];
      (if HasValue(ks[0]) then [EnvLine(ks[0])] else []) + EnvLines(ks[1..])
  }

  /** `join("\n")`. */
  function JoinLines(ls: seq<string>): string {
    if ls == [] then ""
    else if |ls| == 1 then ls[0]
    else ls[0] + "\n" + JoinLines(ls[1..])
  }

  /** The text shown while no key is typed: two comment lines. */
  const DefaultTemplate: string := "# Add your API keys here" + "\n" + "# OPENAI_API_KEY=your_openai_key_here"

  /** `generateEnvFile`: the joined lines, or the template when there are
      none. */
  function GenerateEnvFile(ks: Keys): (out: string)
    ensures out == DefaultTemplate <==> forall i :: 0 <= i < |ks| ==> IsBlank(ks[i].1)
    ensures Count(ks, HasValue) > 0 ==> out == JoinLines(EnvLines(ks))
  {
    JoinedLinesAreNotTemplate(ks);
    var content := JoinLines(EnvLines(ks));
    if content == "" then DefaultTemplate else content
  }

  /** There are lines exactly when some value is not blank. */
  lemma NoLinesIffAllBlank(ks: Keys)
    ensures Count(ks, HasValue) == 0 <==> forall i :: 0 <= i < |ks| ==> IsBlank(ks[i].1)
  {
    var f := Filter(ks, HasValue);
    if |f| > 0 {
      assert f[0] in f;
      var i :| 0 <= i < |ks| && ks[i] == f[0];
      assert !IsBlank(ks[i].1);
    } else {
      forall i | 0 <= i < |ks| ensures IsBlank(ks[i].1) {
        assert ks[i] !in f;
      }
    }
  }

  /** The lines exist exactly when some value is not blank, and joined they
      never look like the template, which starts with `#`. */
  lemma JoinedLinesAreNotTemplate(ks: Keys)
    ensures Count(ks, HasValue) == 0 <==> forall i :: 0 <= i < |ks| ==> IsBlank(ks[i].1)
    ensures Count(ks, HasValue) == 0 ==> JoinLines(EnvLines(ks)) == ""
    ensures Count(ks, HasValue) > 0 ==> JoinLines(EnvLines(ks)) != "" && JoinLines(EnvLines(ks)) != DefaultTemplate
  {
    NoLinesIffAllBlank(ks);
    var ls := EnvLines(ks);
    if |ls| > 0 {
      var f := Filter(ks, HasValue);
      EnvLineStart(f[0]);
      JoinStartsWithFirst(ls);
      NotTemplate(JoinLines(ls));
    } else {
      assert ls == [];
    }
  }

  /** Text that does not start with `#` is not the template. */
  lemma NotTemplate(s: string)
    requires |s| > 0 && s[0] != '#'
    ensures s != DefaultTemplate
  {
    var head := "# Add your API keys here";
    assert head[0] == '#';
    assert DefaultTemplate[0] == head[0];
  }

  lemma JoinStartsWithFirst(ls: seq<string>)
    requires |ls| > 0 && |ls[0]| > 0
    ensures |JoinLines(ls)| > 0 && JoinLines(ls)[0] == ls[0][0]
  {
  }

  /** A line starts with a letter of its variable. */
  lemma EnvLineStart(e: (string, string))
    ensures |EnvLine(e)| > 0 && EnvLine(e)[0] != '#' && EnvLine(e)[0] != '\n'
  {
    var v := EnvVarText(e.0);
    assert EnvLine(e)[0] == v[0];
  }

  // ---------------------------------------------------------------------
  // Reading the file back

  /** The position of the first `c` in `s`, or `|s|`. */
  function IndexOf(s: string, c: char): (i: nat)
    ensures i <= |s| && forall j :: 0 <= j < i ==> s[j] != c
    ensures i < |s| ==> s[i] == c
  {
    if s == [] then 0
    else if s[0] == c then 0
    else 1 + IndexOf(s[1..], c)
  }

  /** Splitting text at every line break. */
  function SplitLines(s: string): (ls: seq<string>)
    ensures |ls| > 0
    decreases |s|
  {
    var i := IndexOf(s, '\n');
    if i == |s| then [s] else [s[..i]] + SplitLines(s[i + 1..])
  }

  predicate SingleLine(s: string) {
    forall j :: 0 <= j < |s| ==> s[j] != '\n'
  }

  /** Splitting undoes joining, for lines without a line break. */
  lemma {:induction false} SplitJoin(ls: seq<string>)
    requires |ls| > 0 && forall i :: 0 <= i < |ls| ==> SingleLine(ls[i])
    ensures SplitLines(JoinLines(ls)) == ls
  {
    var s := JoinLines(ls);
    if |ls| == 1 {
      assert IndexOf(s, '\n') == |s|;
    } else {
      var rest := JoinLines(ls[1..]);
      assert s == ls[0] + "\n" + rest;
      SplitStep(ls[0], rest);
      SplitJoin(ls[1..]);
      assert ls == [ls[0]] + ls[1..];
    }
  }

  /** A line without a break, then a break: splitting takes that line off. */
  lemma SplitStep(a: string, rest: string)
    requires SingleLine(a)
    ensures SplitLines(a + "\n" + rest) == [a] + SplitLines(rest)
  {
    var s := a + "\n" + rest;
    IndexOfPast(a, rest);
    assert s[|a| + 1..] == rest;
    assert s[..|a|] == a;
  }

  lemma IndexOfPast(a: string, rest: string)
    requires SingleLine(a)
    ensures IndexOf(a + "\n" + rest, '\n') == |a|
  {
    var s := a + "\n" + rest;
    var i := IndexOf(s, '\n');
    assert s[|a|] == '\n';
  }

  /** A line split at its first `=`: the variable and the value. */
  function ParseLine(line: string): (string, string) {
    var i := IndexOf(line, '=');
    if i == |line| then (line, "") else (line[..i], line[i + 1..])
  }

  /** The values typed are single-line, as a text input's are. */
  predicate SingleLineValues(ks: Keys) {
    forall i :: 0 <= i < |ks| ==> SingleLine(ks[i].1)
  }

  /** Reading the file back line by line, splitting each line at its first
      `=`, gives each entry with a non-blank value, in entry order, as its
      variable and its value exactly as typed. */
  lemma EnvFileRoundTrip(ks: Keys)
    requires SingleLineValues(ks) && Count(ks, HasValue) > 0
    ensures var ls := SplitLines(GenerateEnvFile(ks));
            var f := Filter(ks, HasValue);
            |ls| == |f| && forall i :: 0 <= i < |f| ==> ParseLine(ls[i]) == (EnvVarText(f[i].0), f[i].1)
  {
    var f := Filter(ks, HasValue);
    var ls := EnvLines(ks);
    forall i | 0 <= i < |ls| ensures SingleLine(ls[i]) && ParseLine(ls[i]) == (EnvVarText(f[i].0), f[i].1) {
      assert f[i] in f;
      var k :| 0 <= k < |ks| && ks[k] == f[i];
      LineParts(f[i]);
    }
    SplitJoin(ls);
  }

  /** A variable name holds neither `=` nor a line break. */
  lemma LineParts(e: (string, string))
    requires SingleLine(e.1)
    ensures SingleLine(EnvLine(e)) && ParseLine(EnvLine(e)) == (EnvVarText(e.0), e.1)
  {
    var v := EnvVarText(e.0);
    var line := EnvLine(e);
    assert line[|v|] == '=';
    assert IndexOf(line, '=') == |v| by {
    }
    assert line[..|v|] == v && line[|v| + 1..] == e.1;
  }
}

=== FILE: hero_banner.dfy ===
/** The landing page's slide carousel (components/hero-banner.tsx): which
    of the five slides shows, as the timer, the two arrows and the
    indicator dots move it. */
module HeroBanner {
  /** The number of slides. */
  const SlideCount: nat := 5

  /** What moves the carousel: the five-second timer, the arrows, or the
      dot of slide `index`. */
  datatype Event = Tick | NextArrow | PrevArrow | Indicator(index: int)

  predicate InRange(i: int) {
    0 <= i < SlideCount
  }

  /** A dot is drawn for each slide only. */
  predicate Drawn(e: Event) {
    e.Indicator? ==> InRange(e.index)
  }

  /** The slide shown first. */
  const Start: int := 0

  /** One transition: the timer and the right arrow go to the next slide,
      wrapping after the last; the left arrow goes to the previous one,
      wrapping before the first; a dot goes to its slide. */
  function Step(i: int, e: Event): (j: int)
    ensures InRange(i) && Drawn(e) ==> InRange(j)
    ensures e.Indicator? ==> j == e.index
  {
    match e
    case Tick => (i + 1) % SlideCount
    case NextArrow => (i + 1) % SlideCount
    case PrevArrow => if i == 0 then SlideCount - 1 else i - 1
    case Indicator(k) => k
  }

  /** The slide shown after a sequence of events. */
  function Run(i: int, es: seq<Event>): int
    decreases |es|
  {
    if es == [] then i else Run(Step(i, es[0]), es[1..])
  }

  /** Whatever the user clicks and however long the page stays open, the
      slide shown is one of the five. */
  lemma {:induction false} RunStaysInRange(i: int, es: seq<Event>)
    requires InRange(i)
    requires forall k :: 0 <= k < |es| ==> Drawn(es[k])
    ensures InRange(Run(i, es))
    decreases |es|
  {
    if es != [] {
      assert Drawn(es[0]);
      assert forall k :: 0 <= k < |es[1..]| ==> Drawn(es[1..][k]) by {
        forall k | 0 <= k < |es[1..]| ensures Drawn(es[1..][k]) {
          assert es[1..][k] == es[k + 1];
        }
      }
      RunStaysInRange(Step(i, es[0]), es[1..]);
    }
  }

  /** The two arrows undo each other. */
  lemma ArrowsAreInverse(i: int)
    requires InRange(i)
    ensures Step(Step(i, NextArrow), PrevArrow) == i
    ensures Step(Step(i, PrevArrow), NextArrow) == i
  {
  }

  function Ticks(k: nat): (es: seq<Event>)
    ensures |es| == k && forall j :: 0 <= j < k ==> es[j] == Tick
  {
    if k == 0 then [] else [Tick] + Ticks(k - 1)
  }

  /** `k` ticks of the timer move the carousel `k` slides on, modulo the
      number of slides; in particular every fifth tick it is back. */
  lemma {:induction false} TicksAdvance(i: int, k: nat)
    requires InRange(i)
    ensures Run(i, Ticks(k)) == (i + k) % SlideCount
    decreases k
  {
    if k > 0 {
      var j := Step(i, Tick);
      assert Ticks(k)[0] == Tick && Ticks(k)[1..] == Ticks(k - 1);
      TicksAdvance(j, k - 1);
      assert (j + (k - 1)) % SlideCount == (i + k) % SlideCount by {
        ModShift(i, k);
      }
    }
  }

  /** Adding one, reducing, then adding the rest is adding it all. */
  lemma ModShift(i: int, k: nat)
    requires InRange(i) && k > 0
    ensures ((i + 1) % SlideCount + (k - 1)) % SlideCount == (i + k) % SlideCount
  {
    if i + 1 < SlideCount {
      assert (i + 1) % SlideCount == i + 1;
    } else {
      assert (i + 1) % SlideCount == 0;
      assert i + k == (k - 1) + SlideCount;
    }
  }

  /** The carousel starts on the first slide, and any dot reaches its
      slide from anywhere. */
  lemma IndicatorReachesItsSlide(i: int, k: int)
    requires InRange(k)
    ensures Run(i, [Indicator(k)]) == k
    ensures InRange(Start)
  {
    assert [Indicator(k)][1..] == [];
  }
}

=== FILE: mock_store.dfy ===
/** The store client of the Python services (backend/database.py) when it
    has no connection: without a URL and key it serves a fixed list of six
    records for every read and refuses every write.

    The connected paths are kept only as far as they decide something:
    what the database answered is an input (`None` when the query raised),
    and the client passes it on or falls back as the source does. */
module MockStore {
  import opened Wrappers
  import opened Text
  import opened Seqs
  import opened Catalog

  /** Whether a client was created. */
  datatype Client = NoClient | Connected

  /** The list served in mock mode. */
  const MockCatalog: seq<Destination> := [
    Destination(1, "Taj Mahal", "Agra", "Uttar Pradesh",
      "One of the Seven Wonders of the World, this ivory-white marble mausoleum is a symbol of eternal love.",
      "Heritage", 48, 15000, true),
    Destination(2, "Kerala Backwaters", "Alleppey", "Kerala",
      "Experience the serene beauty of Kerala's backwaters on a traditional houseboat cruise.",
      "Nature", 47, 12000, true),
    Destination(3, "Golden Temple", "Amritsar", "Punjab",
      "The holiest Gurdwara of Sikhism, known for its stunning golden architecture and spiritual atmosphere.",
      "Spiritual", 49, 8000, true),
    Destination(4, "Goa Beaches", "Panaji", "Goa",
      "Pristine beaches, vibrant nightlife, and Portuguese colonial architecture make Goa a perfect getaway.",
      "Beach", 46, 10000, true),
    Destination(5, "Jaipur City Palace", "Jaipur", "Rajasthan",
      "Explore the Pink City's royal heritage with magnificent palaces, forts, and vibrant bazaars.",
      "Heritage", 45, 11000, true),
    Destination(6, "Himalayan Trek", "Manali", "Himachal Pradesh",
      "Adventure through the majestic Himalayas with breathtaking views and thrilling trekking experiences.",
      "Adventure", 48, 18000, true)
  ]

  // ---------------------------------------------------------------------
  // Reads

  /** `get_destinations`: without a client the mock list, whatever the
      filters; with one, what the database returned for them, or the mock
      list when the query raised. */
  function GetDestinations(client: Client, limit: int, featured: Option<bool>, category: Option<string>,
                           live: Option<seq<Destination>>): (r: seq<Destination>)
    ensures client.NoClient? || live.None? ==> r == MockCatalog
    ensures client.Connected? && live.Some? ==> r == live.value
  {
    match client
    case NoClient => MockCatalog
    case Connected => live.GetOr(MockCatalog)
  }

  /** In mock mode the filters are ignored: every call returns all six
      records, even when fewer were asked for or none of them matches. */
  lemma MockModeIgnoresFilters(l1: int, f1: Option<bool>, c1: Option<string>, v1: Option<seq<Destination>>,
                               l2: int, f2: Option<bool>, c2: Option<string>, v2: Option<seq<Destination>>)
    ensures GetDestinations(NoClient, l1, f1, c1, v1) == GetDestinations(NoClient, l2, f2, c2, v2)
    ensures |GetDestinations(NoClient, l1, f1, c1, v1)| == 6
  {
  }

  /** The test "has this id". */
  function HasId(id: int): Destination -> bool {
    (d: Destination) => d.id == id
  }

  /** `get_destination_by_id`: without a client the first mock record with
      that id, or nothing; with one, the first record the database returned
      (nothing when it returned none or the query raised). */
  function GetDestinationById(client: Client, id: int, live: Option<seq<Destination>>): (r: Option<Destination>)
    ensures client.NoClient? ==> (r.Some? <==> exists i :: 0 <= i < |MockCatalog| && MockCatalog[i].id == id)
    ensures client.NoClient? && r.Some? ==> r.value in MockCatalog && r.value.id == id
    ensures client.Connected? ==> (r.Some? <==> live.Some? && |live.value| > 0)
    ensures client.Connected? && r.Some? ==> r.value == live.value[0]
  {
    match client
    case NoClient => FindFirst(MockCatalog, HasId(id))
    case Connected => if live.Some? && |live.value| > 0 then Some(live.value[0]) else None
  }

  /** The mock ids are the positions 1 to 6 of the list. */
  lemma MockIdsArePositions(id: int)
    ensures 1 <= id <= 6 ==> GetDestinationById(NoClient, id, None) == Some(MockCatalog[id - 1])
    ensures !(1 <= id <= 6) ==> GetDestinationById(NoClient, id, None) == None
  {
    MockIds();
    IdsArePositions(MockCatalog, id);
  }

  lemma MockIds()
    ensures forall i :: 0 <= i < |MockCatalog| ==> MockCatalog[i].id == i + 1
  {
  }

  /** In a list whose ids are its positions counted from 1, looking an id
      up finds the record at that position, or nothing past the ends. */
  lemma IdsArePositions(ds: seq<Destination>, id: int)
    requires forall i :: 0 <= i < |ds| ==> ds[i].id == i + 1
    ensures 1 <= id <= |ds| ==> FindFirst(ds, HasId(id)) == Some(ds[id - 1])
    ensures !(1 <= id <= |ds|) ==> FindFirst(ds, HasId(id)) == None
  {
    var r := FindFirst(ds, HasId(id));
    if r.Some? {
      var i :| IsFirst(ds, HasId(id), i) && ds[i] == r.value;
    }
  }

  /** The query test of the mock search: the lower-cased query occurs in
      the lower-cased name, location or description. */
  function MatchesQuery(q: string): Destination -> bool {
    (d: Destination) => Contains(Lower(d.name), q) || Contains(Lower(d.location), q) || Contains(Lower(d.description), q)
  }

  /** The mock search: the matching records in list order, cut by Python's
      `[:limit]`. */
  function MockSearch(query: string, limit: int): (r: seq<Destination>)
    ensures forall d :: d in r ==> d in MockCatalog && MatchesQuery(Lower(query))(d)
    ensures |r| <= |Filter(MockCatalog, MatchesQuery(Lower(query)))|
    ensures r == Filter(MockCatalog, MatchesQuery(Lower(query)))[..|r|]
    ensures limit >= 0 ==> |r| <= limit
    ensures limit < 0 ==> var m := |Filter(MockCatalog, MatchesQuery(Lower(query)))|;
                          |r| == if m + limit > 0 then m + limit else 0
    ensures 0 <= limit && |r| < limit ==> forall d :: d in MockCatalog && MatchesQuery(Lower(query))(d) ==> d in r
  {
    var matching := Filter(MockCatalog, MatchesQuery(Lower(query)));
    var r := PySlice(matching, limit);
    assert forall d :: d in r ==> d in matching;
    assert 0 <= limit && |r| < limit ==> r == matching;
    r
  }

  /** `search_destinations`: the mock search without a client; with one,
      what the database returned, or nothing when the query raised. */
  function SearchDestinations(client: Client, query: string, limit: int, live: Option<seq<Destination>>): (r: seq<Destination>)
    ensures client.NoClient? ==> r == MockSearch(query, limit)
    ensures client.Connected? ==> r == live.GetOr([])
  {
    match client
    case NoClient => MockSearch(query, limit)
    case Connected => live.GetOr([])
  }

  /** The empty query occurs everywhere, so it returns the first `limit`
      records of the list. */
  lemma EmptyQueryListsAll(limit: int)
    ensures MockSearch("", limit) == PySlice(MockCatalog, limit)
  {
    assert forall d :: MatchesQuery("")(d) by {
      forall d ensures MatchesQuery("")(d) {
        assert OccursAt(Lower(d.name), "", 0);
      }
    }
    FilterAll(MockCatalog, MatchesQuery(""));
  }

  // ---------------------------------------------------------------------
  // Writes

  datatype StoreError = MockModeUnavailable | QueryFailed

  /** `create_destination`: refused in mock mode; otherwise the inserted
      row the database returned, a failure re-raised. */
  function CreateDestination(client: Client, live: Option<Destination>): (r: Result<Destination, StoreError>)
    ensures r == Err(MockModeUnavailable) <==> client.NoClient?
    ensures client.Connected? ==> (r.Ok? <==> live.Some?) && (r.Ok? ==> r.value == live.value)
  {
    match client
    case NoClient => Err(MockModeUnavailable)
    case Connected => if live.Some? then Ok(live.value) else Err(QueryFailed)
  }

  /** `update_destination`: refused in mock mode; otherwise the first
      updated row, or nothing when no row had that id. */
  function UpdateDestination(client: Client, live: Option<seq<Destination>>): (r: Result<Option<Destination>, StoreError>)
    ensures r == Err(MockModeUnavailable) <==> client.NoClient?
    ensures client.Connected? ==> (r.Ok? <==> live.Some?)
    ensures client.Connected? && r.Ok? ==>
              (r.value.Some? <==> |live.value| > 0) && (r.value.Some? ==> r.value.value == live.value[0])
  {
    match client
    case NoClient => Err(MockModeUnavailable)
    case Connected =>
      match live
      case None => Err(QueryFailed)
      case Some(rows) => Ok(if |rows| > 0 then Some(rows[0]) else None)
  }

  /** `delete_destination`: refused in mock mode; otherwise whether some
      row was deleted. */
  function DeleteDestination(client: Client, live: Option<seq<Destination>>): (r: Result<bool, StoreError>)
    ensures r == Err(MockModeUnavailable) <==> client.NoClient?
    ensures client.Connected? ==> (r.Ok? <==> live.Some?)
    ensures client.Connected? && r.Ok? ==> (r.value <==> |live.value| > 0)
  {
    match client
    case NoClient => Err(MockModeUnavailable)
    case Connected =>
      match live
      case None => Err(QueryFailed)
      case Some(rows) => Ok(|rows| > 0)
  }
}

=== FILE: models.dfy ===
/** The request models of the Python services (backend/models_simple.py):
    the field constraints a destination and a chat message must meet
    before a handler sees them. Every violated constraint is reported, as
    the validation error lists them all. */
module Models {
  import opened Wrappers
  import opened Vocabulary
  import ApiService

  /** The constrained fields of a destination. */
  datatype Field = Name | Location | State | Description | Category | Rating | PriceFrom

  /** The length bounds of the text fields, in characters. */
  function MinLength(f: Field): nat {
    match f
    case Description => 10
    case _ => 1
  }

  function MaxLength(f: Field): nat {
    match f
    case Name => 200
    case Description => 1000
    case _ => 100
  }

  /** A destination as submitted: every field present or absent. */
  datatype DestinationFields = DestinationFields(
    name: Option<string>,
    location: Option<string>,
    state: Option<string>,
    description: Option<string>,
    imageUrl: Option<string>,
    category: Option<string>,
    rating: Option<real>,
    priceFrom: Option<int>,
    featured: Option<bool>)

  /** `DestinationBase` once validated. */
  datatype DestinationBase = DestinationBase(
    name: string,
    location: string,
    state: string,
    description: string,
    imageUrl: Option<string>,
    category: string,
    rating: real,
    priceFrom: int,
    featured: bool)

  /** One entry of a validation error. */
  datatype Problem =
    | Required(field: Field)
    | LengthOutOfRange(field: Field)
    | CategoryNotAllowed
    | RatingOutOfRange
    | PriceNegative

  function TextOf(x: DestinationFields, f: Field): Option<string> {
    match f
    case Name => x.name
    case Location => x.location
    case State => x.state
    case Description => x.description
    case _ => None
  }

  predicate IsTextField(f: Field) {
    f in {Name, Location, State, Description}
  }

  predicate IsPresent(x: DestinationFields, f: Field) {
    match f
    case Category => x.category.Some?
    case Rating => x.rating.Some?
    case PriceFrom => x.priceFrom.Some?
    case _ => TextOf(x, f).Some?
  }

  /** Whether `p` describes a constraint `x` breaks, for a model whose
      fields are required (`required`) or may be left out. A field that
      is absent breaks no value constraint. */
  predicate Breaks(x: DestinationFields, p: Problem, required: bool) {
    match p
    case Required(f) => required && !IsPresent(x, f)
    case LengthOutOfRange(f) =>
      IsTextField(f) && TextOf(x, f).Some? &&
      !(MinLength(f) <= |TextOf(x, f).value| <= MaxLength(f))
    case CategoryNotAllowed => x.category.Some? && x.category.value !in AllowedCategories
    case RatingOutOfRange => x.rating.Some? && !(0.0 <= x.rating.value <= 5.0)
    case PriceNegative => x.priceFrom.Some? && x.priceFrom.value < 0
  }

  /** The entries for one text field. */
  function TextProblems(f: Field, v: Option<string>, required: bool): (ps: seq<Problem>)
    ensures forall p :: p in ps ==> p == Required(f) || p == LengthOutOfRange(f)
    ensures Required(f) in ps <==> required && v.None?
    ensures LengthOutOfRange(f) in ps <==> v.Some? && !(MinLength(f) <= |v.value| <= MaxLength(f))
  {
    match v
    case None => if required then [Required(f)] else []
    case Some(s) => if MinLength(f) <= |s| <= MaxLength(f) then [] else [LengthOutOfRange(f)]
  }

  /** The entries for one value field: required-ness, then its constraint. */
  function ValueProblems<T>(f: Field, v: Option<T>, ok: T -> bool, broken: Problem, required: bool): (ps: seq<Problem>)
    requires !broken.Required?
    ensures forall p :: p in ps ==> p == Required(f) || p == broken
    ensures Required(f) in ps <==> required && v.None?
    ensures broken in ps <==> v.Some? && !ok(v.value)
  {
    match v
    case None => if required then [Required(f)] else []
    case Some(x) => if ok(x) then [] else [broken]
  }

  /** The field an entry is about. */
  function FieldOf(p: Problem): Field {
    match p
    case Required(f) => f
    case LengthOutOfRange(f) => f
    case CategoryNotAllowed => Category
    case RatingOutOfRange => Rating
    case PriceNegative => PriceFrom
  }

  /** The entries for one field, by its validator. */
  function FieldProblems(x: DestinationFields, f: Field, required: bool): seq<Problem> {
    match f
    case Category => ValueProblems(Category, x.category, (c: string) => c in AllowedCategories, CategoryNotAllowed, required)
    case Rating => ValueProblems(Rating, x.rating, (r: real) => 0.0 <= r <= 5.0, RatingOutOfRange, required)
    case PriceFrom => ValueProblems(PriceFrom, x.priceFrom, (n: int) => n >= 0, PriceNegative, required)
    case _ => TextProblems(f, TextOf(x, f), required)
  }

  /** A field's entries are exactly the broken constraints about it. */
  lemma FieldProblemsExact(x: DestinationFields, f: Field, required: bool, p: Problem)
    ensures p in FieldProblems(x, f, required) <==> Breaks(x, p, required) && FieldOf(p) == f
  {
  }

  /** All entries of the validation error, field by field. */
  function Problems(x: DestinationFields, required: bool): (ps: seq<Problem>)
    ensures forall p :: p in ps <==> Breaks(x, p, required)
  {
    var ps := FieldProblems(x, Name, required) + FieldProblems(x, Location, required) +
              FieldProblems(x, State, required) + FieldProblems(x, Description, required) +
              FieldProblems(x, Category, required) + FieldProblems(x, Rating, required) +
              FieldProblems(x, PriceFrom, required);
    assert forall p :: p in ps <==> Breaks(x, p, required) by {
      forall p ensures p in ps <==> Breaks(x, p, required) {
        InSeven(FieldProblems(x, Name, required), FieldProblems(x, Location, required),
                FieldProblems(x, State, required), FieldProblems(x, Description, required),
                FieldProblems(x, Category, required), FieldProblems(x, Rating, required),
                FieldProblems(x, PriceFrom, required), p);
        FieldProblemsExact(x, Name, required, p);
        FieldProblemsExact(x, Location, required, p);
        FieldProblemsExact(x, State, required, p);
        FieldProblemsExact(x, Description, required, p);
        FieldProblemsExact(x, Category, required, p);
        FieldProblemsExact(x, Rating, required, p);
        FieldProblemsExact(x, PriceFrom, required, p);
      }
    }
    ps
  }

  /** Membership in seven lists joined. */
  lemma InSeven<T>(a: seq<T>, b: seq<T>, c: seq<T>, d: seq<T>, e: seq<T>, f: seq<T>, g: seq<T>, p: T)
    ensures p in a + b + c + d + e + f + g <==>
            p in a || p in b || p in c || p in d || p in e || p in f || p in g
  {
  }

  /** `DestinationBase` (and `DestinationCreate`): all fields but the image
      and the flag are required; `featured` defaults to false. */
  function ParseBase(x: DestinationFields): (r: Result<DestinationBase, seq<Problem>>)
    ensures r.Err? <==> exists p :: Breaks(x, p, true)
    ensures r.Err? ==> |r.error| > 0 && forall p :: p in r.error <==> Breaks(x, p, true)
    ensures r.Ok? ==>
              Some(r.value.name) == x.name && Some(r.value.location) == x.location &&
              Some(r.value.state) == x.state && Some(r.value.description) == x.description &&
              r.value.imageUrl == x.imageUrl && Some(r.value.category) == x.category &&
              Some(r.value.rating) == x.rating && Some(r.value.priceFrom) == x.priceFrom &&
              r.value.featured == x.featured.GetOr(false)
  {
    var ps := Problems(x, true);
    if |ps| > 0 then
      assert ps[0] in ps;
      Err(ps)
    else
      AllPresent(x);
      Ok(DestinationBase(x.name.value, x.location.value, x.state.value, x.description.value, x.imageUrl,
                         x.category.value, x.rating.value, x.priceFrom.value, x.featured.GetOr(false)))
  }

  /** `DestinationUpdate`: every field may be left out (the category
      validator skips a missing one); the fields given obey the same
      bounds. */
  function ParseUpdate(x: DestinationFields): (r: Result<DestinationFields, seq<Problem>>)
    ensures r.Err? <==> exists p :: Breaks(x, p, false)
    ensures r.Err? ==> |r.error| > 0 && forall p :: p in r.error <==> Breaks(x, p, false)
    ensures r.Ok? ==> r.value == x
  {
    var ps := Problems(x, false);
    if |ps| > 0 then
      assert ps[0] in ps;
      Err(ps)
    else Ok(x)
  }

  /** With no entry for the base model, every required field is there. */
  lemma AllPresent(x: DestinationFields)
    requires Problems(x, true) == []
    ensures x.name.Some? && x.location.Some? && x.state.Some? && x.description.Some?
    ensures x.category.Some? && x.rating.Some? && x.priceFrom.Some?
  {
    assert !Breaks(x, Required(Name), true) && !Breaks(x, Required(Location), true);
    assert !Breaks(x, Required(State), true) && !Breaks(x, Required(Description), true);
    assert !Breaks(x, Required(Category), true) && !Breaks(x, Required(Rating), true);
    assert !Breaks(x, Required(PriceFrom), true);
  }

  /** The update model reports exactly the base model's complaints about
      the values given, and never a missing field. */
  lemma UpdateDropsOnlyRequired(x: DestinationFields)
    ensures forall p :: Breaks(x, p, false) <==> Breaks(x, p, true) && !p.Required?
    ensures ParseBase(x).Ok? ==> ParseUpdate(x) == Ok(x)
  {
    if ParseBase(x).Ok? {
      forall p ensures !Breaks(x, p, false) {
        assert !Breaks(x, p, true);
      }
    }
  }

  /** The dictionary fields a destination model carries. */
  function AsSubmission(x: DestinationFields): ApiService.Submission {
    ApiService.Submission(x.name, x.location, x.state, x.description, x.category, x.rating, x.priceFrom)
  }

  /** What the model accepts, the dictionary check of the older service
      accepts too: the model is the stricter of the two. */
  lemma BaseIsStricterThanDictCheck(x: DestinationFields)
    ensures ParseBase(x).Ok? ==> ApiService.ValidateCreate(AsSubmission(x)).Ok?
  {
    var r := ParseBase(x);
    if r.Ok? {
      assert x.name.Some? && x.location.Some? && x.state.Some? && x.description.Some?;
      assert x.category.Some? && x.rating.Some? && x.priceFrom.Some?;
      assert !Breaks(x, CategoryNotAllowed, true);
      assert !Breaks(x, RatingOutOfRange, true);
      assert !Breaks(x, PriceNegative, true);
      ApiService.AcceptsCompleteValid(AsSubmission(x));
    }
  }

  /** A destination with an empty name and a six-letter description. */
  const ShortNamed: DestinationFields :=
    DestinationFields(Some(""), Some("Agra"), Some("Uttar Pradesh"), Some("Marble"), None,
                      Some("Heritage"), Some(4.8), Some(15000), None)

  /** The converse fails. The dictionary check of the older service looks
      at no length, so it passes an empty name and a short description... */
  lemma DictCheckIgnoresLengths()
    ensures ApiService.ValidateCreate(AsSubmission(ShortNamed)).Ok?
  {
    assert "Heritage" in AllowedCategories by {
      assert AllowedCategories[0] == "Heritage";
    }
    ApiService.AcceptsCompleteValid(AsSubmission(ShortNamed));
  }

  /** ...which the model refuses, naming both fields and nothing else. */
  lemma ModelRefusesShortFields()
    ensures ParseBase(ShortNamed) == Err([LengthOutOfRange(Name), LengthOutOfRange(Description)])
  {
    ShortNamedTexts();
    ShortNamedValues();
    var ps := Problems(ShortNamed, true);
    assert ps == [LengthOutOfRange(Name)] + [] + [] + [LengthOutOfRange(Description)] + [] + [] + [];
    assert ps == [LengthOutOfRange(Name), LengthOutOfRange(Description)];
  }

  lemma ShortNamedTexts()
    ensures FieldProblems(ShortNamed, Name, true) == [LengthOutOfRange(Name)]
    ensures FieldProblems(ShortNamed, Location, true) == []
    ensures FieldProblems(ShortNamed, State, true) == []
    ensures FieldProblems(ShortNamed, Description, true) == [LengthOutOfRange(Description)]
  {
    assert |""| == 0 && |"Agra"| == 4 && |"Uttar Pradesh"| == 13 && |"Marble"| == 6;
  }

  lemma ShortNamedValues()
    ensures FieldProblems(ShortNamed, Category, true) == []
    ensures FieldProblems(ShortNamed, Rating, true) == []
    ensures FieldProblems(ShortNamed, PriceFrom, true) == []
  {
    assert "Heritage" in AllowedCategories by {
      assert AllowedCategories[0] == "Heritage";
    }
  }

  // ---------------------------------------------------------------------
  // `ChatMessage`

  /** A chat request as submitted: the message and the history, each
      present or absent. History entries are role/content pairs. */
  datatype ChatFields = ChatFields(message: Option<string>, history: Option<seq<(string, string)>>)

  datatype ChatMessage = ChatMessage(message: string, history: seq<(string, string)>)

  datatype ChatProblem = MessageRequired | MessageLengthOutOfRange

  /** `ChatMessage`: the message is required and 1 to 1000 characters
      long; the history defaults to empty. */
  function ParseChat(x: ChatFields): (r: Result<ChatMessage, ChatProblem>)
    ensures r.Ok? <==> x.message.Some? && 1 <= |x.message.value| <= 1000
    ensures r == Err(MessageRequired) <==> x.message.None?
    ensures r.Ok? ==> r.value.message == x.message.value
    ensures r.Ok? ==> (x.history.None? ==> r.value.history == []) && (x.history.Some? ==> r.value.history == x.history.value)
  {
    match x.message
    case None => Err(MessageRequired)
    case Some(m) =>
      if 1 <= |m| <= 1000 then Ok(ChatMessage(m, x.history.GetOr([])))
      else Err(MessageLengthOutOfRange)
  }
}

=== FILE: rule_service.dfy ===
/** The Python data service's assistant (backend/services.py): the catalog
    queries of `TravelService`, the rule-based reading of a message, the
    data fetched for it, the local answers, and the choice between the
    hosted model and the local answer in `process_message`.

    The hosted model is an oracle: whether a key is configured, the intent
    it reports (when its answer parsed) and its completion (absent when the
    request failed) are inputs. The store is an input too: the records it
    lists and what its search returns for a place name. */
module RuleService {
  import opened Wrappers
  import opened Text
  import opened Seqs
  import opened Vocabulary
  import opened Catalog
  import opened AgentIntent
  import AgentReply

  // ---------------------------------------------------------------------
  // Catalog queries (`TravelService`)

  /** The test "priced within `maxBudget`". */
  function AffordableWithin(maxBudget: int): Destination -> bool {
    (d: Destination) => d.priceFrom <= maxBudget
  }

  /** `get_budget_destinations`: the records priced within the budget, in
      the order the store lists them, at most `limit` of them. */
  function BudgetDestinations(all: seq<Destination>, maxBudget: int, limit: nat): (r: seq<Destination>)
    ensures forall d :: d in r ==> d in all && d.priceFrom <= maxBudget
    ensures |r| == if limit < Count(all, AffordableWithin(maxBudget)) then limit
                   else Count(all, AffordableWithin(maxBudget))
    ensures |r| < limit ==> forall d :: d in all && d.priceFrom <= maxBudget ==> d in r
    ensures r == Filter(all, AffordableWithin(maxBudget))[..|r|]
  {
    var f := Filter(all, AffordableWithin(maxBudget));
    var r := PySlice(f, limit);
    assert |r| < limit ==> r == f;
    r
  }

  // ---------------------------------------------------------------------
  // The rule-based reading of a message (`_analyze_intent_rule_based`)

  /** The value Python's `any(cues) and last` takes: `False` when no
      follow-up phrase occurs, otherwise the remembered place itself
      (possibly absent or empty). */
  datatype FollowUp = NoCue | Cued(remembered: Option<string>)

  /** Whether that value is truthy. */
  predicate IsContextual(f: FollowUp) {
    f.Cued? && TruthyText(f.remembered)
  }

  /** The intent dictionary: its type tag, the places, the amount and day
      count (each `None` when the message names none, but always present),
      the interest tags and the follow-up value. */
  datatype PyIntent = PyIntent(
    tag: string,
    destinations: seq<string>,
    budget: Option<nat>,
    duration: Option<nat>,
    preferences: seq<Interest>,
    contextual: FollowUp)

  /** The eighteen place names the service looks for, in report order. */
  const Gazetteer: seq<string> := [
    "delhi", "agra", "jaipur", "mumbai", "goa", "kerala", "rajasthan",
    "himalayas", "manali", "taj mahal", "backwaters", "golden triangle",
    "amritsar", "golden temple", "ladakh", "kashmir", "udaipur", "jodhpur"]

  /** The cue words of each kind when the message is not a follow-up. */
  function RuleCues(k: Kind): seq<string> {
    match k
    case Itinerary => ["itinerary", "plan"]
    case Budget => ["budget", "cost", "price", "money", "afford"]
    case Food => ["food", "eat", "cuisine", "restaurant", "dish"]
    case Culture => ["culture", "festival", "tradition", "history"]
    case Timing => ["weather", "season", "best time", "when to visit"]
    case _ => []
  }

  /** The cue cascade for a message that is not a follow-up. */
  function CueKind(m: string): Kind {
    if Contains(m, "itinerary") || Contains(m, "plan") then Itinerary
    else if AnyIn(m, ["budget", "cost", "price", "money", "afford"]) then Budget
    else if AnyIn(m, ["food", "eat", "cuisine", "restaurant", "dish"]) then Food
    else if AnyIn(m, ["culture", "festival", "tradition", "history"]) then Culture
    else if AnyIn(m, ["weather", "season", "best time", "when to visit"]) then Timing
    else General
  }

  /** The cascade picks the first kind of the ranking whose cues occur, and
      general exactly when none does. */
  lemma CueKindIsFirstCued(m: string)
    ensures FirstCued(PlainRanking, RuleCues, m) == if CueKind(m) == General then None else Some(CueKind(m))
  {
    var p := (k: Kind) => AnyIn(m, RuleCues(k));
    AnyInCons(m, "itinerary", ["plan"]);
    AnyInCons(m, "plan", []);
    var i, b, f, c, t := p(Itinerary), p(Budget), p(Food), p(Culture), p(Timing);
    assert i == (Contains(m, "itinerary") || Contains(m, "plan"));
    assert CueKind(m) ==
             if i then Itinerary else if b then Budget else if f then Food else if c then Culture
             else if t then Timing else General;
    FindFirstOfFive(Itinerary, Budget, Food, Culture, Timing, p);
  }

  /** The places of the gazetteer that occur in the message. */
  function PlacesIn(m: string): (r: seq<string>)
    ensures forall k :: k in r <==> k in Gazetteer && Contains(m, k)
    ensures |r| > 0 <==> AnyIn(m, Gazetteer)
  {
    var r := Filter(Gazetteer, OccursIn(m));
    assert |r| > 0 ==> r[0] in r;
    r
  }

  /** The interest tags the service reports, in report order. */
  const PreferenceOrder: seq<Interest> := [Adventure, CultureTag, Beach, Spiritual, Nature]

  /** The reported interest tags: those whose name occurs in the message. */
  function MentionedInterests(m: string): (r: seq<Interest>)
    ensures forall i :: i in r <==> i in PreferenceOrder && Contains(m, InterestName(i))
  {
    Filter(PreferenceOrder, i => Contains(m, InterestName(i)))
  }

  /** A cue kind, upgraded from general to destination when a place is named. */
  function WithPlaces(k: Kind, places: seq<string>): Kind {
    if k == General && |places| > 0 then Kind.Destination else k
  }

  /** `_analyze_intent_rule_based`: a follow-up phrase with a remembered
      place makes the message contextual, puts the place first among the
      destinations and uses the follow-up ranking; the amount is read from
      the message as typed and the day count from its lower-cased form. */
  function AnalyzeRuleBased(message: string, last: Option<string>): (r: PyIntent)
    ensures r.contextual == if AnyIn(Lower(message), FollowUpPhrases) then Cued(last) else NoCue
    ensures IsContextual(r.contextual) <==> AnyIn(Lower(message), FollowUpPhrases) && TruthyText(last)
    ensures IsContextual(r.contextual) ==>
              r.destinations == [last.value] + PlacesIn(Lower(message)) &&
              r.tag == KindName(FollowUpKind(Lower(message)))
    ensures !IsContextual(r.contextual) ==>
              r.destinations == PlacesIn(Lower(message)) &&
              r.tag == KindName(WithPlaces(CueKind(Lower(message)), r.destinations))
    ensures r.budget == FirstAmount(message)
    ensures r.duration == FirstDuration(Lower(message))
    ensures r.preferences == MentionedInterests(Lower(message))
  {
    var m := Lower(message);
    var flag := if AnyIn(m, FollowUpPhrases) then Cued(last) else NoCue;
    var places := PlacesIn(m);
    if IsContextual(flag) then
      PyIntent(KindName(FollowUpKind(m)), [last.value] + places, FirstAmount(message),
               FirstDuration(m), MentionedInterests(m), flag)
    else
      PyIntent(KindName(WithPlaces(CueKind(m), places)), places, FirstAmount(message),
               FirstDuration(m), MentionedInterests(m), flag)
  }

  /** The type the rule-based reading reports is the first cued kind of the
      ranking that applies; a named place turns only "nothing cued" into
      destination, so a contextual message is never general. */
  lemma RuleBasedRanking(message: string, last: Option<string>)
    ensures var r := AnalyzeRuleBased(message, last);
            var m := Lower(message);
            KindOfTag(r.tag) == if IsContextual(r.contextual) then FirstCued(FollowUpRanking, FollowUpCues, m).GetOr(Kind.Destination)
                                else FirstCued(PlainRanking, RuleCues, m).GetOr(if AnyIn(m, Gazetteer) then Kind.Destination else General)
  {
    var r := AnalyzeRuleBased(message, last);
    var m := Lower(message);
    if IsContextual(r.contextual) {
      FollowUpKindIsFirstCued(m);
      KindOfTagOfName(FollowUpKind(m));
    } else {
      CueKindIsFirstCued(m);
      KindOfTagOfName(WithPlaces(CueKind(m), PlacesIn(m)));
      assert KindOfTag(r.tag) == WithPlaces(CueKind(m), PlacesIn(m));
    }
  }

  // ---------------------------------------------------------------------
  // The data fetched for an intent (`_fetch_relevant_data`)

  /** The entries of the fetched data that the local answers read. */
  datatype RelevantData = RelevantData(
    budgetDestinations: Option<seq<Destination>>,
    searched: Option<seq<Destination>>,
    topRated: Option<seq<Destination>>)

  /** The search results for each place name in turn, concatenated. */
  function SearchAll(names: seq<string>, search: string -> seq<Destination>): (r: seq<Destination>)
    ensures forall d :: d in r <==> exists i :: 0 <= i < |names| && d in search(names[i])
    ensures names != [] ==> |search(names[0])| <= |r| && r[..|search(names[0])|] == search(names[0])
  {
    if names == [] then []
    else
      var rest := SearchAll(names[1..], search);
      assert forall d :: d in rest <==> exists i :: 1 <= i < |names| && d in search(names[i]) by {
        forall d ensures d in rest <==> exists i :: 1 <= i < |names| && d in search(names[i]) {
          if d in rest {
            var j :| 0 <= j < |names[1..]| && d in search(names[1..][j]);
            assert d in search(names[j + 1]);
          }
          if exists i :: 1 <= i < |names| && d in search(names[i]) {
            var i :| 1 <= i < |names| && d in search(names[i]);
            assert d in search(names[1..][i - 1]);
          }
        }
      }
      search(names[0]) + rest
  }

  /** Searching name by name extends the list: the results for `a + b` are
      those for `a` followed by those for `b`, and one name gives exactly
      its own results. Together these fix the list as the per-name results
      concatenated in name order, with repeats kept. */
  lemma {:induction false} SearchAllAppend(a: seq<string>, b: seq<string>, n: string, search: string -> seq<Destination>)
    ensures SearchAll(a + b, search) == SearchAll(a, search) + SearchAll(b, search)
    ensures SearchAll([n], search) == search(n)
  {
    assert [n][1..] == [];
    if a == [] {
      assert a + b == b;
    } else {
      assert (a + b)[0] == a[0] && (a + b)[1..] == a[1..] + b;
      SearchAllAppend(a[1..], b, n, search);
    }
  }

  /** `_fetch_relevant_data` over the records the store lists (`all`) and
      its search limited to three results (`search`): the budget list only
      for a budget question with a non-zero amount, the search results only
      for a destination question naming places, and always the five
      best-rated records. */
  function FetchRelevantData(intent: PyIntent, all: seq<Destination>, search: string -> seq<Destination>): (r: RelevantData)
    ensures r.budgetDestinations.Some? <==> intent.tag == "budget" && TruthyNat(intent.budget)
    ensures r.budgetDestinations.Some? ==> r.budgetDestinations.value == BudgetDestinations(all, intent.budget.value, 10)
    ensures r.searched.Some? <==> intent.tag == "destination" && |intent.destinations| > 0
    ensures r.searched.Some? ==>
              forall d :: d in r.searched.value <==>
                exists i :: 0 <= i < |intent.destinations| && d in search(intent.destinations[i])
    ensures r.topRated == Some(TopRated(all, 5))
  {
    RelevantData(
      if intent.tag == "budget" && TruthyNat(intent.budget) then Some(BudgetDestinations(all, intent.budget.value, 10)) else None,
      if intent.tag == "destination" && |intent.destinations| > 0 then Some(SearchAll(intent.destinations, search)) else None,
      Some(TopRated(all, 5)))
  }

  // ---------------------------------------------------------------------
  // Local answers (`_generate_enhanced_local_response` and helpers)

  /** What a local answer shows. */
  datatype PyReply =
    | DestinationCard(dest: Destination, tips: Tips)
    | TopList(picks: seq<Destination>)
    | BudgetOutline(budget: nat, duration: Option<nat>, picks: seq<Destination>, shares: AgentReply.Shares)
    | TwoStopPlan(days: nat, stops: seq<AgentReply.Stop>)
    | PlanPrompt
    | FeaturedList(picks: seq<Destination>)
    | CuisineGuide
    | CultureNotes
    | SeasonGuide

  /** A record's lower-cased name or location contains some lower-cased entity. */
  predicate NamesPlace(d: Destination, entities: seq<string>) {
    exists e :: e in entities && (Contains(Lower(d.name), Lower(e)) || Contains(Lower(d.location), Lower(e)))
  }

  /** The searched records when there are some. */
  predicate HasSearchHits(relevant: RelevantData) {
    relevant.searched.Some? && |relevant.searched.value| > 0
  }

  /** `_generate_destination_response_enhanced`: the first searched record,
      else the first catalog record naming an entity, shown with its
      category's tips; with neither, the first three of the best-rated list
      (or of the catalog, when none was fetched). */
  function DestinationCardReply(entities: seq<string>, destinations: seq<Destination>, relevant: RelevantData): (r: PyReply)
    ensures r.DestinationCard? || r.TopList?
    ensures r.DestinationCard? ==> r.tips == TipsFor(r.dest.category)
    ensures HasSearchHits(relevant) ==> r.DestinationCard? && r.dest == relevant.searched.value[0]
    ensures !HasSearchHits(relevant) ==>
              (r.DestinationCard? <==> exists i :: 0 <= i < |destinations| && NamesPlace(destinations[i], entities))
    ensures !HasSearchHits(relevant) && r.DestinationCard? ==>
              exists i :: IsFirst(destinations, d => NamesPlace(d, entities), i) && destinations[i] == r.dest
    ensures r.TopList? ==> |r.picks| <= 3 && r.picks == PySlice(relevant.topRated.GetOr(PySlice(destinations, 3)), 3)
  {
    if HasSearchHits(relevant) then
      var d := relevant.searched.value[0];
      DestinationCard(d, TipsFor(d.category))
    else
      var matching := Filter(destinations, d => NamesPlace(d, entities));
      FindFirstIsHeadOfFilter(destinations, d => NamesPlace(d, entities));
      if |matching| > 0 then DestinationCard(matching[0], TipsFor(matching[0].category))
      else TopList(PySlice(relevant.topRated.GetOr(PySlice(destinations, 3)), 3))
  }

  /** The three shares `int(b * 0.35)`, `int(b * 0.5)` and `int(b * 0.15)`,
      each rounded down, so together they never exceed the budget and fall
      short of it by at most two rupees. */
  function FloorShares(b: nat): (s: AgentReply.Shares)
    ensures 100 * s.accommodation <= 35 * b < 100 * s.accommodation + 100
    ensures 2 * s.foodAndTransport <= b < 2 * s.foodAndTransport + 2
    ensures 100 * s.activities <= 15 * b < 100 * s.activities + 100
    ensures b - 2 <= s.accommodation + s.foodAndTransport + s.activities <= b
  {
    AgentReply.Shares(35 * b / 100, b / 2, 15 * b / 100)
  }

  /** `_generate_budget_response_enhanced` for a known budget: the first
      three fetched budget records, or, when none were fetched, the first
      three catalog records within the budget; the day count is shown as
      given, absent included. */
  function BudgetOutlineReply(b: nat, duration: Option<nat>, destinations: seq<Destination>, relevant: RelevantData): (r: PyReply)
    ensures r.BudgetOutline? && r.budget == b && r.duration == duration && r.shares == FloorShares(b)
    ensures |r.picks| <= 3
    ensures var fetched := relevant.budgetDestinations.GetOr([]);
            |fetched| > 0 ==> |r.picks| == (if |fetched| < 3 then |fetched| else 3) && r.picks == fetched[..|r.picks|]
    ensures |relevant.budgetDestinations.GetOr([])| == 0 ==>
              (forall d :: d in r.picks ==> d in destinations && d.priceFrom <= b) &&
              (|r.picks| < 3 ==> forall d :: d in destinations && d.priceFrom <= b ==> d in r.picks) &&
              |r.picks| <= |Filter(destinations, AffordableWithin(b))| &&
              r.picks == Filter(destinations, AffordableWithin(b))[..|r.picks|]
  {
    var fetched := relevant.budgetDestinations.GetOr([]);
    var picks := if |fetched| > 0 then PySlice(fetched, 3) else BudgetDestinations(destinations, b, 3);
    BudgetOutline(b, duration, picks, FloorShares(b))
  }

  /** The stops of the two-stop plan over `d` days: the first pick from day
      1 for `max(1, d / k)` days (cut at day `d`), the second, if any, from
      the next day to day `d`. With fewer days than picks the last stop's
      range runs backwards. */
  function TwoStops(d: nat, picks: seq<Destination>): (st: seq<AgentReply.Stop>)
    requires 1 <= |picks| <= 2
    ensures |st| == |picks| && forall i :: 0 <= i < |st| ==> st[i].dest == picks[i]
    ensures st[0].firstDay == 1 && st[|st| - 1].lastDay == d
    ensures |picks| <= d ==> st[0].lastDay == d / |picks|
    ensures |picks| <= d ==> forall i :: 0 <= i < |st| ==> st[i].firstDay <= st[i].lastDay
    ensures |st| == 2 && d >= 1 ==> st[1].firstDay == st[0].lastDay + 1
    ensures d < |picks| ==> st[|st| - 1].firstDay > st[|st| - 1].lastDay
  {
    var k := |picks|;
    var days := if d / k >= 1 then d / k else 1;
    var first := AgentReply.Stop(1, if days < d then days else d, picks[0]);
    if k == 1 then [first] else [first, AgentReply.Stop(days + 1, d, picks[1])]
  }

  /** The records an itinerary is drawn from: the fetched budget list when
      there is one (even empty), else the first three catalog records. */
  function Suitable(destinations: seq<Destination>, relevant: RelevantData): seq<Destination> {
    relevant.budgetDestinations.GetOr(PySlice(destinations, 3))
  }

  /** `_generate_itinerary_response_enhanced` for a known day count: the
      first two suitable records as a two-stop plan, or the prompt for a
      budget when there is none. */
  function TwoStopReply(d: nat, destinations: seq<Destination>, relevant: RelevantData): (r: PyReply)
    ensures r.PlanPrompt? <==> |Suitable(destinations, relevant)| == 0
    ensures r.TwoStopPlan? ==>
              r.days == d && 1 <= |r.stops| <= 2 &&
              |r.stops| == (if |Suitable(destinations, relevant)| < 2 then |Suitable(destinations, relevant)| else 2) &&
              r.stops == TwoStops(d, Suitable(destinations, relevant)[..|r.stops|])
    ensures r.PlanPrompt? || r.TwoStopPlan?
  {
    var suitable := Suitable(destinations, relevant);
    if |suitable| == 0 then PlanPrompt
    else TwoStopPlan(d, TwoStops(d, PySlice(suitable, 2)))
  }

  /** `_generate_general_response_enhanced`: the first three featured
      records, or the first three records when none is featured. */
  function FeaturedReply(destinations: seq<Destination>): (r: PyReply)
    ensures r.FeaturedList? && |r.picks| <= 3
    ensures (exists i :: 0 <= i < |destinations| && destinations[i].featured) ==>
              (forall d :: d in r.picks ==> d in destinations && d.featured) &&
              (|r.picks| < 3 ==> forall d :: d in destinations && d.featured ==> d in r.picks) &&
              |r.picks| > 0 &&
              |r.picks| <= |Filter(destinations, IsFeatured)| &&
              r.picks == Filter(destinations, IsFeatured)[..|r.picks|]
    ensures (forall i :: 0 <= i < |destinations| ==> !destinations[i].featured) ==>
              r.picks == PySlice(destinations, 3)
  {
    FeaturedList(FeaturedOrFirst(destinations, 3))
  }

  /** The errors Python raises while answering: formatting an absent amount
      into the prompt context, formatting or comparing an absent budget,
      dividing an absent day count, and calling `.get` on a record that a
      catalog query returned as a model object. */
  datatype Crash = ContextAmountMissing | BudgetMissing | DayCountMissing | RecordHasNoGet

  /** The answer reads a record of a fetched list with `.get`: for a
      destination question the searched records or, when no catalog record
      names an entity, the best-rated list; for a budget question with an
      amount, the fetched budget list. The catalog handed to the assistant
      has been turned into dictionaries; the fetched lists hold whatever the
      catalog queries returned. */
  predicate ReadsFetchedRecords(intent: PyIntent, destinations: seq<Destination>, relevant: RelevantData) {
    match KindOfTag(intent.tag)
    case Destination =>
      HasSearchHits(relevant) ||
      ((forall i :: 0 <= i < |destinations| ==> !NamesPlace(destinations[i], intent.destinations)) &&
       |relevant.topRated.GetOr([])| > 0)
    case Budget => intent.budget.Some? && |relevant.budgetDestinations.GetOr([])| > 0
    case _ => false
  }

  /** `_generate_enhanced_local_response` as written: the type tag selects
      one generator, any unknown tag the general one. The budget answer
      fails without an amount, and the plan fails without a day count once
      it has records to plan with. When the catalog queries return model
      objects (`modelObjects`), the destination and budget answers fail as
      soon as they read a fetched record, since a model object has no
      `.get`. */
  function LocalResponseAsWritten(intent: PyIntent, destinations: seq<Destination>, relevant: RelevantData,
                                  modelObjects: bool): (r: Result<PyReply, Crash>)
    ensures r.Err? <==>
              (KindOfTag(intent.tag) == Budget && intent.budget.None?) ||
              (KindOfTag(intent.tag) == Itinerary && intent.duration.None? && |Suitable(destinations, relevant)| > 0) ||
              (modelObjects && ReadsFetchedRecords(intent, destinations, relevant))
    ensures modelObjects && ReadsFetchedRecords(intent, destinations, relevant) ==> r == Err(RecordHasNoGet)
    ensures r.Ok? ==>
              match KindOfTag(intent.tag)
              case Destination => r.value == DestinationCardReply(intent.destinations, destinations, relevant)
              case Budget => r.value == BudgetOutlineReply(intent.budget.value, intent.duration, destinations, relevant)
              case Itinerary => r.value == TwoStopReply(intent.duration.GetOr(0), destinations, relevant)
              case Food => r.value == CuisineGuide
              case Culture => r.value == CultureNotes
              case Timing => r.value == SeasonGuide
              case General => r.value == FeaturedReply(destinations)
  {
    match KindOfTag(intent.tag)
    case Destination =>
      if modelObjects && ReadsFetchedRecords(intent, destinations, relevant) then Err(RecordHasNoGet)
      else Ok(DestinationCardReply(intent.destinations, destinations, relevant))
    case Budget =>
      if intent.budget.None? then Err(BudgetMissing)
      else if modelObjects && ReadsFetchedRecords(intent, destinations, relevant) then Err(RecordHasNoGet)
      else Ok(BudgetOutlineReply(intent.budget.value, intent.duration, destinations, relevant))
    case Itinerary =>
      if |Suitable(destinations, relevant)| == 0 then Ok(PlanPrompt)
      else if intent.duration.None? then Err(DayCountMissing)
      else Ok(TwoStopReply(intent.duration.value, destinations, relevant))
    case Food => Ok(CuisineGuide)
    case Culture => Ok(CultureNotes)
    case Timing => Ok(SeasonGuide)
    case General => Ok(FeaturedReply(destinations))
  }

  /** The local answer with the defaults the generators name applied to an
      absent amount (50000) and an absent day count (7). */
  function LocalResponse(intent: PyIntent, destinations: seq<Destination>, relevant: RelevantData): (r: PyReply)
    ensures match KindOfTag(intent.tag)
            case Destination => r == DestinationCardReply(intent.destinations, destinations, relevant)
            case Budget => r == BudgetOutlineReply(intent.budget.GetOr(50000), Some(intent.duration.GetOr(7)), destinations, relevant)
            case Itinerary => r == TwoStopReply(intent.duration.GetOr(7), destinations, relevant)
            case Food => r == CuisineGuide
            case Culture => r == CultureNotes
            case Timing => r == SeasonGuide
            case General => r == FeaturedReply(destinations)
  {
    match KindOfTag(intent.tag)
    case Destination => DestinationCardReply(intent.destinations, destinations, relevant)
    case Budget => BudgetOutlineReply(intent.budget.GetOr(50000), Some(intent.duration.GetOr(7)), destinations, relevant)
    case Itinerary => TwoStopReply(intent.duration.GetOr(7), destinations, relevant)
    case Food => CuisineGuide
    case Culture => CultureNotes
    case Timing => SeasonGuide
    case General => FeaturedReply(destinations)
  }

  /** When the intent has both numbers, the answer as written is the
      corrected one unless it reads a fetched model object: the defaults
      only matter when a number is absent. */
  lemma LocalResponsesAgree(intent: PyIntent, destinations: seq<Destination>, relevant: RelevantData,
                            modelObjects: bool)
    requires intent.budget.Some? && intent.duration.Some?
    ensures !(modelObjects && ReadsFetchedRecords(intent, destinations, relevant)) ==>
              LocalResponseAsWritten(intent, destinations, relevant, modelObjects) ==
              Ok(LocalResponse(intent, destinations, relevant))
  {
  }

  // ---------------------------------------------------------------------
  // One message (`process_message`)

  /** What the hosted model contributes to a turn. */
  datatype HostedModel = HostedModel(apiKey: Option<string>, intent: Option<PyIntent>, completion: Option<string>)

  /** How a turn is answered: the model's completion, the fixed apology for
      a failed completion request, or a local answer. */
  datatype PyAnswer = Completion(text: string) | Apology | LocalText(reply: PyReply)

  /** `_analyze_intent_with_ai`: the model's intent when a key is set and its
      answer parsed, else the rule-based reading. */
  function SelectIntent(message: string, last: Option<string>, model: HostedModel): (r: PyIntent)
    ensures TruthyText(model.apiKey) && model.intent.Some? ==> r == model.intent.value
    ensures !(TruthyText(model.apiKey) && model.intent.Some?) ==> r == AnalyzeRuleBased(message, last)
  {
    if TruthyText(model.apiKey) && model.intent.Some? then model.intent.value else AnalyzeRuleBased(message, last)
  }

  /** `_generate_with_openai`: the completion, or the apology when the
      request failed. */
  function ModelAnswer(completion: Option<string>): (a: PyAnswer)
    ensures a.Completion? <==> completion.Some?
    ensures a.Completion? ==> a.text == completion.value
    ensures !a.LocalText?
  {
    match completion
    case Some(t) => Completion(t)
    case None => Apology
  }

  /** `process_message` as written: the prompt context is built before the
      branch, and it formats the amount with a thousands separator, which
      fails whenever the intent has no amount; past that, a key selects the
      hosted model and its absence the local answer. `modelObjects` says
      whether the catalog queries return model objects rather than
      dictionaries: they do whenever the model module imports and every
      record a query lists validates, as the six mock records do. */
  function ProcessMessageAsWritten(message: string, last: Option<string>, destinations: seq<Destination>,
                                   all: seq<Destination>, search: string -> seq<Destination>,
                                   model: HostedModel, modelObjects: bool): (r: Result<PyAnswer, Crash>)
    ensures var intent := SelectIntent(message, last, model);
            intent.budget.None? ==> r == Err(ContextAmountMissing)
    ensures var intent := SelectIntent(message, last, model);
            intent.budget.Some? && TruthyText(model.apiKey) ==> r == Ok(ModelAnswer(model.completion))
    ensures var intent := SelectIntent(message, last, model);
            var local := LocalResponseAsWritten(intent, destinations, FetchRelevantData(intent, all, search), modelObjects);
            intent.budget.Some? && !TruthyText(model.apiKey) ==>
              (r.Ok? <==> local.Ok?) && (r.Ok? ==> r.value == LocalText(local.value)) &&
              (r.Err? ==> r.error == local.error)
  {
    var intent := SelectIntent(message, last, model);
    var relevant := FetchRelevantData(intent, all, search);
    if intent.budget.None? then Err(ContextAmountMissing)
    else if TruthyText(model.apiKey) then Ok(ModelAnswer(model.completion))
    else
      match LocalResponseAsWritten(intent, destinations, relevant, modelObjects)
      case Ok(reply) => Ok(LocalText(reply))
      case Err(e) => Err(e)
  }

  /** `process_message` with the absent amount shown as "Not specified" in
      the context and the generators' defaults applied: every message gets
      an answer. */
  function ProcessMessage(message: string, last: Option<string>, destinations: seq<Destination>,
                          all: seq<Destination>, search: string -> seq<Destination>,
                          model: HostedModel): (a: PyAnswer)
    ensures TruthyText(model.apiKey) ==> a == ModelAnswer(model.completion)
    ensures !TruthyText(model.apiKey) ==>
              var intent := AnalyzeRuleBased(message, last);
              a == LocalText(LocalResponse(intent, destinations, FetchRelevantData(intent, all, search)))
  {
    var intent := SelectIntent(message, last, model);
    if TruthyText(model.apiKey) then ModelAnswer(model.completion)
    else LocalText(LocalResponse(intent, destinations, FetchRelevantData(intent, all, search)))
  }

  /** Whenever the message states both an amount and a day count, the
      service as written answers exactly as the corrected one, unless the
      local answer reads a fetched model object, where it fails. */
  lemma AsWrittenAgreesWhenNumbersPresent(message: string, last: Option<string>, destinations: seq<Destination>,
                                         all: seq<Destination>, search: string -> seq<Destination>,
                                         model: HostedModel, modelObjects: bool)
    requires SelectIntent(message, last, model).budget.Some?
    requires SelectIntent(message, last, model).duration.Some?
    ensures var intent := SelectIntent(message, last, model);
            var fails := !TruthyText(model.apiKey) && modelObjects &&
                         ReadsFetchedRecords(intent, destinations, FetchRelevantData(intent, all, search));
            ProcessMessageAsWritten(message, last, destinations, all, search, model, modelObjects)
            == if fails then Err(RecordHasNoGet) else Ok(ProcessMessage(message, last, destinations, all, search, model))
  {
    var intent := SelectIntent(message, last, model);
    LocalResponsesAgree(intent, destinations, FetchRelevantData(intent, all, search), modelObjects);
  }

  /** As written, every message without a digit fails when the rule-based
      reading is used, whatever it asks and whether or not a key is set. */
  lemma DigitFreeMessageFails(message: string, last: Option<string>, destinations: seq<Destination>,
                              all: seq<Destination>, search: string -> seq<Destination>,
                              model: HostedModel, modelObjects: bool)
    requires NoDigits(message)
    requires !(TruthyText(model.apiKey) && model.intent.Some?)
    ensures ProcessMessageAsWritten(message, last, destinations, all, search, model, modelObjects) == Err(ContextAmountMissing)
  {
  }

  /** As written, a plan request with an amount but no day count fails
      whenever there are records to plan with. */
  lemma PlanWithoutDayCountFails(message: string, destinations: seq<Destination>,
                                 all: seq<Destination>, search: string -> seq<Destination>,
                                 model: HostedModel, modelObjects: bool)
    requires !TruthyText(model.apiKey)
    requires Contains(Lower(message), "plan")
    requires FirstAmount(message).Some? && FirstDuration(Lower(message)).None?
    requires |destinations| > 0
    ensures ProcessMessageAsWritten(message, None, destinations, all, search, model, modelObjects) == Err(DayCountMissing)
  {
    var intent := AnalyzeRuleBased(message, None);
    PlanRequestIsItinerary(message);
    PlanIntentFails(intent, destinations, all, search, modelObjects);
  }

  /** As written, an itinerary intent without a day count fails once there
      are records to plan with. */
  lemma PlanIntentFails(intent: PyIntent, destinations: seq<Destination>,
                        all: seq<Destination>, search: string -> seq<Destination>, modelObjects: bool)
    requires KindOfTag(intent.tag) == Itinerary && intent.duration.None?
    requires |destinations| > 0
    ensures LocalResponseAsWritten(intent, destinations, FetchRelevantData(intent, all, search), modelObjects) == Err(DayCountMissing)
  {
    assert intent.tag != "budget" by {
      KindOfTagOfName(Budget);
    }
    var relevant := FetchRelevantData(intent, all, search);
    assert Suitable(destinations, relevant) == PySlice(destinations, 3);
  }

  /** A record the budget fits is fetched, so the budget list is not empty. */
  lemma BudgetListNonEmpty(all: seq<Destination>, b: int, d: Destination)
    requires d in all && d.priceFrom <= b
    ensures |BudgetDestinations(all, b, 10)| > 0
  {
    var fetched := BudgetDestinations(all, b, 10);
    if |fetched| < 10 {
      assert d in fetched;
    }
  }

  /** As written, with the catalog queries returning model objects, a
      budget intent whose amount some listed record fits fails: the answer
      reads the fetched budget list with `.get`. */
  lemma BudgetIntentReadsModelObjects(intent: PyIntent, destinations: seq<Destination>,
                                      all: seq<Destination>, search: string -> seq<Destination>, d: Destination)
    requires KindOfTag(intent.tag) == Budget && intent.budget.Some?
    requires d in all && 0 < d.priceFrom <= intent.budget.value
    ensures LocalResponseAsWritten(intent, destinations, FetchRelevantData(intent, all, search), true) == Err(RecordHasNoGet)
  {
    BudgetListNonEmpty(all, intent.budget.value, d);
  }

  /** As written, with the catalog queries returning model objects, a
      budget question whose amount some listed record fits is never
      answered. */
  lemma BudgetAnswerReadsModelObjects(message: string, last: Option<string>, destinations: seq<Destination>,
                                      all: seq<Destination>, search: string -> seq<Destination>,
                                      model: HostedModel, d: Destination)
    requires !TruthyText(model.apiKey)
    requires KindOfTag(AnalyzeRuleBased(message, last).tag) == Budget
    requires AnalyzeRuleBased(message, last).budget.Some?
    requires d in all && 0 < d.priceFrom <= AnalyzeRuleBased(message, last).budget.value
    ensures ProcessMessageAsWritten(message, last, destinations, all, search, model, true) == Err(RecordHasNoGet)
  {
    BudgetIntentReadsModelObjects(AnalyzeRuleBased(message, last), destinations, all, search, d);
  }

  /** With every record read by attribute, a budget intent whose amount
      some listed record fits is answered with the first three fetched
      budget records. */
  lemma BudgetIntentListsFetched(intent: PyIntent, destinations: seq<Destination>,
                                 all: seq<Destination>, search: string -> seq<Destination>, d: Destination)
    requires KindOfTag(intent.tag) == Budget && intent.budget.Some?
    requires d in all && 0 < d.priceFrom <= intent.budget.value
    ensures var fetched := BudgetDestinations(all, intent.budget.value, 10);
            var r := LocalResponse(intent, destinations, FetchRelevantData(intent, all, search));
            |fetched| > 0 && r.BudgetOutline? && r.budget == intent.budget.value &&
            r.picks == fetched[..if |fetched| < 3 then |fetched| else 3]
  {
    BudgetListNonEmpty(all, intent.budget.value, d);
  }

  /** With every record read by attribute, the same question lists the
      first three fetched budget records. */
  lemma BudgetAnswerListsFetchedRecords(message: string, last: Option<string>, destinations: seq<Destination>,
                                        all: seq<Destination>, search: string -> seq<Destination>,
                                        model: HostedModel, d: Destination)
    requires !TruthyText(model.apiKey)
    requires KindOfTag(AnalyzeRuleBased(message, last).tag) == Budget
    requires AnalyzeRuleBased(message, last).budget.Some?
    requires d in all && 0 < d.priceFrom <= AnalyzeRuleBased(message, last).budget.value
    ensures var b := AnalyzeRuleBased(message, last).budget.value;
            var fetched := BudgetDestinations(all, b, 10);
            var a := ProcessMessage(message, last, destinations, all, search, model);
            |fetched| > 0 && a.LocalText? && a.reply.BudgetOutline? && a.reply.budget == b &&
            a.reply.picks == fetched[..if |fetched| < 3 then |fetched| else 3]
  {
    BudgetIntentListsFetched(AnalyzeRuleBased(message, last), destinations, all, search, d);
  }

  /** As written, with the catalog queries returning model objects, a
      destination intent whose first place the search finds fails: the
      answer reads the first searched record with `.get`. */
  lemma DestinationIntentReadsModelObjects(intent: PyIntent, destinations: seq<Destination>,
                                           all: seq<Destination>, search: string -> seq<Destination>)
    requires KindOfTag(intent.tag) == Kind.Destination && intent.budget.Some?
    requires |intent.destinations| > 0 && |search(intent.destinations[0])| > 0
    ensures LocalResponseAsWritten(intent, destinations, FetchRelevantData(intent, all, search), true) == Err(RecordHasNoGet)
  {
    SearchAllHead(intent.destinations, search);
  }

  /** As written, with the catalog queries returning model objects, a
      destination question whose first place the search finds is never
      answered. */
  lemma DestinationAnswerReadsModelObjects(message: string, last: Option<string>, destinations: seq<Destination>,
                                           all: seq<Destination>, search: string -> seq<Destination>, model: HostedModel)
    requires !TruthyText(model.apiKey)
    requires KindOfTag(AnalyzeRuleBased(message, last).tag) == Kind.Destination
    requires AnalyzeRuleBased(message, last).budget.Some?
    requires |AnalyzeRuleBased(message, last).destinations| > 0
    requires |search(AnalyzeRuleBased(message, last).destinations[0])| > 0
    ensures ProcessMessageAsWritten(message, last, destinations, all, search, model, true) == Err(RecordHasNoGet)
  {
    DestinationIntentReadsModelObjects(AnalyzeRuleBased(message, last), destinations, all, search);
  }

  /** With every record read by attribute, a destination intent whose
      first place the search finds is answered with the card of the first
      record found. */
  lemma DestinationIntentShowsFirstHit(intent: PyIntent, destinations: seq<Destination>,
                                       all: seq<Destination>, search: string -> seq<Destination>)
    requires KindOfTag(intent.tag) == Kind.Destination
    requires |intent.destinations| > 0 && |search(intent.destinations[0])| > 0
    ensures var d := search(intent.destinations[0])[0];
            LocalResponse(intent, destinations, FetchRelevantData(intent, all, search)) == DestinationCard(d, TipsFor(d.category))
  {
    SearchAllHead(intent.destinations, search);
  }

  /** With every record read by attribute, the same question is answered
      with the card of the first record the search found for its first
      place. */
  lemma DestinationAnswerShowsFirstHit(message: string, last: Option<string>, destinations: seq<Destination>,
                                       all: seq<Destination>, search: string -> seq<Destination>, model: HostedModel)
    requires !TruthyText(model.apiKey)
    requires KindOfTag(AnalyzeRuleBased(message, last).tag) == Kind.Destination
    requires |AnalyzeRuleBased(message, last).destinations| > 0
    requires |search(AnalyzeRuleBased(message, last).destinations[0])| > 0
    ensures var d := search(AnalyzeRuleBased(message, last).destinations[0])[0];
            ProcessMessage(message, last, destinations, all, search, model) == LocalText(DestinationCard(d, TipsFor(d.category)))
  {
    DestinationIntentShowsFirstHit(AnalyzeRuleBased(message, last), destinations, all, search);
  }

  /** The concatenated search starts with the first name's results. */
  lemma SearchAllHead(names: seq<string>, search: string -> seq<Destination>)
    requires |names| > 0 && |search(names[0])| > 0
    ensures |SearchAll(names, search)| > 0 && SearchAll(names, search)[0] == search(names[0])[0]
  {
  }

  /** A budget question without numbers gets the 50000 budget, split
      35/50/15, over seven days. */
  lemma BudgetDefaults(intent: PyIntent, destinations: seq<Destination>, relevant: RelevantData)
    requires KindOfTag(intent.tag) == Budget && intent.budget.None? && intent.duration.None?
    ensures var r := LocalResponse(intent, destinations, relevant);
            r.BudgetOutline? && r.budget == 50000 && r.duration == Some(7) &&
            r.shares == AgentReply.Shares(17500, 25000, 7500)
  {
  }

  /** A message without a digit names neither an amount nor a day count. */
  lemma DigitFreeMessageNamesNoNumbers(message: string, last: Option<string>)
    requires NoDigits(message)
    ensures AnalyzeRuleBased(message, last).budget.None?
    ensures AnalyzeRuleBased(message, last).duration.None?
  {
    assert NoDigits(Lower(message));
    NoDigitsNoDuration(Lower(message));
  }

  /** With the intended defaults, a message without a digit that asks about
      money is answered with the 50000 budget split into its shares. */
  lemma DigitFreeBudgetQuestionUsesDefault(message: string, destinations: seq<Destination>,
                                          all: seq<Destination>, search: string -> seq<Destination>, model: HostedModel)
    requires !TruthyText(model.apiKey)
    requires NoDigits(message)
    requires KindOfTag(AnalyzeRuleBased(message, None).tag) == Budget
    ensures var a := ProcessMessage(message, None, destinations, all, search, model);
            a.LocalText? && a.reply.BudgetOutline? && a.reply.budget == 50000 &&
            a.reply.duration == Some(7) && a.reply.shares == AgentReply.Shares(17500, 25000, 7500)
  {
    var intent := AnalyzeRuleBased(message, None);
    DigitFreeMessageNamesNoNumbers(message, None);
    BudgetDefaults(intent, destinations, FetchRelevantData(intent, all, search));
  }

  /** An itinerary question without a day count is planned over seven days
      from the first two catalog records when nothing was fetched for it. */
  lemma PlanDefaults(intent: PyIntent, destinations: seq<Destination>, relevant: RelevantData)
    requires KindOfTag(intent.tag) == Itinerary && intent.duration.None?
    requires relevant.budgetDestinations.None? && |destinations| >= 2
    ensures var r := LocalResponse(intent, destinations, relevant);
            r.TwoStopPlan? && r.days == 7 && |r.stops| == 2 &&
            r.stops[0] == AgentReply.Stop(1, 3, destinations[0]) &&
            r.stops[1] == AgentReply.Stop(4, 7, destinations[1])
  {
    assert PySlice(PySlice(destinations, 3), 2) == destinations[..2];
  }

  /** A plan request names no remembered place, so it is read as an
      itinerary question. */
  lemma PlanRequestIsItinerary(message: string)
    requires Contains(Lower(message), "plan")
    ensures KindOfTag(AnalyzeRuleBased(message, None).tag) == Itinerary
  {
    assert CueKind(Lower(message)) == Itinerary;
    KindOfTagOfName(Itinerary);
  }

  /** With the intended default, a plan request with an amount but no day
      count is planned over seven days from the first two catalog records. */
  lemma PlanWithoutDayCountUsesSevenDays(message: string, destinations: seq<Destination>,
                                        all: seq<Destination>, search: string -> seq<Destination>, model: HostedModel)
    requires !TruthyText(model.apiKey)
    requires Contains(Lower(message), "plan")
    requires FirstDuration(Lower(message)).None?
    requires |destinations| >= 2
    ensures var a := ProcessMessage(message, None, destinations, all, search, model);
            a.LocalText? && a.reply.TwoStopPlan? && a.reply.days == 7 &&
            |a.reply.stops| == 2 &&
            a.reply.stops[0] == AgentReply.Stop(1, 3, destinations[0]) &&
            a.reply.stops[1] == AgentReply.Stop(4, 7, destinations[1])
  {
    var intent := AnalyzeRuleBased(message, None);
    PlanRequestIsItinerary(message);
    PlanDefaults(intent, destinations, FetchRelevantData(intent, all, search));
  }
}

=== FILE: seqs.dfy ===
/** List operations shared by the three assistants: filtering in order
    (JavaScript `filter`, Python comprehensions with `if`), finding the first
    element that passes a test (`find`, `next(...)`, `matching[0]`), Python
    prefix slices `s[:n]`, the stable descending sort behind
    `sort((a, b) => b.rating - a.rating)` and `sorted(..., reverse=True)`,
    and the integer statistics `min`, `max` and `sum`. */
module Seqs {
  import opened Wrappers

  // ---------------------------------------------------------------------
  // Filtering

  /** The elements of `s` that pass `p`, in their original order. */
  function Filter<T(!new)>(s: seq<T>, p: T -> bool): (r: seq<T>)
    ensures |r| <= |s|
    ensures forall x :: x in r <==> x in s && p(x)
  {
    if s == [] then []
    else
      var rest := Filter(s[1..], p);
      assert forall x :: x in s <==> x == s[0] || x in s[1..] by {
        assert s == [s[0]] + s[1..];
      }
      if p(s[0]) then [s[0]] + rest else rest
  }

  /** Filtering keeps every passing element as often as it occurs and drops
      every other one. */
  lemma {:induction false} FilterCounts<T(!new)>(s: seq<T>, p: T -> bool)
    ensures forall x :: multiset(Filter(s, p))[x] == if p(x) then multiset(s)[x] else 0
  {
    if s != [] {
      FilterCounts(s[1..], p);
      assert s == [s[0]] + s[1..];
      assert multiset(s) == multiset{s[0]} + multiset(s[1..]);
    }
  }

  /** The keys of `s` strictly increase from left to right. */
  predicate Increasing<T(!new)>(s: seq<T>, key: T -> int) {
    forall i, j :: 0 <= i < j < |s| ==> key(s[i]) < key(s[j])
  }

  /** Filtering keeps the order: a list in increasing key order stays so. */
  lemma {:induction false} FilterKeepsIncreasing<T(!new)>(s: seq<T>, p: T -> bool, key: T -> int)
    requires Increasing(s, key)
    ensures Increasing(Filter(s, p), key)
  {
    if s != [] {
      var rest := Filter(s[1..], p);
      FilterKeepsIncreasing(s[1..], p, key);
      if p(s[0]) {
        forall x | x in rest ensures key(s[0]) < key(x) {
          HeadBelowTail(s, key, x);
        }
        IncreasingCons(s[0], rest, key);
      }
    }
  }

  /** In an increasing list the head's key is below every later element's. */
  lemma HeadBelowTail<T(!new)>(s: seq<T>, key: T -> int, x: T)
    requires Increasing(s, key) && |s| > 0 && x in s[1..]
    ensures key(s[0]) < key(x)
  {
    var k :| 0 <= k < |s[1..]| && s[1..][k] == x;
    assert s[k + 1] == x;
  }

  /** An element below everything in an increasing list can go in front. */
  lemma IncreasingCons<T(!new)>(h: T, s: seq<T>, key: T -> int)
    requires Increasing(s, key)
    requires forall x :: x in s ==> key(h) < key(x)
    ensures Increasing([h] + s, key)
  {
    var r := [h] + s;
    forall i, j | 0 <= i < j < |r| ensures key(r[i]) < key(r[j]) {
      assert r[j] == s[j - 1];
      if i > 0 {
        assert r[i] == s[i - 1];
      } else {
        assert r[j] in s;
      }
    }
  }


  /** An increasing list is determined by its members. */
  lemma {:induction false} IncreasingUnique<T(!new)>(a: seq<T>, b: seq<T>, key: T -> int)
    requires Increasing(a, key) && Increasing(b, key)
    requires forall x :: x in a <==> x in b
    ensures a == b
  {
    EmptyWithoutMembers(a, b);
    EmptyWithoutMembers(b, a);
    if a != [] {
      assert a[0] in b;
      assert b[0] in a;
      var m :| 0 <= m < |a| && a[m] == b[0];
      var n :| 0 <= n < |b| && b[n] == a[0];
      assert key(a[0]) <= key(a[m]) && key(b[0]) <= key(b[n]);
      assert a[0] == b[0];
      forall x ensures x in a[1..] <==> x in b[1..] {
        IncreasingTail(a, key, x);
        IncreasingTail(b, key, x);
      }
      IncreasingUnique(a[1..], b[1..], key);
      assert a == [a[0]] + a[1..] && b == [b[0]] + b[1..];
    }
  }

  /** A list with no member that the other lacks is empty when the other is. */
  lemma EmptyWithoutMembers<T(!new)>(a: seq<T>, b: seq<T>)
    requires forall x :: x in b ==> x in a
    ensures a == [] ==> b == []
  {
    if b != [] {
      assert b[0] in b;
    }
  }

  /** In an increasing list the head does not recur. */
  lemma IncreasingTail<T(!new)>(s: seq<T>, key: T -> int, x: T)
    requires Increasing(s, key) && |s| > 0
    ensures x in s[1..] <==> x in s && x != s[0]
  {
    if x in s[1..] {
      var k :| 0 <= k < |s[1..]| && s[1..][k] == x;
      assert s[k + 1] == x;
    }
    if x in s && x != s[0] {
      var k :| 0 <= k < |s| && s[k] == x;
      assert s[1..][k - 1] == x;
    }
  }

  lemma FilterCons<T(!new)>(x: T, s: seq<T>, p: T -> bool)
    ensures Filter([x] + s, p) == (if p(x) then [x] else []) + Filter(s, p)
  {
    assert ([x] + s)[0] == x && ([x] + s)[1..] == s;
  }

  /** Filtering distributes over concatenation: the kept elements of the
      first part all come before the kept elements of the second. */
  lemma {:induction false} FilterAppend<T(!new)>(a: seq<T>, b: seq<T>, p: T -> bool)
    ensures Filter(a + b, p) == Filter(a, p) + Filter(b, p)
  {
    if a == [] {
      assert a + b == b;
    } else {
      assert (a + b)[0] == a[0];
      assert (a + b)[1..] == a[1..] + b;
      FilterAppend(a[1..], b, p);
    }
  }

  /** Filtering twice with the same test changes nothing more. */
  lemma {:induction false} FilterIdempotent<T(!new)>(s: seq<T>, p: T -> bool)
    ensures Filter(Filter(s, p), p) == Filter(s, p)
  {
    if s != [] {
      FilterIdempotent(s[1..], p);
      if p(s[0]) {
        var r := [s[0]] + Filter(s[1..], p);
        assert r[0] == s[0] && r[1..] == Filter(s[1..], p);
      }
    }
  }

  /** A test every element passes keeps the whole list. */
  lemma {:induction false} FilterAll<T(!new)>(s: seq<T>, p: T -> bool)
    requires forall x :: x in s ==> p(x)
    ensures Filter(s, p) == s
  {
    if s != [] {
      assert s[0] in s;
      assert forall x :: x in s[1..] ==> x in s;
      FilterAll(s[1..], p);
    }
  }

  /** Filtering a prefix of a list gives a prefix of the filtered list. */
  lemma FilterPrefix<T(!new)>(s: seq<T>, m: nat, p: T -> bool)
    requires m <= |s|
    ensures |Filter(s[..m], p)| <= |Filter(s, p)|
    ensures Filter(s[..m], p) == Filter(s, p)[..|Filter(s[..m], p)|]
  {
    assert s == s[..m] + s[m..];
    FilterAppend(s[..m], s[m..], p);
  }

  /** Filtering never adds an element nor repeats one. */
  lemma FilterSubMultiset<T(!new)>(s: seq<T>, p: T -> bool)
    ensures multiset(Filter(s, p)) <= multiset(s)
  {
    FilterCounts(s, p);
  }

  /** A prefix holds no element more often than the whole list. */
  lemma PrefixSubMultiset<T(!new)>(s: seq<T>, m: nat)
    requires m <= |s|
    ensures multiset(s[..m]) <= multiset(s)
  {
    assert s == s[..m] + s[m..];
  }

  /** The number of elements of `s` that pass `p`. */
  function Count<T(!new)>(s: seq<T>, p: T -> bool): nat {
    |Filter(s, p)|
  }

  // ---------------------------------------------------------------------
  // Finding

  /** `i` is the position of the first element of `s` that passes `p`. */
  predicate IsFirst<T(!new)>(s: seq<T>, p: T -> bool, i: int) {
    0 <= i < |s| && p(s[i]) && forall j :: 0 <= j < i ==> !p(s[j])
  }

  /** The first element that passes `p`, if any. */
  function FindFirst<T(!new)>(s: seq<T>, p: T -> bool): (r: Option<T>)
    ensures r.None? <==> forall i :: 0 <= i < |s| ==> !p(s[i])
    ensures r.Some? ==> exists i :: IsFirst(s, p, i) && s[i] == r.value
  {
    if s == [] then None
    else if p(s[0]) then
      assert IsFirst(s, p, 0);
      Some(s[0])
    else
      var r := FindFirst(s[1..], p);
      assert forall i :: 0 < i < |s| ==> s[i] == s[1..][i - 1];
      assert r.Some? ==> exists i :: IsFirst(s, p, i) && s[i] == r.value by {
        if r.Some? {
          var i :| IsFirst(s[1..], p, i) && s[1..][i] == r.value;
          assert IsFirst(s, p, i + 1);
        }
      }
      r
  }

  /** Looking for the first match looks at the head, then at the rest. */
  lemma FindFirstCons<T(!new)>(x: T, s: seq<T>, p: T -> bool)
    ensures FindFirst([x] + s, p) == if p(x) then Some(x) else FindFirst(s, p)
  {
    assert ([x] + s)[0] == x && ([x] + s)[1..] == s;
  }

  /** An element that passes, with none before it passing, is the first. */
  lemma FindFirstAt<T(!new)>(s: seq<T>, p: T -> bool, k: nat)
    requires k < |s| && p(s[k]) && forall j :: 0 <= j < k ==> !p(s[j])
    ensures FindFirst(s, p) == Some(s[k])
  {
    var r := FindFirst(s, p);
    var i :| IsFirst(s, p, i) && s[i] == r.value;
    assert i == k;
  }

  /** The first of three elements that passes `p`. */
  lemma FindFirstOfThree<T(!new)>(a: T, b: T, c: T, p: T -> bool)
    ensures FindFirst([a, b, c], p) ==
              if p(a) then Some(a) else if p(b) then Some(b) else if p(c) then Some(c) else None
  {
    FindFirstCons(a, [b, c], p);
    FindFirstCons(b, [c], p);
    FindFirstCons(c, [], p);
    assert [a, b, c] == [a] + [b, c];
    assert [b, c] == [b] + [c];
    assert [c] == [c] + [];
  }

  /** Finding the first match is taking the head of the filtered list
      (`matching[0]` after `filter`). */
  lemma {:induction false} FindFirstIsHeadOfFilter<T(!new)>(s: seq<T>, p: T -> bool)
    ensures FindFirst(s, p) == if Filter(s, p) == [] then None else Some(Filter(s, p)[0])
  {
    if s != [] && !p(s[0]) {
      FindFirstIsHeadOfFilter(s[1..], p);
    }
  }

  // ---------------------------------------------------------------------
  // Prefix slices

  /** Python's `s[:n]` (and JavaScript's `slice(0, n)` for `n >= 0`): the
      first `n` elements, where a negative `n` drops `-n` elements from the
      end. */
  function PySlice<T(!new)>(s: seq<T>, n: int): (r: seq<T>)
    ensures |r| <= |s| && r == s[..|r|]
    ensures n >= 0 ==> |r| == if n < |s| then n else |s|
    ensures n < 0 ==> |r| == if |s| + n > 0 then |s| + n else 0
  {
    if n >= 0 then (if n < |s| then s[..n] else s)
    else if |s| + n > 0 then s[..|s| + n]
    else []
  }

  /** A slice holds no element more often than the whole list. */
  lemma PySliceSubMultiset<T(!new)>(s: seq<T>, n: int)
    ensures multiset(PySlice(s, n)) <= multiset(s)
  {
    PrefixSubMultiset(s, |PySlice(s, n)|);
  }

  /** Python's `s[:limit]` where `limit` may be `None`, which keeps everything. */
  function PySliceOpt<T(!new)>(s: seq<T>, limit: Option<int>): (r: seq<T>)
    ensures |r| <= |s| && r == s[..|r|]
    ensures limit.None? ==> r == s
    ensures limit.Some? ==> r == PySlice(s, limit.value)
    ensures multiset(r) <= multiset(s)
  {
    PySliceSubMultiset(s, limit.GetOr(|s|));
    match limit
    case None => s
    case Some(n) => PySlice(s, n)
  }

  // ---------------------------------------------------------------------
  // Stable descending sort

  predicate SortedDesc<T(!new)>(s: seq<T>, key: T -> int) {
    forall i, j :: 0 <= i < j < |s| ==> key(s[i]) >= key(s[j])
  }

  /** Puts `x` in front of the first element whose key is not larger, so
      `x` precedes every element with the same key. */
  function InsertDesc<T(!new)>(x: T, s: seq<T>, key: T -> int): (r: seq<T>)
    requires SortedDesc(s, key)
    ensures SortedDesc(r, key)
    ensures multiset(r) == multiset{x} + multiset(s)
    ensures forall y :: y in r <==> y == x || y in s
  {
    HeadIsLargest(s, key);
    if s == [] || key(s[0]) <= key(x) then
      SortedCons(x, s, key);
      [x] + s
    else
      SortedTail(s, key);
      var rest := InsertDesc(x, s[1..], key);
      assert s == [s[0]] + s[1..];
      SortedCons(s[0], rest, key);
      [s[0]] + rest
  }

  /** The head of a sorted list has the largest key. */
  lemma HeadIsLargest<T(!new)>(s: seq<T>, key: T -> int)
    requires SortedDesc(s, key)
    ensures s != [] ==> forall y :: y in s ==> key(s[0]) >= key(y)
  {
    if s != [] {
      forall y | y in s ensures key(s[0]) >= key(y) {
        var j :| 0 <= j < |s| && s[j] == y;
        if j > 0 {
          assert key(s[0]) >= key(s[j]);
        }
      }
    }
  }

  /** A head whose key is at least every key of a sorted list keeps it sorted. */
  lemma SortedCons<T(!new)>(h: T, s: seq<T>, key: T -> int)
    requires SortedDesc(s, key)
    requires forall y :: y in s ==> key(h) >= key(y)
    ensures SortedDesc([h] + s, key)
  {
    var r := [h] + s;
    forall i, j | 0 <= i < j < |r| ensures key(r[i]) >= key(r[j]) {
      assert r[j] == s[j - 1];
      if i > 0 {
        assert r[i] == s[i - 1];
      } else {
        assert s[j - 1] in s;
      }
    }
  }

  /** A stable sort by `key`, largest key first: elements with equal keys
      keep their input order. */
  function SortDesc<T(!new)>(s: seq<T>, key: T -> int): (r: seq<T>)
    ensures SortedDesc(r, key)
    ensures multiset(r) == multiset(s)
    ensures |r| == |s|
  {
    if s == [] then []
    else
      assert s == [s[0]] + s[1..];
      var r := InsertDesc(s[0], SortDesc(s[1..], key), key);
      assert |r| == |multiset(r)|;
      r
  }

  /** The test "has key `k`". */
  function KeyIs<T(!new)>(key: T -> int, k: int): T -> bool {
    y => key(y) == k
  }

  /** Inserting `x` adds it at the front of the elements with its key. */
  lemma {:induction false} InsertKeepsTies<T(!new)>(x: T, s: seq<T>, key: T -> int, k: int)
    requires SortedDesc(s, key)
    ensures Filter(InsertDesc(x, s, key), KeyIs(key, k))
            == (if key(x) == k then [x] else []) + Filter(s, KeyIs(key, k))
  {
    var p := KeyIs(key, k);
    if s == [] || key(s[0]) <= key(x) {
      assert InsertDesc(x, s, key) == [x] + s;
      FilterCons(x, s, p);
    } else {
      SortedTail(s, key);
      InsertKeepsTies(x, s[1..], key, k);
      InsertPastHead(x, s, key);
      FilterCons(s[0], InsertDesc(x, s[1..], key), p);
      FilterCons(s[0], s[1..], p);
      assert s == [s[0]] + s[1..];
      assert p(s[0]) == (key(s[0]) == k);
    }
  }

  /** An element whose key is smaller than the head's goes after the head. */
  lemma InsertPastHead<T(!new)>(x: T, s: seq<T>, key: T -> int)
    requires SortedDesc(s, key) && s != [] && key(s[0]) > key(x)
    ensures SortedDesc(s[1..], key)
    ensures InsertDesc(x, s, key) == [s[0]] + InsertDesc(x, s[1..], key)
  {
    SortedTail(s, key);
  }

  lemma SortedTail<T(!new)>(s: seq<T>, key: T -> int)
    requires SortedDesc(s, key) && s != []
    ensures SortedDesc(s[1..], key)
  {
    forall i, j | 0 <= i < j < |s| - 1 ensures key(s[1..][i]) >= key(s[1..][j]) {
      assert s[1..][i] == s[i + 1] && s[1..][j] == s[j + 1];
    }
  }

  /** The sort is stable: for every key, the elements with that key come out
      in the order they went in. Together with `SortDesc`'s contract this
      pins the result down completely. */
  lemma {:induction false} SortDescStable<T(!new)>(s: seq<T>, key: T -> int, k: int)
    ensures Filter(SortDesc(s, key), KeyIs(key, k)) == Filter(s, KeyIs(key, k))
  {
    if s != [] {
      SortDescStable(s[1..], key, k);
      InsertKeepsTies(s[0], SortDesc(s[1..], key), key, k);
    }
  }

  /** Taking a prefix of a sorted list keeps the largest keys: nothing left
      behind outranks anything taken. */
  lemma TopOfSorted<T(!new)>(s: seq<T>, key: T -> int, n: int)
    requires SortedDesc(s, key)
    ensures SortedDesc(PySlice(s, n), key)
    ensures forall d, e :: d in s && d !in PySlice(s, n) && e in PySlice(s, n) ==> key(e) >= key(d)
  {
    var r := PySlice(s, n);
    forall d, e | d in s && d !in r && e in r ensures key(e) >= key(d) {
      var j :| 0 <= j < |s| && s[j] == d;
      var i :| 0 <= i < |r| && r[i] == e;
      assert s[i] == e;
      assert forall m :: 0 <= m < |r| ==> s[m] == r[m] && r[m] != d;
    }
  }

  /** Lists with the same multiset have the same members. */
  lemma SameMembers<T(!new)>(a: seq<T>, b: seq<T>)
    requires multiset(a) == multiset(b)
    ensures forall x :: x in a <==> x in b
  {
    forall x ensures x in a <==> x in b {
      assert x in a <==> multiset(a)[x] > 0;
      assert x in b <==> multiset(b)[x] > 0;
    }
  }

  // ---------------------------------------------------------------------
  // Integer statistics

  function Sum(s: seq<int>): int {
    if s == [] then 0 else s[0] + Sum(s[1..])
  }

  /** Python's `min` of a non-empty list. */
  function MinOf(s: seq<int>): (r: int)
    requires s != []
    ensures r in s
    ensures forall x :: x in s ==> r <= x
  {
    if |s| == 1 then s[0]
    else
      var m := MinOf(s[1..]);
      assert forall x :: x in s ==> x == s[0] || x in s[1..];
      if s[0] <= m then s[0] else m
  }

  /** Python's `max` of a non-empty list. */
  function MaxOf(s: seq<int>): (r: int)
    requires s != []
    ensures r in s
    ensures forall x :: x in s ==> x <= r
  {
    if |s| == 1 then s[0]
    else
      var m := MaxOf(s[1..]);
      assert forall x :: x in s ==> x == s[0] || x in s[1..];
      if s[0] >= m then s[0] else m
  }

  /** A sum lies between `|s|` times any lower bound and `|s|` times any
      upper bound of its terms. */
  lemma {:induction false} SumBetween(s: seq<int>, lo: int, hi: int)
    requires forall x :: x in s ==> lo <= x <= hi
    ensures lo * |s| <= Sum(s) <= hi * |s|
  {
    if s != [] {
      var t := s[1..];
      assert forall x :: x in t ==> x in s;
      SumBetween(t, lo, hi);
      assert s[0] in s;
      assert Sum(s) == s[0] + Sum(t);
      var n := |t|;
      assert |s| == n + 1;
      MulSucc(lo, n);
      MulSucc(hi, n);
    }
  }

  lemma MulSucc(a: int, n: int)
    ensures a * (n + 1) == a * n + a
  {
  }

  /** Multiplying by a positive number preserves strict order, read backwards. */
  lemma MulCancelLess(a: int, b: int, n: int)
    requires n > 0 && a * n < b * n
    ensures a < b
  {
  }

  /** A quotient by `n` of a number between `lo * n` and `hi * n` lies
      between `lo` and `hi`. */
  lemma DivBetween(t: int, n: int, lo: int, hi: int)
    requires n > 0 && lo * n <= t <= hi * n
    ensures lo <= t / n <= hi
  {
    var q := t / n;
    assert q * n <= t < (q + 1) * n;
    MulCancelLess(lo, q + 1, n);
    MulCancelLess(q, hi + 1, n);
  }

  /** The floor mean of a non-empty list lies between its minimum and its
      maximum. */
  lemma MeanBetween(s: seq<int>)
    requires s != []
    ensures MinOf(s) <= Sum(s) / |s| <= MaxOf(s)
  {
    SumBetween(s, MinOf(s), MaxOf(s));
    DivBetween(Sum(s), |s|, MinOf(s), MaxOf(s));
  }
}

=== FILE: service_scenarios.dfy ===
/** The two Python services' price statistics on the store client's six
    mock records (backend/database.py), priced 15000, 12000, 8000, 10000,
    11000 and 18000 rupees. */
module ServiceScenarios {
  import opened Seqs
  import opened Catalog
  import opened MockStore
  import ApiService
  import ApiMain
  import opened Wrappers
  import Text
  import Vocabulary
  import AgentIntent
  import RuleService

  /** The mock prices, in list order. */
  const MockPrices: seq<int> := [15000, 12000, 8000, 10000, 11000, 18000]

  lemma MockPricesInOrder()
    ensures forall i :: 0 <= i < |MockCatalog| ==> MockCatalog[i].priceFrom == MockPrices[i]
    ensures |MockCatalog| == |MockPrices| == 6
  {
  }

  lemma MockPriceSum()
    ensures Sum(MockPrices) == 74000
  {
    assert MockPrices[1..] == [12000, 8000, 10000, 11000, 18000];
    assert MockPrices[2..] == [8000, 10000, 11000, 18000];
    assert MockPrices[3..] == [10000, 11000, 18000];
    assert MockPrices[4..] == [11000, 18000];
    assert MockPrices[5..] == [18000];
  }

  /** A catalog of six records priced like the mock records. */
  predicate PricedLikeMock(ds: seq<Destination>) {
    |ds| == |MockPrices| && forall i :: 0 <= i < |ds| ==> ds[i].priceFrom == MockPrices[i]
  }

  lemma MockIsPricedLikeMock()
    ensures PricedLikeMock(MockCatalog)
  {
    MockPricesInOrder();
  }

  lemma PricesLikeMock(ds: seq<Destination>)
    requires PricedLikeMock(ds)
    ensures ApiMain.Prices(ds) == MockPrices
  {
  }

  /** Where every price is positive, the older service's positive prices
      are all the prices. */
  lemma {:induction false} AllPricesPositive(ds: seq<Destination>)
    requires forall i :: 0 <= i < |ds| ==> ds[i].priceFrom > 0
    ensures ApiService.PositivePrices(ds) == ApiMain.Prices(ds)
  {
    if ds != [] {
      AllPricesPositive(ds[1..]);
    }
  }

  lemma CountsLikeMock(ds: seq<Destination>)
    requires PricedLikeMock(ds)
    ensures Count(ds, ApiService.HasPositivePrice) == 6
    ensures Count(ds, ApiMain.IsBudgetPrice) == 4
    ensures Count(ds, ApiMain.IsMidRangePrice) == 2
    ensures Count(ds, ApiMain.IsLuxuryPrice) == 0
  {
    CountSix(ds, ApiService.HasPositivePrice);
    CountSix(ds, ApiMain.IsBudgetPrice);
    CountSix(ds, ApiMain.IsMidRangePrice);
    CountSix(ds, ApiMain.IsLuxuryPrice);
  }

  function Indicator(b: bool): nat {
    if b then 1 else 0
  }

  /** Counting one element off the front of a suffix. */
  lemma CountStep(ds: seq<Destination>, k: nat, p: Destination -> bool)
    requires k < |ds|
    ensures Count(ds[k..], p) == Indicator(p(ds[k])) + Count(ds[k + 1..], p)
  {
    assert ds[k..] == [ds[k]] + ds[k + 1..];
    FilterCons(ds[k], ds[k + 1..], p);
  }

  /** Counting six records, one at a time. */
  lemma CountSix(ds: seq<Destination>, p: Destination -> bool)
    requires |ds| == 6
    ensures Count(ds, p) == Indicator(p(ds[0])) + Indicator(p(ds[1])) + Indicator(p(ds[2])) +
                            Indicator(p(ds[3])) + Indicator(p(ds[4])) + Indicator(p(ds[5]))
  {
    assert ds[0..] == ds;
    assert ds[6..] == [];
    CountStep(ds, 0, p);
    CountStep(ds, 1, p);
    CountStep(ds, 2, p);
    CountStep(ds, 3, p);
    CountStep(ds, 4, p);
    CountStep(ds, 5, p);
  }

  /** A list's least and greatest elements are found where they sit. */
  lemma MinMaxAt(s: seq<int>, lo: nat, hi: nat)
    requires lo < |s| && hi < |s|
    requires forall i :: 0 <= i < |s| ==> s[lo] <= s[i] <= s[hi]
    ensures MinOf(s) == s[lo] && MaxOf(s) == s[hi]
  {
    var m, n := MinOf(s), MaxOf(s);
    assert s[lo] in s && s[hi] in s;
    var j :| 0 <= j < |s| && s[j] == m;
    var k :| 0 <= k < |s| && s[k] == n;
  }

  lemma MockMinMax()
    ensures MinOf(MockPrices) == 8000 && MaxOf(MockPrices) == 18000
  {
    MinMaxAt(MockPrices, 2, 5);
  }

  /** The older service's budget guide on the mock records: lowest 8000,
      floor mean 12333, highest 18000. Its "budget travel" band runs from
      8000 down to 6166: its lower end is above its upper end. */
  lemma MockBudgetBandRunsBackwards()
    ensures var r := ApiService.BudgetGuide(MockCatalog);
            r.PriceGuide? && r.lowest == 8000 && r.average == 12333 && r.highest == 18000 &&
            r.budgetBand == ApiService.PriceBand(8000, 6166) && r.budgetBand.low > r.budgetBand.high
  {
    MockIsPricedLikeMock();
    GuideLikeMock(MockCatalog);
  }

  lemma GuideLikeMock(ds: seq<Destination>)
    requires PricedLikeMock(ds)
    ensures var r := ApiService.BudgetGuide(ds);
            r.PriceGuide? && r.lowest == 8000 && r.average == 12333 && r.highest == 18000 &&
            r.budgetBand == ApiService.PriceBand(8000, 6166)
  {
    PricesLikeMock(ds);
    AllPricesPositive(ds);
    MockPriceSum();
    MockMinMax();
    GuideOfPrices(ds, MockPrices);
  }

  /** The guide depends on the catalog only through the count, sum, least
      and greatest of its positive prices. */
  lemma GuideOfPrices(ds: seq<Destination>, prices: seq<int>)
    requires |ds| > 0 && ApiService.PositivePrices(ds) == prices && |prices| == 6
    requires Sum(prices) == 74000 && MinOf(prices) == 8000 && MaxOf(prices) == 18000
    ensures ApiService.BudgetGuide(ds) ==
            ApiService.PriceGuide(8000, 12333, 18000, ApiService.PriceBand(8000, 6166),
                                  ApiService.PriceBand(6166, 24666), 24666)
  {
    assert 74000 / 6 == 12333 && 12333 / 2 == 6166 && 12333 * 2 == 24666;
  }

  /** The newer analytics endpoint on the mock records: prices 8000 to
      18000, floor mean 12333; four budget, two mid-range and no luxury
      destinations, six in all. */
  lemma MockBudgetRanges()
    ensures ApiMain.BudgetRanges(MockCatalog) == ApiMain.Analysis(8000, 18000, 12333, 4, 2, 0, 6)
  {
    MockIsPricedLikeMock();
    RangesLikeMock(MockCatalog);
  }

  lemma RangesLikeMock(ds: seq<Destination>)
    requires PricedLikeMock(ds)
    ensures ApiMain.BudgetRanges(ds) == ApiMain.Analysis(8000, 18000, 12333, 4, 2, 0, 6)
  {
    PricesLikeMock(ds);
    CountsLikeMock(ds);
    MockPriceSum();
    MockMinMax();
  }

  // ---------------------------------------------------------------------
  // "budget 50000" on the mock records, with no key configured

  const BudgetQuestion := "budget 50000"

  /** 50000 is spelled "50000". */
  lemma ShowFiftyThousand()
    ensures Text.Show(50000) == "50000"
  {
    assert Text.Show(5) == "5";
    assert Text.Show(50) == "50";
    assert Text.Show(500) == "500";
    assert Text.Show(5000) == "5000";
  }

  /** The question names the amount 50000. */
  lemma BudgetQuestionAmount()
    ensures Text.FirstAmount(BudgetQuestion) == Some(50000)
  {
    ShowFiftyThousand();
    assert BudgetQuestion == "budget " + Text.Show(50000) + "";
    Text.AmountOfShow("budget ", 50000, "");
  }

  /** The question is already lower case and has no "i" and no "p". */
  lemma BudgetQuestionLetters()
    ensures Text.Lower(BudgetQuestion) == BudgetQuestion
    ensures 'i' !in BudgetQuestion && 'p' !in BudgetQuestion
  {
    Text.LowerIs(BudgetQuestion, BudgetQuestion);
  }

  /** Its first cue is "budget". */
  lemma BudgetQuestionCue()
    ensures RuleService.CueKind(BudgetQuestion) == Vocabulary.Budget
  {
    var m := BudgetQuestion;
    BudgetQuestionLetters();
    Text.AbsentCharRulesOut(m, "itinerary", 'i');
    Text.AbsentCharRulesOut(m, "plan", 'p');
    Text.ContainsAt(m, "budget", 0);
  }

  /** The rule-based reading takes it for a budget question for 50000. */
  lemma BudgetQuestionIsBudget()
    ensures Vocabulary.KindOfTag(RuleService.AnalyzeRuleBased(BudgetQuestion, None).tag) == Vocabulary.Budget
    ensures RuleService.AnalyzeRuleBased(BudgetQuestion, None).budget == Some(50000)
  {
    BudgetQuestionLetters();
    BudgetQuestionAmount();
    BudgetQuestionCue();
    var intent := RuleService.AnalyzeRuleBased(BudgetQuestion, None);
    assert intent.tag == Vocabulary.KindName(Vocabulary.Budget);
    Vocabulary.KindOfTagOfName(Vocabulary.Budget);
  }

  /** In a catalog priced like the mock records the third record, at 8000
      rupees, fits a 50000 budget. */
  lemma ThirdRecordFits(all: seq<Destination>)
    requires PricedLikeMock(all)
    ensures all[2] in all && 0 < all[2].priceFrom <= 50000
  {
  }

  /** As written, "budget 50000" is never answered on records priced like
      the mock records (the mock records included, by MockIsPricedLikeMock)
      when the catalog queries return model objects: every record is
      fetched, and the answer reads the first with `.get`. */
  lemma BudgetQuestionFailsOnMockRecords(all: seq<Destination>, destinations: seq<Destination>,
                                         search: string -> seq<Destination>, model: RuleService.HostedModel)
    requires PricedLikeMock(all)
    requires !AgentIntent.TruthyText(model.apiKey)
    ensures RuleService.ProcessMessageAsWritten(BudgetQuestion, None, destinations, all, search, model, true)
            == Err(RuleService.RecordHasNoGet)
  {
    BudgetQuestionIsBudget();
    ThirdRecordFits(all);
    RuleService.BudgetAnswerReadsModelObjects(BudgetQuestion, None, destinations, all, search, model, all[2]);
  }

  /** Read by attribute, the same question lists the first three records
      fetched for the 50000 budget. */
  lemma BudgetQuestionListsMockRecords(all: seq<Destination>, destinations: seq<Destination>,
                                       search: string -> seq<Destination>, model: RuleService.HostedModel)
    requires PricedLikeMock(all)
    requires !AgentIntent.TruthyText(model.apiKey)
    ensures var a := RuleService.ProcessMessage(BudgetQuestion, None, destinations, all, search, model);
            var fetched := RuleService.BudgetDestinations(all, 50000, 10);
            a.LocalText? && a.reply.BudgetOutline? && a.reply.budget == 50000 &&
            |fetched| > 0 && a.reply.picks == fetched[..if |fetched| < 3 then |fetched| else 3]
  {
    BudgetQuestionIsBudget();
    ThirdRecordFits(all);
    RuleService.BudgetAnswerListsFetchedRecords(BudgetQuestion, None, destinations, all, search, model, all[2]);
  }
}

=== FILE: text.dfy ===
/** Character-level scanning shared by all three assistants: ASCII case
    folding, substring search over keyword lists, and hand-written scanners
    for the two regular expressions the assistants use,
    `₹?(\d+(?:,\d+)*)` (an amount) and `(\d+)\s*days?` (a day count). */
module Text {
  import opened Wrappers

  predicate IsDigit(c: char) { '0' <= c <= '9' }

  predicate IsUpper(c: char) { 'A' <= c <= 'Z' }

  /** The white-space characters matched by `\s` and removed by `trim`
      (ASCII only). */
  predicate IsSpace(c: char) {
    c == ' ' || c == '\t' || c == '\n' || c == '\r' || c == '\U{0B}' || c == '\U{0C}'
  }

  predicate AllDigits(s: string) {
    forall i :: 0 <= i < |s| ==> IsDigit(s[i])
  }

  predicate NoDigits(s: string) {
    forall i :: 0 <= i < |s| ==> !IsDigit(s[i])
  }

  predicate IsBlank(s: string) {
    forall i :: 0 <= i < |s| ==> IsSpace(s[i])
  }

  function LowerChar(c: char): char {
    if IsUpper(c) then (c as int + 32) as char else c
  }

  /** `toLowerCase()` / `lower()` restricted to ASCII letters. */
  function Lower(s: string): (r: string)
    ensures |r| == |s|
    ensures forall i :: 0 <= i < |s| ==> r[i] == LowerChar(s[i])
  {
    seq(|s|, i requires 0 <= i < |s| => LowerChar(s[i]))
  }

  /** Lower-casing leaves no upper-case letter, changes nothing else, and is idempotent. */
  lemma LowerNormalises(s: string)
    ensures forall i :: 0 <= i < |s| ==> !IsUpper(Lower(s)[i])
    ensures forall i :: 0 <= i < |s| && !IsUpper(s[i]) ==> Lower(s)[i] == s[i]
    ensures Lower(Lower(s)) == Lower(s)
  {
  }

  /** Lower-casing a text is the text whose characters are its characters
      lower-cased. */
  lemma LowerIs(s: string, t: string)
    requires |s| == |t| && forall i :: 0 <= i < |s| ==> LowerChar(s[i]) == t[i]
    ensures Lower(s) == t
  {
  }

  // ---------------------------------------------------------------------
  // Substring search (`includes`, Python `in`)

  /** `k` occurs in `s` starting at position `i`. */
  predicate OccursAt(s: string, k: string, i: int) {
    0 <= i <= |s| - |k| && s[i..i + |k|] == k
  }

  predicate Contains(s: string, k: string) {
    exists i | 0 <= i <= |s| - |k| :: OccursAt(s, k, i)
  }

  lemma ContainsWitness(s: string, k: string, i: int)
    requires 0 <= i <= |s| - |k| && s[i..i + |k|] == k
    ensures Contains(s, k)
  {
    assert OccursAt(s, k, i);
  }

  /** The keyword's characters stand one after another from position `i`. */
  lemma ContainsAt(s: string, k: string, i: nat)
    requires i + |k| <= |s| && forall j :: 0 <= j < |k| ==> s[i + j] == k[j]
    ensures Contains(s, k)
  {
    assert s[i..i + |k|] == k;
    assert OccursAt(s, k, i);
  }

  /** A keyword one of whose characters never occurs in the text is not in the text. */
  lemma AbsentCharRulesOut(s: string, k: string, c: char)
    requires c in k && c !in s
    ensures !Contains(s, k)
  {
    var j :| 0 <= j < |k| && k[j] == c;
    forall i | 0 <= i <= |s| - |k| ensures !OccursAt(s, k, i) {
      assert s[i..i + |k|][j] == s[i + j];
    }
  }

  /** `a` immediately followed by `b` stands at position `i`. */
  predicate PairAt(s: string, a: char, b: char, i: int) {
    0 <= i < |s| - 1 && s[i] == a && s[i + 1] == b
  }

  /** A keyword two of whose adjacent characters never stand side by side in
      the text is not in the text. */
  lemma AbsentPairRulesOut(s: string, k: string, j: nat, a: char, b: char)
    requires j + 1 < |k| && k[j] == a && k[j + 1] == b
    requires forall i :: !PairAt(s, a, b, i)
    ensures !Contains(s, k)
  {
    forall i | 0 <= i <= |s| - |k| ensures !OccursAt(s, k, i) {
      assert s[i..i + |k|][j] == s[i + j] && s[i..i + |k|][j + 1] == s[i + j + 1];
      assert !PairAt(s, a, b, i + j);
    }
  }

  /** The test "occurs in `m`", for filtering keyword lists. */
  function OccursIn(m: string): string -> bool {
    k => Contains(m, k)
  }

  /** Some keyword of the list occurs in the text (`list.some(k => m.includes(k))`). */
  predicate AnyIn(m: string, ks: seq<string>) {
    exists k :: k in ks && Contains(m, k)
  }

  /** `k` is the first keyword of `ks`, in list order, that occurs in `m`. */
  predicate IsFirstHit(ks: seq<string>, m: string, k: string) {
    exists i :: 0 <= i < |ks| && ks[i] == k && Contains(m, k) && forall j :: 0 <= j < i ==> !Contains(m, ks[j])
  }

  /** The keyword at `i` is the first hit when it occurs and none before it
      does. */
  lemma FirstHitAt(ks: seq<string>, m: string, i: nat)
    requires i < |ks| && Contains(m, ks[i]) && forall j :: 0 <= j < i ==> !Contains(m, ks[j])
    ensures IsFirstHit(ks, m, ks[i])
  {
  }

  /** No keyword of `ks` occurs in `m` when none at any position does. */
  lemma NoneIn(m: string, ks: seq<string>)
    requires forall j :: 0 <= j < |ks| ==> !Contains(m, ks[j])
    ensures !AnyIn(m, ks)
  {
  }

  /** The loop `for (k of ks) if (m.includes(k)) { found = k; break }`. */
  function FirstIn(ks: seq<string>, m: string): (r: Option<string>)
    ensures r.None? <==> !AnyIn(m, ks)
    ensures r.Some? ==> IsFirstHit(ks, m, r.value)
  {
    if ks == [] then None
    else if Contains(m, ks[0]) then
      assert ks[0] in ks;
      Some(ks[0])
    else
      var r := FirstIn(ks[1..], m);
      assert forall k :: k in ks[1..] <==> k in ks && (k != ks[0] || k in ks[1..]);
      assert ks == [ks[0]] + ks[1..];
      if r.Some? then
        var i :| 0 <= i < |ks[1..]| && ks[1..][i] == r.value && Contains(m, r.value)
                 && forall j :: 0 <= j < i ==> !Contains(m, ks[1..][j]);
        assert ks[i + 1] == r.value;
        assert forall j :: 0 <= j < i + 1 ==> !Contains(m, ks[j]) by {
          forall j | 0 <= j < i + 1 ensures !Contains(m, ks[j]) {
            if j > 0 { assert ks[j] == ks[1..][j - 1]; }
          }
        }
        r
      else
        r
  }

  /** There is only one first hit, so it is the one the loop finds. */
  lemma FirstHitIsFound(ks: seq<string>, m: string, k: string)
    requires IsFirstHit(ks, m, k)
    ensures FirstIn(ks, m) == Some(k)
  {
    var i :| 0 <= i < |ks| && ks[i] == k && Contains(m, k) && forall j :: 0 <= j < i ==> !Contains(m, ks[j]);
    assert AnyIn(m, ks) by { assert ks[i] in ks; }
    var f := FirstIn(ks, m).value;
    var i' :| 0 <= i' < |ks| && ks[i'] == f && Contains(m, f) && forall j :: 0 <= j < i' ==> !Contains(m, ks[j]);
    assert !(i < i') && !(i' < i);
  }

  // ---------------------------------------------------------------------
  // Decimal numbers

  function DigitChar(d: nat): char
    requires d < 10
  {
    ('0' as int + d) as char
  }

  /** The value of a string of decimal digits (`parseInt`, `int`). */
  function Number(ds: string): nat
    requires AllDigits(ds)
    decreases |ds|
  {
    if ds == [] then 0 else 10 * Number(ds[..|ds| - 1]) + (ds[|ds| - 1] as int - '0' as int)
  }

  /** The decimal spelling of `n`, without separators. */
  function Show(n: nat): (r: string)
    ensures AllDigits(r) && |r| > 0
    decreases n
  {
    if n < 10 then [DigitChar(n)] else Show(n / 10) + [DigitChar(n % 10)]
  }

  /** Reading back the spelling of a number gives the number. */
  lemma {:induction false} NumberOfShow(n: nat)
    ensures Number(Show(n)) == n
  {
    if n >= 10 {
      var s := Show(n / 10) + [DigitChar(n % 10)];
      assert s[..|s| - 1] == Show(n / 10);
      NumberOfShow(n / 10);
    }
  }

  /** Length of the maximal run of digits that starts at `i`. */
  function DigitRun(s: string, i: nat): (n: nat)
    requires i <= |s|
    ensures i + n <= |s|
    ensures forall j :: i <= j < i + n ==> IsDigit(s[j])
    ensures i + n == |s| || !IsDigit(s[i + n])
    decreases |s| - i
  {
    if i < |s| && IsDigit(s[i]) then 1 + DigitRun(s, i + 1) else 0
  }

  /** A digit run of known extent has exactly that length. */
  lemma DigitRunOf(s: string, i: nat, n: nat)
    requires i + n <= |s|
    requires forall j :: i <= j < i + n ==> IsDigit(s[j])
    requires i + n == |s| || !IsDigit(s[i + n])
    ensures DigitRun(s, i) == n
    decreases n
  {
    if n > 0 {
      DigitRunOf(s, i + 1, n - 1);
    }
  }

  /** Length of the maximal run of white space that starts at `i`. */
  function SpaceRun(s: string, i: nat): (n: nat)
    requires i <= |s|
    ensures i + n <= |s|
    ensures forall j :: i <= j < i + n ==> IsSpace(s[j])
    ensures i + n == |s| || !IsSpace(s[i + n])
    decreases |s| - i
  {
    if i < |s| && IsSpace(s[i]) then 1 + SpaceRun(s, i + 1) else 0
  }

  /** Position of the first digit at or after `from`. */
  function FirstDigit(s: string, from: nat): (r: Option<nat>)
    requires from <= |s|
    ensures r.None? <==> forall j :: from <= j < |s| ==> !IsDigit(s[j])
    ensures r.Some? ==> from <= r.value < |s| && IsDigit(s[r.value])
                        && forall j :: from <= j < r.value ==> !IsDigit(s[j])
    decreases |s| - from
  {
    if from == |s| then None
    else if IsDigit(s[from]) then Some(from)
    else FirstDigit(s, from + 1)
  }

  // ---------------------------------------------------------------------
  // The amount scanner `₹?(\d+(?:,\d+)*)`, first match, separators removed

  /** The digits of the token `\d+(,\d+)*` that starts at `i`, with the
      comma separators dropped: the token extends over a comma only when a
      digit follows it. */
  function GroupedDigits(s: string, i: nat): (ds: string)
    requires i < |s| && IsDigit(s[i])
    ensures AllDigits(ds) && |ds| > 0
    decreases |s| - i
  {
    var e := i + DigitRun(s, i);
    if e + 1 < |s| && s[e] == ',' && IsDigit(s[e + 1]) then s[i..e] + GroupedDigits(s, e + 1)
    else s[i..e]
  }

  /** A lone digit followed by neither a digit nor a comma is a group of its own. */
  lemma LoneDigitGroup(s: string, i: nat)
    requires i + 1 < |s| && IsDigit(s[i]) && !IsDigit(s[i + 1]) && s[i + 1] != ','
    ensures GroupedDigits(s, i) == [s[i]]
    ensures Number(GroupedDigits(s, i)) == s[i] as int - '0' as int
  {
    DigitRunOf(s, i, 1);
    assert s[i..i + 1] == [s[i]];
    assert [s[i]][..0] == [];
  }

  /** The amount a message names: the first digit group with its thousands
      separators removed, or nothing when the message has no digit at all. */
  function FirstAmount(s: string): (r: Option<nat>)
    ensures r.None? <==> NoDigits(s)
    ensures r.Some? ==> exists i :: 0 <= i < |s| && IsDigit(s[i]) && NoDigits(s[..i])
                                   && r.value == Number(GroupedDigits(s, i))
  {
    match FirstDigit(s, 0)
    case None => None
    case Some(i) => Some(Number(GroupedDigits(s, i)))
  }

  predicate DigitGroups(gs: seq<string>) {
    |gs| > 0 && forall i :: 0 <= i < |gs| ==> |gs[i]| > 0 && AllDigits(gs[i])
  }

  /** Digit groups written with comma separators, as in `12,500` or `1,00,000`. */
  function JoinGroups(gs: seq<string>): string
    requires |gs| > 0
  {
    if |gs| == 1 then gs[0] else gs[0] + "," + JoinGroups(gs[1..])
  }

  function Concat(gs: seq<string>): string {
    if gs == [] then "" else gs[0] + Concat(gs[1..])
  }

  lemma ConcatDigits(gs: seq<string>)
    requires DigitGroups(gs)
    ensures AllDigits(Concat(gs))
  {
    if |gs| > 1 {
      ConcatDigits(gs[1..]);
    }
  }

  /** Text that cannot continue an amount token. */
  predicate EndsToken(q: string) {
    q == [] || (!IsDigit(q[0]) && q[0] != ',')
  }

  /** The groups `gs` sit in `s` from `i` onwards, separated by single
      commas, and the token ends after the last one. */
  predicate GroupsAt(s: string, i: nat, gs: seq<string>)
    decreases |gs|
  {
    |gs| > 0 && i + |gs[0]| <= |s| && s[i..i + |gs[0]|] == gs[0] &&
    var e := i + |gs[0]|;
    if |gs| == 1 then e == |s| || (!IsDigit(s[e]) && s[e] != ',')
    else e < |s| && s[e] == ',' && GroupsAt(s, e + 1, gs[1..])
  }

  lemma {:induction false} GroupedDigitsOfJoin(s: string, i: nat, gs: seq<string>, q: string)
    requires DigitGroups(gs) && EndsToken(q)
    requires i <= |s| && s[i..] == JoinGroups(gs) + q
    ensures i < |s| && IsDigit(s[i])
    ensures GroupedDigits(s, i) == Concat(gs)
  {
    JoinIsGroupsAt(s, i, gs, q);
    GroupedDigitsOfGroups(s, i, gs);
  }

  /** Written-out groups followed by text that ends the token sit where
      `GroupsAt` says. */
  lemma {:induction false} JoinIsGroupsAt(s: string, i: nat, gs: seq<string>, q: string)
    requires DigitGroups(gs) && EndsToken(q)
    requires i <= |s| && s[i..] == JoinGroups(gs) + q
    ensures GroupsAt(s, i, gs)
    decreases |gs|
  {
    if |gs| == 1 {
      SplitAt(s, i, gs[0], q);
    } else {
      JoinStep(s, i, gs, q);
      JoinIsGroupsAt(s, i + |gs[0]| + 1, gs[1..], q);
    }
  }

  /** The token scan reads groups laid out as `GroupsAt` says as their
      concatenation. */
  lemma {:induction false} GroupedDigitsOfGroups(s: string, i: nat, gs: seq<string>)
    requires DigitGroups(gs) && GroupsAt(s, i, gs)
    ensures i < |s| && IsDigit(s[i])
    ensures GroupedDigits(s, i) == Concat(gs)
    decreases |gs|
  {
    var g := gs[0];
    DigitGroupsTail(gs);
    if |gs| == 1 {
      EndGroup(s, i, g);
    } else {
      GroupedDigitsOfGroups(s, i + |g| + 1, gs[1..]);
      NextGroup(s, i, g, Concat(gs[1..]));
    }
  }

  /** The first group is non-empty digits, the rest are digit groups, and
      the concatenation starts with the first group. */
  lemma DigitGroupsTail(gs: seq<string>)
    requires DigitGroups(gs)
    ensures |gs[0]| > 0 && AllDigits(gs[0])
    ensures |gs| > 1 ==> DigitGroups(gs[1..])
    ensures Concat(gs) == gs[0] + Concat(gs[1..])
    ensures |gs| == 1 ==> Concat(gs) == gs[0]
  {
    forall k | 0 <= k < |gs[1..]| ensures |gs[1..][k]| > 0 && AllDigits(gs[1..][k]) {
      assert gs[1..][k] == gs[k + 1];
    }
    if |gs| == 1 {
      assert gs[0] + "" == gs[0];
    }
  }

  /** A digit group followed by text that ends the token is the whole token. */
  lemma EndGroup(s: string, i: nat, g: string)
    requires |g| > 0 && AllDigits(g) && i + |g| <= |s| && s[i..i + |g|] == g
    requires i + |g| == |s| || (!IsDigit(s[i + |g|]) && s[i + |g|] != ',')
    ensures i < |s| && IsDigit(s[i])
    ensures GroupedDigits(s, i) == g
  {
    forall j | i <= j < i + |g| ensures IsDigit(s[j]) {
      assert s[j] == s[i..i + |g|][j - i];
    }
    DigitRunOf(s, i, |g|);
  }

  /** Where several groups are joined, the first group, a comma and the
      rest of the groups follow one another. */
  lemma JoinStep(s: string, i: nat, gs: seq<string>, q: string)
    requires DigitGroups(gs) && |gs| > 1
    requires i <= |s| && s[i..] == JoinGroups(gs) + q
    ensures var e := i + |gs[0]|;
            e + 1 <= |s| && s[i..e] == gs[0] && s[e] == ',' &&
            s[e + 1..] == JoinGroups(gs[1..]) + q && DigitGroups(gs[1..])
  {
    var g := gs[0];
    var rest := JoinGroups(gs[1..]) + q;
    assert JoinGroups(gs) == g + "," + JoinGroups(gs[1..]);
    assert s[i..] == g + ("," + rest);
    SplitAt(s, i, g, "," + rest);
    SplitAt(s, i + |g|, ",", rest);
    assert DigitGroups(gs[1..]) by {
      forall k | 0 <= k < |gs[1..]| ensures |gs[1..][k]| > 0 && AllDigits(gs[1..][k]) {
        assert gs[1..][k] == gs[k + 1];
      }
    }
  }

  /** A digit group followed by a comma and a digit continues into the next
      group. */
  lemma NextGroup(s: string, i: nat, g: string, t: string)
    requires |g| > 0 && AllDigits(g) && i + |g| + 1 < |s|
    requires s[i..i + |g|] == g && s[i + |g|] == ',' && IsDigit(s[i + |g| + 1])
    requires GroupedDigits(s, i + |g| + 1) == t
    ensures IsDigit(s[i])
    ensures GroupedDigits(s, i) == g + t
  {
    forall j | i <= j < i + |g| ensures IsDigit(s[j]) {
      assert s[j] == s[i..i + |g|][j - i];
    }
    DigitRunOf(s, i, |g|);
  }

  /** Where `s` continues with `g + t` from `i`, the characters of `g` sit at
      `i` onwards and `t` follows them. */
  lemma SplitAt(s: string, i: nat, g: string, t: string)
    requires i <= |s| && s[i..] == g + t
    ensures i + |g| <= |s| && s[i..i + |g|] == g && s[i + |g|..] == t
    ensures forall j :: i <= j < i + |g| ==> s[j] == g[j - i]
    ensures |t| > 0 ==> s[i + |g|] == t[0]
  {
    forall j | i <= j < i + |g| ensures s[j] == g[j - i] {
      assert s[i..][j - i] == s[j];
    }
    if |t| > 0 {
      assert s[i..][|g|] == t[0];
    }
  }

  /** Round trip: whatever digit-free text precedes it, an amount written with
      any comma grouping is read back as the number its digits spell. */
  lemma {:induction false} AmountRoundTrip(p: string, gs: seq<string>, q: string)
    requires NoDigits(p) && DigitGroups(gs) && EndsToken(q)
    ensures AllDigits(Concat(gs))
    ensures FirstAmount(p + JoinGroups(gs) + q) == Some(Number(Concat(gs)))
  {
    ConcatDigits(gs);
    var s := p + JoinGroups(gs) + q;
    assert s[|p|..] == JoinGroups(gs) + q;
    GroupedDigitsOfJoin(s, |p|, gs, q);
    assert forall j :: 0 <= j < |p| ==> s[j] == p[j];
    assert FirstDigit(s, 0) == Some(|p|);
  }

  /** Round trip for a plain number: `p + Show(n) + q` names the amount `n`. */
  lemma AmountOfShow(p: string, n: nat, q: string)
    requires NoDigits(p) && EndsToken(q)
    ensures FirstAmount(p + Show(n) + q) == Some(n)
  {
    AmountRoundTrip(p, [Show(n)], q);
    assert Concat([Show(n)]) == Show(n);
    NumberOfShow(n);
  }

  // ---------------------------------------------------------------------
  // The day-count scanner `(\d+)\s*days?`, case-insensitive, first match

  /** `r` begins a maximal run of digits. */
  predicate RunStart(s: string, r: int) {
    0 <= r < |s| && IsDigit(s[r]) && (r == 0 || !IsDigit(s[r - 1]))
  }

  /** `\s*day`, in any letter case, begins at position `e`. */
  predicate DayAt(s: string, e: nat)
    requires e <= |s|
  {
    var w := e + SpaceRun(s, e);
    w + 3 <= |s| && LowerChar(s[w]) == 'd' && LowerChar(s[w + 1]) == 'a' && LowerChar(s[w + 2]) == 'y'
  }

  /** The regular expression matches with its digit group starting at `r`.
      A match can only start where a digit run starts: a start inside a run
      reaches the same character after the run and fails the same way. */
  predicate DurationMatch(s: string, r: int) {
    RunStart(s, r) && DayAt(s, r + DigitRun(s, r))
  }

  /** The scan for `(\d+)\s*days?` from position `i`, trying each digit run
      in turn. */
  function DurationFrom(s: string, i: nat): Option<nat>
    requires i <= |s|
    decreases |s| - i
  {
    if i == |s| then None
    else if IsDigit(s[i]) then
      var n := DigitRun(s, i);
      if DayAt(s, i + n) then Some(Number(s[i..i + n])) else DurationFrom(s, i + n)
    else
      DurationFrom(s, i + 1)
  }

  /** The day count a message names, if any. */
  function FirstDuration(s: string): Option<nat> {
    DurationFrom(s, 0)
  }

  /** No start position inside a digit run: the scan only ever stands at
      the first digit of a run or on a non-digit. */
  predicate ScanPosition(s: string, i: nat) {
    i <= |s| && (0 < i < |s| && IsDigit(s[i]) ==> !IsDigit(s[i - 1]))
  }

  /** The scan returns the number of the leftmost match. */
  lemma {:induction false} DurationFromFindsLeftmost(s: string, i: nat, r: nat)
    requires ScanPosition(s, i) && i <= r
    requires DurationMatch(s, r)
    requires forall r' :: i <= r' < r ==> !DurationMatch(s, r')
    ensures DurationFrom(s, i) == Some(Number(s[r..r + DigitRun(s, r)]))
    decreases |s| - i
  {
    if i == r {
    } else if IsDigit(s[i]) {
      var n := DigitRun(s, i);
      assert RunStart(s, i) && !DurationMatch(s, i);
      assert !IsDigit(s[r - 1]);
      DurationFromFindsLeftmost(s, i + n, r);
    } else {
      DurationFromFindsLeftmost(s, i + 1, r);
    }
  }

  /** The scan finds something whenever there is a match. */
  lemma {:induction false} DurationFromFindsSome(s: string, i: nat, r: nat)
    requires ScanPosition(s, i) && i <= r
    requires DurationMatch(s, r)
    ensures DurationFrom(s, i).Some?
    decreases |s| - i
  {
    if i < r {
      if IsDigit(s[i]) {
        var n := DigitRun(s, i);
        if !DayAt(s, i + n) {
          RunEndsBefore(s, i, r);
          DurationFromFindsSome(s, i + n, r);
        }
      } else {
        DurationFromFindsSome(s, i + 1, r);
      }
    }
  }

  /** A later run start lies past the end of the digit run at `i`. */
  lemma RunEndsBefore(s: string, i: nat, r: nat)
    requires i < r && i < |s| && RunStart(s, r)
    ensures i + DigitRun(s, i) <= r
  {
  }

  /** Where no match starts at or after `i`, the scan finds nothing. */
  lemma {:induction false} DurationFromOnlyMatches(s: string, i: nat)
    requires ScanPosition(s, i)
    requires forall r :: i <= r < |s| ==> !DurationMatch(s, r)
    ensures DurationFrom(s, i) == None
    decreases |s| - i
  {
    if i < |s| {
      if IsDigit(s[i]) {
        var n := DigitRun(s, i);
        assert !DurationMatch(s, i) && RunStart(s, i);
        DurationFromOnlyMatches(s, i + n);
      } else {
        DurationFromOnlyMatches(s, i + 1);
      }
    }
  }

  /** A message names a day count exactly when the regular expression
      matches somewhere in it. */
  lemma FirstDurationIffMatch(s: string)
    ensures FirstDuration(s).Some? <==> exists r :: 0 <= r < |s| && DurationMatch(s, r)
  {
    if forall r :: 0 <= r < |s| ==> !DurationMatch(s, r) {
      DurationFromOnlyMatches(s, 0);
    }
    if r :| 0 <= r < |s| && DurationMatch(s, r) {
      DurationFromFindsSome(s, 0, r);
    }
  }

  /** The day count of a message is the one spelled by the leftmost match. */
  lemma FirstDurationIsLeftmost(s: string, r: nat)
    requires DurationMatch(s, r)
    requires forall r' :: 0 <= r' < r ==> !DurationMatch(s, r')
    ensures FirstDuration(s) == Some(Number(s[r..r + DigitRun(s, r)]))
  {
    DurationFromFindsLeftmost(s, 0, r);
  }

  /** "day" in any letter case. */
  predicate IsDayWord(w: string) {
    |w| == 3 && LowerChar(w[0]) == 'd' && LowerChar(w[1]) == 'a' && LowerChar(w[2]) == 'y'
  }

  /** Round trip: digit-free text, a number, optional white space and "day"
      in any case is read back as that number. */
  lemma DurationOfShow(p: string, n: nat, sp: string, day: string, q: string)
    requires NoDigits(p) && IsBlank(sp) && IsDayWord(day)
    ensures FirstDuration(p + Show(n) + sp + day + q) == Some(n)
  {
    var ds := Show(n);
    var s := p + ds + sp + day + q;
    Layout(p, ds, sp, day, q);
    DurationMatchAt(s, |p|, |ds|, |sp|);
    NumberOfShow(n);
    LeftmostReads(s, |p|, ds, n);
  }

  /** The leftmost match reads back the number its digits spell. */
  lemma LeftmostReads(s: string, r: nat, ds: string, n: nat)
    requires DurationMatch(s, r) && forall r' :: 0 <= r' < r ==> !DurationMatch(s, r')
    requires DigitRun(s, r) == |ds| && s[r..r + |ds|] == ds
    requires AllDigits(ds) && Number(ds) == n
    ensures FirstDuration(s) == Some(n)
  {
    FirstDurationIsLeftmost(s, r);
  }

  /** Where digit-free text, digits, white space and "day" sit in their
      concatenation. */
  lemma Layout(p: string, ds: string, sp: string, day: string, q: string)
    requires NoDigits(p) && AllDigits(ds) && |ds| > 0 && IsBlank(sp) && IsDayWord(day)
    ensures var s := p + ds + sp + day + q;
            var r, n, m := |p|, |ds|, |sp|;
            r + n + m + 3 <= |s| && s[r..r + n] == ds &&
            (forall j :: 0 <= j < r ==> !IsDigit(s[j])) &&
            (forall j :: r <= j < r + n ==> IsDigit(s[j])) &&
            (forall j :: r + n <= j < r + n + m ==> IsSpace(s[j])) &&
            LowerChar(s[r + n + m]) == 'd' && LowerChar(s[r + n + m + 1]) == 'a' &&
            LowerChar(s[r + n + m + 2]) == 'y'
  {
    var s := p + ds + sp + day + q;
    var r, e := |p|, |p| + |ds|;
    var w := e + |sp|;
    forall j | 0 <= j < r ensures !IsDigit(s[j]) { assert s[j] == p[j]; }
    forall j | r <= j < e ensures IsDigit(s[j]) { assert s[j] == ds[j - r]; }
    forall j | e <= j < w ensures IsSpace(s[j]) { assert s[j] == sp[j - e]; }
    assert s[w] == day[0] && s[w + 1] == day[1] && s[w + 2] == day[2];
    assert s[r..e] == ds;
  }

  /** Digits, white space and "day" laid out character by character make a
      match whose digit group is exactly the digits. */
  lemma DurationMatchAt(s: string, r: nat, n: nat, m: nat)
    requires r + n + m + 3 <= |s| && n > 0
    requires forall j :: 0 <= j < r ==> !IsDigit(s[j])
    requires forall j :: r <= j < r + n ==> IsDigit(s[j])
    requires forall j :: r + n <= j < r + n + m ==> IsSpace(s[j])
    requires LowerChar(s[r + n + m]) == 'd' && LowerChar(s[r + n + m + 1]) == 'a'
    requires LowerChar(s[r + n + m + 2]) == 'y'
    ensures DurationMatch(s, r) && DigitRun(s, r) == n
    ensures forall r' :: 0 <= r' < r ==> !DurationMatch(s, r')
  {
    assert !IsSpace(s[r + n + m]);
    if m > 0 {
      assert IsSpace(s[r + n]);
    }
    assert !IsDigit(s[r + n]);
    DigitRunOf(s, r, n);
    SpaceRunOf(s, r + n, m);
    assert RunStart(s, r);
    assert DayAt(s, r + n);
    NoMatchAmongNonDigits(s, r);
  }

  /** No match starts among non-digits. */
  lemma NoMatchAmongNonDigits(s: string, r: nat)
    requires r <= |s|
    requires forall j :: 0 <= j < r ==> !IsDigit(s[j])
    ensures forall r' :: 0 <= r' < r ==> !DurationMatch(s, r')
  {
    forall r' | 0 <= r' < r ensures !DurationMatch(s, r') {
      assert !IsDigit(s[r']);
    }
  }

  /** A white-space run of known extent has exactly that length. */
  lemma SpaceRunOf(s: string, i: nat, n: nat)
    requires i + n <= |s|
    requires forall j :: i <= j < i + n ==> IsSpace(s[j])
    requires i + n == |s| || !IsSpace(s[i + n])
    ensures SpaceRun(s, i) == n
    decreases n
  {
    if n > 0 {
      SpaceRunOf(s, i + 1, n - 1);
    }
  }

  /** A message without digits names no day count. */
  lemma NoDigitsNoDuration(s: string)
    requires NoDigits(s)
    ensures FirstDuration(s) == None
  {
    FirstDurationIffMatch(s);
  }
}

=== FILE: vocabulary.dfy ===
/** The fixed vocabularies the three assistants share: intent kinds with
    their wire names, interest tags, and the category tip sets. */
module Vocabulary {
  import opened Wrappers

  /** The intent types `destination`, `budget`, `itinerary`, `food`,
      `culture`, `timing` and `general`. */
  datatype Kind = Destination | Budget | Itinerary | Food | Culture | Timing | General

  function KindName(k: Kind): string {
    match k
    case Destination => "destination"
    case Budget => "budget"
    case Itinerary => "itinerary"
    case Food => "food"
    case Culture => "culture"
    case Timing => "timing"
    case General => "general"
  }

  /** The Python dispatch on an intent-type string: each of the six specific
      names selects its kind and every other string selects `General`. */
  function KindOfTag(tag: string): (k: Kind)
    ensures k != General ==> KindName(k) == tag
    ensures k == General ==> forall j :: j != General ==> KindName(j) != tag
  {
    if tag == "destination" then Destination
    else if tag == "budget" then Budget
    else if tag == "itinerary" then Itinerary
    else if tag == "food" then Food
    else if tag == "culture" then Culture
    else if tag == "timing" then Timing
    else General
  }

  /** Dispatching on a kind's own name gives the kind back. */
  lemma KindOfTagOfName(k: Kind)
    ensures KindOfTag(KindName(k)) == k
  {
  }

  /** The interest tags `adventure`, `culture`, `food`, `beach`, `mountain`,
      `spiritual` and `nature`. */
  datatype Interest = Adventure | CultureTag | FoodTag | Beach | Mountain | Spiritual | Nature

  function InterestName(i: Interest): string {
    match i
    case Adventure => "adventure"
    case CultureTag => "culture"
    case FoodTag => "food"
    case Beach => "beach"
    case Mountain => "mountain"
    case Spiritual => "spiritual"
    case Nature => "nature"
  }

  /** The five destination categories the services accept. */
  const AllowedCategories: seq<string> := ["Heritage", "Nature", "Beach", "Spiritual", "Adventure"]

  /** The three travel tips shown for a category. */
  datatype Tips = HeritageTips | NatureTips | BeachTips | SpiritualTips | AdventureTips | GeneralTips

  /** The tips table keyed by category, with the general tips as default
      (`tips[dest.category] || ...`, `tips.get(category, ...)`). */
  function TipsFor(category: string): (t: Tips)
    ensures t != GeneralTips <==> category in AllowedCategories
  {
    if category == "Heritage" then HeritageTips
    else if category == "Nature" then NatureTips
    else if category == "Beach" then BeachTips
    else if category == "Spiritual" then SpiritualTips
    else if category == "Adventure" then AdventureTips
    else GeneralTips
  }

  /** Different allowed categories get different tips. */
  lemma TipsDistinguishCategories(a: string, b: string)
    requires a in AllowedCategories && b in AllowedCategories && a != b
    ensures TipsFor(a) != TipsFor(b)
  {
  }
}

=== FILE: wrappers.dfy ===
/** Optional values and results with an error path. */
module Wrappers {
  datatype Option<+T> = None | Some(value: T) {
    function GetOr(default: T): T {
      match this
      case Some(v) => v
      case None => default
    }
  }

  datatype Result<+T, +E> = Ok(value: T) | Err(error: E)
}
